=== FILE: README.md ===
# IBEX knowledge-base utilities in Dafny

A model of the decision and string logic in the IBEX Imaging Community
knowledge-base utilities, with proofs about it. These Python scripts validate
the knowledge base's CSV, JSON and BibTeX files. They also turn those files into
the markdown pages of the web site, and write release notes.

Each script is a pure function over abstract inputs:

- A table is a set of column headings and a sequence of rows. Each row maps
  every heading to its cell text. This is a CSV file read with `dtype=str` and
  `keep_default_na=False`.
- A `.zenodo.json` document is a JSON value tree.
- A bibliography is a list of field maps plus the parser's comment blocks.
- A changelog is its sequence of lines.
- Whether a URL is live, whether a file exists and what a file contains are
  function parameters (oracles).

A script ends in one of two ways: it returns an exit code, or a Python
exception escapes it (`Outcome = Returned(code) | Raised(error)`). Where the
code crashes on some input (an `IndexError` on an empty list, a `KeyError` on
a missing column), the model has that crash as an outcome; no precondition
excludes the input.

Modules, following the scripts:

| module | file | models |
|---|---|---|
| `Text` | text.dfy | `str.strip`, `split`, `join`, `replace`, whitespace-separated words, `str(n)` |
| `Seqs` | seqs.dfy | sets of values in order of first appearance (`unique()`), stable sort, filters |
| `Tables` | tables.dfy | tables, spreadsheet row numbers (index + 2), the `;`-separated ORCID list of a cell |
| `Validation` | validation.dfy | `validate_df` and its helpers, including URL liveness with retries |
| `Paths` | paths.dfy | `replace_char_list` and the supporting-material file path of a contributor |
| `Links` | links.dfy | markdown links and reading bracketed ORCID identifiers back out of text |
| `Reagents` | reagents.dfy | `validate_reagent_resources`: configuration augmentation, row rules, supporting-material files |
| `Zenodo` | zenodo.dfy | `validate_zenodo_json` |
| `Probes` | probes.dfy | `validate_fluorescent_probes_data` |
| `Bibliography` | bib.dfy | `validate_bib_file_data` |
| `ReleaseNotes` | release_notes.dfy | `create_release_notes`, with the two regular expressions modelled for ASCII text |
| `DraftRelease` | draft_release.dfy | `read_reagent_resources_csv` and the counting and wording of `create_draft_release_notes` |
| `Supporting` | supporting.dfy | `csv_2_supporting`: input checks, ORCID selection, note and publication numbering, page contents |
| `IndexStats` | index_stats.dfy | `entry2list`, `compute_stats_dictionary`, the placeholder loop of `update_index_stats` |
| `ReagentMarkdown` | reagent_md.dfy | both copies of `reagent_resources_csv_2_md_url.py` |
| `Markdown` | markdown.dfy | `_description_2_md` (both variants), `_dataframe_2_md`'s newline handling, dataset, software and protocol titles, the contributor list |

Several behaviours of the code are modelled as written, even where they look
unintended, and each has a lemma that pins it down:

- `Supporting.UnnumberedPublicationsLeaveBrackets`: a publication cell whose
  pieces all lack a publication file still gets a ` [, ]` suffix.
- `DraftRelease.CsvLineReversed`: CSV lines read `Protocols: : 3 added`.
- `ReleaseNotes.CollectStops`: the line right after a terminating version
  heading is read and never examined.
- `ReagentMarkdown.ImageCaptionsMismatched`: surplus image paths shift the
  last caption onto the last path.
- `IndexStats.TrailingSeparatorCounted`: an empty piece counts as a
  contributor.
- `Markdown.DoiClause`: a DOI cell of only separators ends the title with
  `, associated publication DOIs: ]`.
- A vendor missing from the vendor table makes the converter return 1
  (`ReagentMarkdown.ConvertReturnsOne`).

Where the code as written is wrong, both versions are modelled (see
"## Findings"). The rest of the model, such as `validate_df` and
`validate_reagent_resources`, uses the corrected version.

## Model

| member | source | states |
|---|---|---|
| Validation.UrlExistsWithRetries | src/ibex_imaging_knowledge_base_utilities/data_validation/validation_utilities.py:42-86 | the URL counts as existing iff one of the first `retry_num + 1` attempts answers 200 or 403 or times out; attempts stop at the first success, and all of them are made on failure |
| Validation.RepeatsMembers | src/ibex_imaging_knowledge_base_utilities/data_validation/validation_utilities.py:136 | pandas `duplicated()` flags a value iff it occurs at two different rows |
| Validation.RepeatsEmpty | src/ibex_imaging_knowledge_base_utilities/data_validation/validation_utilities.py:136-137 | nothing is flagged exactly when the column has no repeated value |
| Validation.DuplicatedValues | src/ibex_imaging_knowledge_base_utilities/data_validation/validation_utilities.py:136 | the set of flagged values has no repeats and holds exactly the values found at two different rows |
| Validation.DuplicatedValuesEmpty | src/ibex_imaging_knowledge_base_utilities/data_validation/validation_utilities.py:137 | the duplicate set is empty exactly when the column has no repeated value |
| Validation.ReportsFor | src/ibex_imaging_knowledge_base_utilities/data_validation/validation_utilities.py:138-143 | one report per duplicated value, in order, each listing the rows whose cell equals that value |
| Validation.DuplicateInformation | src/ibex_imaging_knowledge_base_utilities/data_validation/validation_utilities.py:121-144 | only listed columns are reported, and a reported column has at least one duplicated value |
| Validation.DuplicateInformationKeys | src/ibex_imaging_knowledge_base_utilities/data_validation/validation_utilities.py:121-144 | the map is keyed by exactly the listed columns in which two rows hold the same value, so it is empty iff no listed column has a repeat |
| Validation.DuplicateReportValues | src/ibex_imaging_knowledge_base_utilities/data_validation/validation_utilities.py:136-143 | a column's reports name exactly the values that occur at two different rows |
| Validation.ColumnRepeats | src/ibex_imaging_knowledge_base_utilities/data_validation/validation_utilities.py:135-136 | a value is in the column's duplicate set iff two different rows of that column hold it |
| Validation.DuplicateReportRows | src/ibex_imaging_knowledge_base_utilities/data_validation/validation_utilities.py:131-143 | a report lists row number n iff n is the 0-based index + 2 of a row holding the reported value |
| Validation.MultiDuplicateInformation | src/ibex_imaging_knowledge_base_utilities/data_validation/validation_utilities.py:147-158 | the detection part of `duplicated_entries_multi_value_columns`: only listed columns are reported, each with the row numbers (index + 2) of exactly the cells whose stripped non-empty `;`-pieces repeat |
| Validation.MultiDuplicateInformationKeys | src/ibex_imaging_knowledge_base_utilities/data_validation/validation_utilities.py:153-159 | a column is reported iff one of its cells repeats a stripped `;`-piece |
| Validation.MultiDuplicateScanAsWritten | src/ibex_imaging_knowledge_base_utilities/data_validation/validation_utilities.py:147-160 | as written, the multi-value uniqueness check never makes `validate_df` return 1: it passes iff no cell repeats a piece, and crashes otherwise |
| Validation.MultiDuplicateAsWrittenRaises | src/ibex_imaging_knowledge_base_utilities/data_validation/validation_utilities.py:160 | a repeated piece makes the as-written check raise TypeError (joining ints), where the corrected check returns 1 |
| Validation.RepeatingCell | src/ibex_imaging_knowledge_base_utilities/data_validation/validation_utilities.py:156-157 | the cell `x;x` counts as repeating a value, so the TypeError path is reachable |
| Validation.MultiColumnData | src/ibex_imaging_knowledge_base_utilities/data_validation/validation_utilities.py:164-181 | the gathered set holds exactly the non-blank single-value cells and the stripped non-empty `;`-pieces of multi-value cells |
| Validation.MultiColumnDataMember | src/ibex_imaging_knowledge_base_utilities/data_validation/validation_utilities.py:177-180 | a value comes from a multi-value column iff it is non-empty and some `;`-piece of a cell strips to it |
| Validation.Scan | src/ibex_imaging_knowledge_base_utilities/data_validation/validation_utilities.py:184-379 | the chain of checks passes iff every check passes; otherwise its result is that of the first failing check, and every earlier check passed |
| Validation.ScanFirstFailure | src/ibex_imaging_knowledge_base_utilities/data_validation/validation_utilities.py:184-379 | when check k is the first that does not pass, the chain ends with check k's result |
| Validation.DuplicateStep | src/ibex_imaging_knowledge_base_utilities/data_validation/validation_utilities.py:134-137 | a duplicate check returns 1 iff some value repeats and never raises |
| Validation.HeadingsStep | src/ibex_imaging_knowledge_base_utilities/data_validation/validation_utilities.py:219-249 | returns 1 iff a column is both required and optional, or the headings differ from required ∪ optional (an extra or a missing column) |
| Validation.WhitespaceStep | src/ibex_imaging_knowledge_base_utilities/data_validation/validation_utilities.py:251-260 | returns 1 iff some cell differs from its stripped form |
| Validation.RequiredStep | src/ibex_imaging_knowledge_base_utilities/data_validation/validation_utilities.py:262-272 | returns 1 iff some required column holds an empty cell; raises (KeyError) iff a required column is absent |
| Validation.UniqueSingleStep | src/ibex_imaging_knowledge_base_utilities/data_validation/validation_utilities.py:274-285 | returns 1 iff some listed column holds a repeated value; raises iff a listed column is absent |
| Validation.UniqueMultiStep | src/ibex_imaging_knowledge_base_utilities/data_validation/validation_utilities.py:286-297 | corrected check: returns 1 iff some cell of a listed column repeats a stripped piece; raises iff a listed column is absent |
| Validation.LivenessStep | src/ibex_imaging_knowledge_base_utilities/data_validation/validation_utilities.py:299-326 | passes iff every gathered value, with the prefix (`https://doi.org/` for DOIs) in front, is judged existing by a single probe per URL (`check_urls` with its default of no retries); raises iff a listed column is absent |
| Validation.ColumnIsInStep | src/ibex_imaging_knowledge_base_utilities/data_validation/validation_utilities.py:328-347 | returns 1 iff some cell of a configured column is outside its allowed list; every configured column is inspected |
| Validation.MultiColumnIsInStep | src/ibex_imaging_knowledge_base_utilities/data_validation/validation_utilities.py:348-377 | returns 1 iff some non-empty `;`-piece of a configured column, taken unstripped, is outside its allowed list |
| Validation.Stop | src/ibex_imaging_knowledge_base_utilities/data_validation/validation_utilities.py:232-377 | a failing check makes `validate_df` return 1; a crashing one propagates its exception |
| Validation.ValidateDf | src/ibex_imaging_knowledge_base_utilities/data_validation/validation_utilities.py:184-379 | with the multi-value uniqueness check corrected (see "## Findings"), returns 0 iff every check in order passes, else 1 at the first failing check; bad headings and padded cells always give 1; it only raises when a configured column is absent |
| Validation.HeadingsRequired | src/ibex_imaging_knowledge_base_utilities/data_validation/validation_utilities.py:233-249 | once the headings are exactly required ∪ optional, every required column is present |
| Tables.RowNumbersFrom | src/ibex_imaging_knowledge_base_utilities/data_validation/validation_utilities.py:131-140 | from a starting index on, the row numbers listed are exactly index + 2 of the rows satisfying the selection |
| Tables.RowNumbers | src/ibex_imaging_knowledge_base_utilities/data_validation/validation_utilities.py:131-140 | the row numbers listed are exactly index + 2 of the rows satisfying the selection |
| Tables.RowNumbersEmpty | src/ibex_imaging_knowledge_base_utilities/data_validation/validation_utilities.py:131-140 | no row number is listed iff no row satisfies the selection |
| Tables.ParseOrcidList | src/ibex_imaging_knowledge_base_utilities/data_validation/validate_reagent_resources.py:117-122 | a parsed Agree/Disagree list never holds `""`, `"NA"` or a `;` |
| Tables.DropNA | src/ibex_imaging_knowledge_base_utilities/data_validation/validate_reagent_resources.py:117-122 | dropping `"NA"` keeps exactly the other pieces, in order |
| Tables.ParseOrcidListMembers | src/ibex_imaging_knowledge_base_utilities/data_validation/validate_reagent_resources.py:117-122 | a value is in the parsed list iff it is neither `""` nor `"NA"` and some `;`-piece of the cell strips to it |
| Tables.ParseOrcidListRoundTrip | src/ibex_imaging_knowledge_base_utilities/create_draft_release_notes.py:35-49 | joining a non-empty list of clean values with `;` and parsing it back gives the same list |
| Tables.NonEmptyStrippedIdentity | src/ibex_imaging_knowledge_base_utilities/create_draft_release_notes.py:35-49 | a list of clean values is left unchanged by stripping and by dropping empty and `"NA"` pieces |
| Text.JoinSplit | src/ibex_imaging_knowledge_base_utilities/data_validation/validation_utilities.py:156 | joining the `;`-pieces of a cell with `;` gives the cell back |
| Text.SplitJoin | src/ibex_imaging_knowledge_base_utilities/create_draft_release_notes.py:40-45 | splitting a `;`-joined list of pieces without `;` gives the pieces back |
| Text.SplitCount | src/ibex_imaging_knowledge_base_utilities/csv_2_supporting.py:194 | a cell splits into one more piece than it has separators |
| Text.WordsJoin | src/ibex_imaging_knowledge_base_utilities/md_generation/utilities.py:34 | splitting words joined by single spaces gives the same words back |
| Text.NatToString | src/ibex_imaging_knowledge_base_utilities/md_generation/update_index_md_stats.py:54 | `str` of a count is a canonical decimal numeral: a non-empty run of digits without a leading zero |
| Text.NatToStringValue | src/ibex_imaging_knowledge_base_utilities/md_generation/update_index_md_stats.py:54 | the decimal text of a count reads back as that count |
| Text.NatToStringInjective | src/ibex_imaging_knowledge_base_utilities/md_generation/update_index_md_stats.py:54 | two counts have the same decimal text iff they are equal |
| Text.NumeralIsNatToString | src/ibex_imaging_knowledge_base_utilities/md_generation/update_index_md_stats.py:54 | every canonical numeral is the decimal text of its value, so `str` on counts is onto the numerals |
| Seqs.SortByFixpoint | src/ibex_imaging_knowledge_base_utilities/validate_zenodo_json.py:121-125 | a list equals its stable sort by a key iff it is already ordered by that key |
| Seqs.DedupeKeepsFirstAppearanceOrder | src/ibex_imaging_knowledge_base_utilities/csv_2_supporting.py:127 | `unique()` keeps values in the order of their first appearance |
| Seqs.DistinctCount | src/ibex_imaging_knowledge_base_utilities/md_generation/update_index_md_stats.py:70-72 | a list is as long as its set of values iff it has no repeats |
| Paths.ReplaceOneChar | src/ibex_imaging_knowledge_base_utilities/data_validation/validate_reagent_resources.py:207-208 | `str.replace` of one character replaces exactly its occurrences, position by position, and keeps the length |
| Paths.ReplaceCharList | src/ibex_imaging_knowledge_base_utilities/data_validation/validate_reagent_resources.py:202-209 | the sanitised name has the same length as the input |
| Paths.ReplaceCharListPointwise | src/ibex_imaging_knowledge_base_utilities/data_validation/validate_reagent_resources.py:202-209 | each character of the result is the replacement where the input character is listed, and the input character otherwise |
| Paths.ReplaceCharListRemoves | src/ibex_imaging_knowledge_base_utilities/data_validation/validate_reagent_resources.py:202-209 | no listed character survives in the result |
| Paths.PairDirectory | src/ibex_imaging_knowledge_base_utilities/data_validation/validate_reagent_resources.py:225-259 | the directory of a target–conjugate pair is `target_conjugate` sanitised: same length and none of the 14 listed characters |
| Paths.SupportingFile | src/ibex_imaging_knowledge_base_utilities/data_validation/validate_reagent_resources.py:253-263 | a contributor's file sits two levels below the root: the first component is the pair's sanitised `target_conjugate` directory and the second is `orcid.md` |
| Links.FindOrcids | src/ibex_imaging_knowledge_base_utilities/data_validation/validate_reagent_resources.py:316-330 | every identifier read back from a supporting table has the shape NNNN-NNNN-NNNN-NNN followed by a digit or X |
| Links.FindOrcidsSkip | src/ibex_imaging_knowledge_base_utilities/data_validation/validate_reagent_resources.py:316-330 | text without `[` contributes no identifier |
| Links.FindOrcidsShort | src/ibex_imaging_knowledge_base_utilities/data_validation/validate_reagent_resources.py:316 | text shorter than a bracketed identifier holds none |
| Links.FindOrcidsNoHyphen | src/ibex_imaging_knowledge_base_utilities/data_validation/validate_reagent_resources.py:316 | text without a hyphen holds no identifier |
| Links.FindOrcidsInMdLink | src/ibex_imaging_knowledge_base_utilities/data_validation/validate_reagent_resources.py:316-325 | a link whose text is an identifier and whose target has no `[` yields exactly that identifier, brackets removed, before whatever follows |
| Links.FindOrcidsInLink | src/ibex_imaging_knowledge_base_utilities/data_validation/validate_reagent_resources.py:316-325 | an ORCID link `[orcid](https://orcid.org/orcid)` is read back as its identifier |
| Reagents.AllowedOrcids | src/ibex_imaging_knowledge_base_utilities/data_validation/validate_reagent_resources.py:69 | the allowed contributor values are exactly the stripped creator ORCIDs plus `"NA"` |
| Reagents.AugmentAsWrittenDropsContributor | src/ibex_imaging_knowledge_base_utilities/data_validation/validate_reagent_resources.py:77-82 | as written, a configuration without `column_is_in` ends up restricting only Vendor: the Contributor restriction is overwritten |
| Reagents.Augment | src/ibex_imaging_knowledge_base_utilities/data_validation/validate_reagent_resources.py:77-91 | corrected augmentation: Contributor and Vendor are restricted to the ORCIDs and vendor names, Agree and Disagree to the ORCIDs, every other configured restriction is kept and nothing else in the configuration changes |
| Reagents.AugmentAgreesWithColumnIsIn | src/ibex_imaging_knowledge_base_utilities/data_validation/validate_reagent_resources.py:77-79 | when the configuration already has `column_is_in`, the code as written and the corrected augmentation agree |
| Reagents.RowOrcids | src/ibex_imaging_knowledge_base_utilities/data_validation/validate_reagent_resources.py:117-122 | the ORCIDs of a row never include `""` or `"NA"` |
| Reagents.RowOrcidsMembers | src/ibex_imaging_knowledge_base_utilities/data_validation/validate_reagent_resources.py:117-128 | a value is among a row's ORCIDs iff it is in the parsed Agree list or the parsed Disagree list |
| Reagents.RepeatedRowsStep | src/ibex_imaging_knowledge_base_utilities/data_validation/validate_reagent_resources.py:98-109 | returns 1 iff two rows are equal once Contributor, Agree and Disagree are dropped; raises iff one of those columns is absent |
| Reagents.ContributorStep | src/ibex_imaging_knowledge_base_utilities/data_validation/validate_reagent_resources.py:117-134 | returns 1 iff some row's Contributor is in neither its parsed Agree nor its parsed Disagree list |
| Reagents.MaxEntriesStep | src/ibex_imaging_knowledge_base_utilities/data_validation/validate_reagent_resources.py:135-149 | returns 1 iff some row's Agree or Disagree list has more than MAX_ORCID_ENTRIES = 5 entries |
| Reagents.DisjointStep | src/ibex_imaging_knowledge_base_utilities/data_validation/validate_reagent_resources.py:151-165 | corrected check: returns 1 iff some row has an ORCID in both its Agree and Disagree lists |
| Reagents.DisjointStepAsWritten | src/ibex_imaging_knowledge_base_utilities/data_validation/validate_reagent_resources.py:151-165 | as written, the disjointness check never returns 1: it passes or raises TypeError |
| Reagents.DisjointAsWrittenRaises | src/ibex_imaging_knowledge_base_utilities/data_validation/validate_reagent_resources.py:158-160 | an ORCID in both lists makes the as-written check raise TypeError (iterating an int row index), where the corrected check returns 1 |
| Reagents.Pairs | src/ibex_imaging_knowledge_base_utilities/data_validation/validate_reagent_resources.py:169-171 | the distinct target–conjugate pairs, each once, are exactly the pairs of the rows |
| Reagents.PairOrcids | src/ibex_imaging_knowledge_base_utilities/data_validation/validate_reagent_resources.py:246-248 | the ORCIDs of a pair never include `"NA"` or `""` |
| Reagents.ExpectedFilesComplete | src/ibex_imaging_knowledge_base_utilities/data_validation/validate_reagent_resources.py:243-263 | every non-NA ORCID of every row has its expected file `root/target_conjugate/orcid.md` |
| Reagents.ExpectedFilesSound | src/ibex_imaging_knowledge_base_utilities/data_validation/validate_reagent_resources.py:243-263 | every expected file is the file of some row's ORCID |
| Reagents.PairOrcidsRow | src/ibex_imaging_knowledge_base_utilities/data_validation/validate_reagent_resources.py:243-248 | an ORCID of a pair comes from a row of that pair |
| Reagents.ExpectedFilesMembers | src/ibex_imaging_knowledge_base_utilities/data_validation/validate_reagent_resources.py:243-263 | a path is expected iff it is `root/target_conjugate/orcid.md` for an ORCID of some row |
| Reagents.SupportingStep | src/ibex_imaging_knowledge_base_utilities/data_validation/validate_reagent_resources.py:167-186 | returns 1 iff some expected file is missing or inconsistent with the table; raises iff the target or conjugate column is absent |
| Reagents.MissingFileInconsistent | src/ibex_imaging_knowledge_base_utilities/data_validation/validate_reagent_resources.py:264-268 | one missing or inconsistent expected file makes the supporting material inconsistent |
| Reagents.ExpectedFilesConsistent | src/ibex_imaging_knowledge_base_utilities/data_validation/validate_reagent_resources.py:181-186 | when every expected file exists and is consistent, the supporting material is consistent |
| Reagents.SuperfluousStep | src/ibex_imaging_knowledge_base_utilities/data_validation/validate_reagent_resources.py:187-198 | returns 1 iff some `.md` file on disk is not an expected file |
| Reagents.ValidateReagentResources | src/ibex_imaging_knowledge_base_utilities/data_validation/validate_reagent_resources.py:47-199 | with the configuration and disjointness checks corrected (see "## Findings"), a non-zero `validate_df` result is returned as is; otherwise 0 iff every row rule and the supporting-material checks pass, and 1 or an exception otherwise |
| Reagents.ContributorMustBeListed | src/ibex_imaging_knowledge_base_utilities/data_validation/validate_reagent_resources.py:123-134 | a row whose Contributor is in neither list can never validate |
| Zenodo.FieldStep | src/ibex_imaging_knowledge_base_utilities/validate_zenodo_json.py:92-97 | a creator field passes iff it is text that is not blank after stripping; a non-text value raises AttributeError on `.strip()` |
| Zenodo.CreatorStep | src/ibex_imaging_knowledge_base_utilities/validate_zenodo_json.py:89-99 | a creator passes iff it has affiliation, name and orcid, each non-blank; missing keys short-circuit to 1, and a non-text field raises AttributeError |
| Zenodo.OrderStep | src/ibex_imaging_knowledge_base_utilities/validate_zenodo_json.py:115-130 | passes iff the first ORCID is 0000-0003-0315-7727, the last 0000-0003-4379-8967, the second-to-last 0000-0003-1495-9143, and the creators between are in name order; an empty list raises IndexError |
| Zenodo.GrantStep | src/ibex_imaging_knowledge_base_utilities/validate_zenodo_json.py:134-137 | a grant passes iff its id is text that is not blank after stripping; a grant without a text id raises |
| Zenodo.OrcidStep | src/ibex_imaging_knowledge_base_utilities/validate_zenodo_json.py:107-114 | passes iff the liveness oracle accepts `https://orcid.org/<orcid>` for every creator |
| Zenodo.ListsStep | src/ibex_imaging_knowledge_base_utilities/validate_zenodo_json.py:87-146 | the checks after the shape check return 0 iff creators are complete and unique, their ORCIDs live and ordered, and grants complete and unique |
| Zenodo.CreatorsStep | src/ibex_imaging_knowledge_base_utilities/validate_zenodo_json.py:87-130 | the creator checks pass iff every creator is complete, the ORCIDs are unique and live, and the order holds; they raise IndexError exactly for an empty creator list |
| Zenodo.CreatorScanRaises | src/ibex_imaging_knowledge_base_utilities/validate_zenodo_json.py:90-99 | the creator loop passes iff every creator is complete, and any exception it raises is AttributeError |
| Zenodo.GrantsStep | src/ibex_imaging_knowledge_base_utilities/validate_zenodo_json.py:132-145 | the grant checks pass iff every id is non-blank and no id repeats; an exception comes from some grant without a text id |
| Zenodo.ShapeStep | src/ibex_imaging_knowledge_base_utilities/validate_zenodo_json.py:63-86 | passes iff the keys are exactly title, upload_type, description, creators, grants, keywords, license and each value has exactly its declared type |
| Zenodo.ValidateZenodoJson | src/ibex_imaging_knowledge_base_utilities/validate_zenodo_json.py:54-146 | returns 0 iff every check passes, else 1; a wrong key set or type always gives 1 |
| Zenodo.EmptyCreatorsRaise | src/ibex_imaging_knowledge_base_utilities/validate_zenodo_json.py:117-118 | a well-shaped document with no creators raises IndexError at the order check |
| Zenodo.SortingMiddleRepairsOrder | src/ibex_imaging_knowledge_base_utilities/validate_zenodo_json.py:121-125 | with the three fixed creators in place, sorting the middle by name always satisfies the order check |
| Zenodo.OutOfOrderRejected | src/ibex_imaging_knowledge_base_utilities/validate_zenodo_json.py:121-130 | two neighbouring middle creators out of name order make the order check fail |
| Probes.ValidateFluorescentProbes | src/ibex_imaging_knowledge_base_utilities/data_validation/validate_fluorescent_probes.py:31-65 | returns 0 iff no cell has leading or trailing whitespace and no "Fluorescent Probe" value repeats; padding gives 1 before duplicates are looked at; a missing probe column raises KeyError |
| Probes.ProbeDuplicates | src/ibex_imaging_knowledge_base_utilities/data_validation/validate_fluorescent_probes.py:48-53 | the duplicate report is empty iff no probe name repeats |
| Probes.ProbeDuplicatesValues | src/ibex_imaging_knowledge_base_utilities/data_validation/validate_fluorescent_probes.py:52-59 | the report names exactly the probe names that occur in two different rows |
| Probes.ProbeDuplicatesRows | src/ibex_imaging_knowledge_base_utilities/data_validation/validate_fluorescent_probes.py:56-59 | each reported probe lists exactly the row numbers (index + 2) holding it |
| Bibliography.EntryStep | src/ibex_imaging_knowledge_base_utilities/data_validation/validate_bib.py:61-73 | an entry passes iff it has an ID and its lower-cased keys contain id, author, title, year, doi and note; an entry without ID raises KeyError |
| Bibliography.ValidateBib | src/ibex_imaging_knowledge_base_utilities/data_validation/validate_bib.py:39-81 | returns 0 iff there are no comments, every entry is complete and no ID repeats; comments always give 1; an exception is a KeyError for an entry without ID |
| Bibliography.FirstIncompleteEntryFails | src/ibex_imaging_knowledge_base_utilities/data_validation/validate_bib.py:60-73 | the first incomplete entry makes the result 1, whatever the later entries and the duplicate check would say |
| Bibliography.UpperCaseFieldsAccepted | src/ibex_imaging_knowledge_base_utilities/data_validation/validate_bib.py:66-68 | field names are compared case-insensitively, so upper- and mixed-case fields satisfy the requirement |
| ReleaseNotes.TagTokensMatch | create_release_notes.py:44 | the tag inserted as regex text matches a line prefix iff every `.` of the tag meets a non-newline character and every other character of the tag meets itself |
| ReleaseNotes.VersionHeadingMatches | create_release_notes.py:45 | every line `## vMAJOR.MINOR.PATCH...` with non-empty digit runs matches the terminating version pattern |
| ReleaseNotes.Scan | create_release_notes.py:49-60 | the outer loop only appends, and everything it appends is a changelog line other than a terminating version heading |
| ReleaseNotes.Collect | create_release_notes.py:54-60 | the inner loop only appends, and everything it appends is a changelog line other than a terminating version heading |
| ReleaseNotes.Extract | create_release_notes.py:47-60 | every collected note is a changelog line that is not a terminating version heading |
| ReleaseNotes.ScanNoHeading | create_release_notes.py:49-53 | with no tag heading in the rest of the file, nothing more is collected |
| ReleaseNotes.CollectSection | create_release_notes.py:54-60 | after the tag heading, the inner loop collects exactly the lines up to, not including, the next version heading or the end of file |
| ReleaseNotes.CollectStops | create_release_notes.py:56-60 | at a version heading (or the end of file) the inner loop adds nothing; the line after that heading is consumed unseen |
| ReleaseNotes.ExtractSection | create_release_notes.py:44-60 | when the tag heading occurs once, the notes are exactly the lines between it and the next version heading or the end of file |
| ReleaseNotes.ScanPrefix | create_release_notes.py:49-53 | lines before the first tag heading contribute nothing |
| ReleaseNotes.TrimBlankTail | create_release_notes.py:61-64 | trimming keeps a prefix of the notes, removes only whitespace-only lines, and leaves a last line that is not whitespace-only |
| ReleaseNotes.DropFirst | create_release_notes.py:39 | `release_tag[1:]` drops the first character, and is empty for an empty tag |
| ReleaseNotes.CreateReleaseNotes | create_release_notes.py:32-70 | returns 0 and writes the fixed header followed by the trimmed notes iff some collected line is not whitespace-only; otherwise returns 1 and writes nothing |
| ReleaseNotes.OneLineSection | create_release_notes.py:32-70 | a tag section holding one non-blank line produces exactly the header followed by that line |
| DraftRelease.ReadReagent | src/ibex_imaging_knowledge_base_utilities/create_draft_release_notes.py:35-112 | a reagent's configuration is its row restricted to the merge columns, cells unchanged, and its Agree, Disagree and MD5 lists never hold `""` or `"NA"` |
| DraftRelease.ConfigColumns | src/ibex_imaging_knowledge_base_utilities/create_draft_release_notes.py:101-112 | the merge columns are exactly the new release's columns that are not ignored |
| DraftRelease.ExtraColumnIgnored | src/ibex_imaging_knowledge_base_utilities/create_draft_release_notes.py:119-125 | a column outside the merge columns, such as one only the old release has, does not change a row's configuration or lists |
| DraftRelease.Match | src/ibex_imaging_knowledge_base_utilities/create_draft_release_notes.py:119-125 | a configuration (on the new release's merge columns) present in the other release is matched to its first row there |
| DraftRelease.Unmatched | src/ibex_imaging_knowledge_base_utilities/create_draft_release_notes.py:126-128 | the additions (or deletions) are at most the number of rows, and zero iff every configuration also occurs in the other release |
| DraftRelease.ReplicationsAppend | src/ibex_imaging_knowledge_base_utilities/create_draft_release_notes.py:130-146 | the replication total is a sum over rows: one more row adds its own term |
| DraftRelease.UnmatchedAppend | src/ibex_imaging_knowledge_base_utilities/create_draft_release_notes.py:126-128 | the addition count is a sum over rows: one more row adds 1 iff its configuration is new |
| DraftRelease.SameReleaseNoChanges | src/ibex_imaging_knowledge_base_utilities/create_draft_release_notes.py:119-149 | comparing a release with itself finds no addition, deletion or replication |
| DraftRelease.NoReplications | src/ibex_imaging_knowledge_base_utilities/create_draft_release_notes.py:130-138 | rows carried over unchanged add no replication |
| DraftRelease.OneNewValidation | src/ibex_imaging_knowledge_base_utilities/create_draft_release_notes.py:126-146 | one new configuration counts as one addition, no deletion, and its entry count minus 1 replications |
| DraftRelease.Parts | src/ibex_imaging_knowledge_base_utilities/create_draft_release_notes.py:152-158 | only positive counts are listed, so the list is empty iff no count is positive |
| DraftRelease.PartsAllPositive | src/ibex_imaging_knowledge_base_utilities/create_draft_release_notes.py:152-158 | with every count positive, the parts are `<count> <word>` in the given order |
| DraftRelease.Summary | src/ibex_imaging_knowledge_base_utilities/create_draft_release_notes.py:150-159 | a summary line is emitted iff some count is positive, and then reads `* <title>: ...` ending in a newline |
| DraftRelease.ReagentLine | src/ibex_imaging_knowledge_base_utilities/create_draft_release_notes.py:150-159 | the reagent line appears iff additions, deletions or replications are positive |
| DraftRelease.SetDiffLine | src/ibex_imaging_knowledge_base_utilities/create_draft_release_notes.py:171-180 | the images (or publications) line appears iff the two sets differ |
| DraftRelease.SetsDiffer | src/ibex_imaging_knowledge_base_utilities/create_draft_release_notes.py:171-173 | two sets are equal iff neither difference has an element |
| DraftRelease.SetDiffBalance | src/ibex_imaging_knowledge_base_utilities/create_draft_release_notes.py:171-172 | added minus removed equals the change in set size |
| DraftRelease.CsvLine | src/ibex_imaging_knowledge_base_utilities/create_draft_release_notes.py:183-189 | a CSV line appears iff the row count changed |
| DraftRelease.CsvLineReversed | src/ibex_imaging_knowledge_base_utilities/create_draft_release_notes.py:186-189 | growing from a to b reports `b - a added` and shrinking from b to a reports `b - a removed`, under the label (which ends in `: `, giving `Protocols: : n`) |
| DraftRelease.CsvLinesUnchanged | src/ibex_imaging_knowledge_base_utilities/create_draft_release_notes.py:183-189 | equal counts for every CSV give no CSV line |
| DraftRelease.FirstTimeContributors | src/ibex_imaging_knowledge_base_utilities/create_draft_release_notes.py:206-208 | first-time contributors are exactly the new ORCIDs that were not among the old ones |
| DraftRelease.Congratulations | src/ibex_imaging_knowledge_base_utilities/create_draft_release_notes.py:209-222 | the congratulations section appears iff some new ORCID was not among the old ones |
| DraftRelease.OrcidLinksReadBack | src/ibex_imaging_knowledge_base_utilities/create_draft_release_notes.py:216-221 | reading the identifiers back out of the `, `-joined ORCID links gives the listed ORCIDs, in order |
| DraftRelease.Md5s | src/ibex_imaging_knowledge_base_utilities/create_draft_release_notes.py:163-170 | the image set holds exactly the MD5 values of some row's list |
| DraftRelease.CreateDraftReleaseNotes | src/ibex_imaging_knowledge_base_utilities/create_draft_release_notes.py:52-228 | the notes always start with the fixed introduction; the script fails iff a release lacks the Agree, Disagree or MD5 column, or the old release lacks one of the new release's merge columns |
| DraftRelease.UnchangedReleaseIntroOnly | src/ibex_imaging_knowledge_base_utilities/create_draft_release_notes.py:52-224 | comparing a release with itself gives only the introduction |
| DraftRelease.NoChanges | src/ibex_imaging_knowledge_base_utilities/create_draft_release_notes.py:150-222 | identical releases produce no change lines at all |
| Supporting.SingleOrcidCases | src/ibex_imaging_knowledge_base_utilities/csv_2_supporting.py:190-195 | a row passes `single_orcid` iff exactly one of Agree and Disagree is neither blank nor `"NA"`, and that one holds no `;` (empty pieces such as in `a;` still count) |
| Supporting.InputStep | src/ibex_imaging_knowledge_base_utilities/csv_2_supporting.py:198-227 | the input checks pass iff every row names one ORCID and no cell has leading or trailing whitespace; they raise ValueError iff one of those fails with the Agree and Disagree columns present, and KeyError when a column is missing |
| Supporting.Numbering | src/ibex_imaging_knowledge_base_utilities/csv_2_supporting.py:132-134 | every numbered item gets a label with a number between 1 and the count of items, and only listed items are numbered |
| Supporting.NumberingPositions | src/ibex_imaging_knowledge_base_utilities/csv_2_supporting.py:132-161 | the k-th distinct item gets the label of number k + 1 |
| Supporting.NumberingHyphenFree | src/ibex_imaging_knowledge_base_utilities/csv_2_supporting.py:133 | note and publication labels never contain a hyphen |
| Supporting.Enumerated | src/ibex_imaging_knowledge_base_utilities/csv_2_supporting.py:129-155 | the section lists item k as `<from + k>. item`, one per item, in order |
| Supporting.NotesList | src/ibex_imaging_knowledge_base_utilities/csv_2_supporting.py:126-128 | the notes list holds each non-blank note of the rows exactly once |
| Supporting.NotesListFirstAppearance | src/ibex_imaging_knowledge_base_utilities/csv_2_supporting.py:126-128 | notes keep the order of their first appearance among the non-blank notes |
| Supporting.NotesSection | src/ibex_imaging_knowledge_base_utilities/csv_2_supporting.py:129-131 | the notes section always starts with the `notes` anchor, and is nothing more iff there are no notes |
| Supporting.PublicationsList | src/ibex_imaging_knowledge_base_utilities/csv_2_supporting.py:137-149 | the publications list is sorted, has no repeats, and holds exactly the non-empty stripped `;`-pieces of the rows that have a publication file; the empty name is never listed |
| Supporting.PublicationsListIsSortedSet | src/ibex_imaging_knowledge_base_utilities/csv_2_supporting.py:147-149 | any sorted repeat-free list of the used, non-empty and available publications is the publications list, so it is `sorted(used ∩ available)` |
| Supporting.SuperfluousSemicolonIgnored | src/ibex_imaging_knowledge_base_utilities/csv_2_supporting.py:236-239 | the empty piece a superfluous `;` leaves is never a publication, even when a file named `.md` exists, while the other piece is listed iff its file exists |
| Supporting.PublicationsSection | src/ibex_imaging_knowledge_base_utilities/csv_2_supporting.py:178-182 | the publications section is empty iff there are no publications, and otherwise starts with the `publications` anchor |
| Supporting.PieceNumbers | src/ibex_imaging_knowledge_base_utilities/csv_2_supporting.py:53-58 | each `;`-piece maps to its publication's label when it has one and to `""` otherwise |
| Supporting.PubNumbersEmpty | src/ibex_imaging_knowledge_base_utilities/csv_2_supporting.py:53-60 | with non-empty labels, the joined numbers are empty iff the cell is one piece without a publication label |
| Supporting.AgreeWithNumbers | src/ibex_imaging_knowledge_base_utilities/csv_2_supporting.py:52-60 | the Agree cell always starts with `[orcid](https://orcid.org/orcid)`, and is exactly that iff the joined numbers are empty |
| Supporting.UnnumberedPublicationsLeaveBrackets | src/ibex_imaging_knowledge_base_utilities/csv_2_supporting.py:53-60 | two publications without a file still produce the bracket suffix ` [, ]`, because the joined empty labels are not empty |
| Supporting.AgreeCellReadBack | src/ibex_imaging_knowledge_base_utilities/csv_2_supporting.py:52-60 | reading the identifiers back out of a generated Agree cell gives exactly its ORCID |
| Supporting.PairContributors | src/ibex_imaging_knowledge_base_utilities/csv_2_supporting.py:105-111 | the ORCIDs of a pair have no repeats and are exactly the Agree or Disagree values of its rows other than `""` and `"NA"` |
| Supporting.PairContributorsMembers | src/ibex_imaging_knowledge_base_utilities/csv_2_supporting.py:105-111 | the concatenated Agree and Disagree cells of a pair's rows hold exactly the values named by those rows |
| Supporting.CreatedFilesMembers | src/ibex_imaging_knowledge_base_utilities/csv_2_supporting.py:112-186 | a file is created iff it is `root/target_conjugate/orcid.md` for an ORCID named by a row of that pair |
| Supporting.CreatedFilesSound | src/ibex_imaging_knowledge_base_utilities/csv_2_supporting.py:183-186 | every created file belongs to an ORCID named by some row |
| Supporting.CreatedFilesComplete | src/ibex_imaging_knowledge_base_utilities/csv_2_supporting.py:122-186 | every ORCID a row names gets its file |
| Supporting.CreatedFilesAreExpected | src/ibex_imaging_knowledge_base_utilities/csv_2_supporting.py:105-186 | for input that passes the checks, the created files are exactly the files the reagent validator expects |
| Supporting.CheckedRow | src/ibex_imaging_knowledge_base_utilities/csv_2_supporting.py:204-227 | on checked input, the parsed ORCIDs of a row are exactly the one ORCID the row names |
| Supporting.PageRow | src/ibex_imaging_knowledge_base_utilities/csv_2_supporting.py:135-171 | a page row drops Publications, links the Contributor, turns Agree into the ORCID link with publication numbers, and numbers a known note |
| Supporting.Rewritten | src/ibex_imaging_knowledge_base_utilities/csv_2_supporting.py:135-171 | rewriting a row changes only the Notes, Agree and Contributor cells and drops Publications; every other cell is kept |
| Supporting.ContributorRows | src/ibex_imaging_knowledge_base_utilities/csv_2_supporting.py:123-125 | a contributor's page holds exactly the rows of the pair that name that ORCID |
| Supporting.PageOf | src/ibex_imaging_knowledge_base_utilities/csv_2_supporting.py:123-171 | one page row per configuration row |
| Supporting.PageRowAt | src/ibex_imaging_knowledge_base_utilities/csv_2_supporting.py:126-171 | row k of a contributor's page is configuration row k rewritten with the numbering of that page's notes and publications |
| Supporting.PageNotesEmpty | src/ibex_imaging_knowledge_base_utilities/csv_2_supporting.py:126-131 | the page's notes section is only the anchor iff every row's note is blank |
| Supporting.NotesListEmpty | src/ibex_imaging_knowledge_base_utilities/csv_2_supporting.py:126-128 | there are no notes iff every note is blank |
| Supporting.PagePublicationsEmpty | src/ibex_imaging_knowledge_base_utilities/csv_2_supporting.py:137-182 | the page's publications section is empty iff no non-empty publication piece of its rows has a file |
| Supporting.PageAgreeReadBack | src/ibex_imaging_knowledge_base_utilities/csv_2_supporting.py:162-166 | for a configuration row whose Agree cell is a well-formed ORCID, the Agree cell of its page row reads back as that ORCID |
| Supporting.PageNoteNumbered | src/ibex_imaging_knowledge_base_utilities/csv_2_supporting.py:126-135 | a row with a non-blank note shows that note's number in the notes list |
| IndexStats.EntryToSet | src/ibex_imaging_knowledge_base_utilities/md_generation/update_index_md_stats.py:59-74 | `entry2list` raises ValueError iff the stripped non-empty pieces repeat; otherwise it returns exactly those pieces as a set of the same size |
| IndexStats.BlankHasNoPieces | src/ibex_imaging_knowledge_base_utilities/md_generation/update_index_md_stats.py:67-68 | a blank entry has no non-empty piece, so it yields the empty set |
| IndexStats.ComputeStats | src/ibex_imaging_knowledge_base_utilities/md_generation/update_index_md_stats.py:77-115 | the statistics are missing (KeyError) iff a needed column is absent; otherwise contributors, validated reagents, probes and tissues in that order, with the row count as the reagent count |
| IndexStats.ContributorsAreParsedOrcids | src/ibex_imaging_knowledge_base_utilities/md_generation/update_index_md_stats.py:85-94 | a non-empty value counts as a contributor iff it is in some row's parsed Agree or Disagree list |
| IndexStats.TrailingSeparatorCounted | src/ibex_imaging_knowledge_base_utilities/md_generation/update_index_md_stats.py:86-93 | only `"NA"` is excluded, so a trailing `;` in an Agree cell makes `""` count as a contributor |
| IndexStats.FiguresBounded | src/ibex_imaging_knowledge_base_utilities/md_generation/update_index_md_stats.py:96-114 | there are at most as many probes and tissue triples as rows, and at least one triple when there is a row |
| IndexStats.ProbeMembers | src/ibex_imaging_knowledge_base_utilities/md_generation/update_index_md_stats.py:96-111 | a value counts as a probe iff some row's Conjugate holds it and it is not one of the eight excluded names |
| IndexStats.ReplaceSegments | src/ibex_imaging_knowledge_base_utilities/md_generation/update_index_md_stats.py:54 | replacing `{key}` in a template that is text plus placeholders fills exactly that key's slots and leaves all other text unchanged |
| IndexStats.SubstituteFills | src/ibex_imaging_knowledge_base_utilities/md_generation/update_index_md_stats.py:52-54 | substituting every statistic fills every placeholder with the decimal text of its value and changes nothing else |
| IndexStats.SubstituteWithoutPlaceholders | src/ibex_imaging_knowledge_base_utilities/md_generation/update_index_md_stats.py:52-54 | a template without `{` comes out unchanged |
| ReagentMarkdown.DataToMd | src/ibex_imaging_knowledge_base_utilities/md_generation/reagent_resources_csv_2_md_url.py:120-171 | a stripped `"NA"` cell gives `"NA"`; otherwise one `[v](root/target_conjugate/v.md)` link per stripped non-empty piece, in order, joined by `, `; a cell with no piece raises IndexError |
| ReagentMarkdown.DataToMdReadBack | src/ibex_imaging_knowledge_base_utilities/reagent_resources_csv_2_md_url.py:133-155 | reading the identifiers back out of a converted Agree or Disagree cell gives its pieces in order |
| ReagentMarkdown.SupportLinksReadBack | src/ibex_imaging_knowledge_base_utilities/reagent_resources_csv_2_md_url.py:138-154 | the `, `-joined support links read back as the listed identifiers, in order |
| ReagentMarkdown.ImageLinks | src/ibex_imaging_knowledge_base_utilities/md_generation/reagent_resources_csv_2_md_url.py:190-191 | pairing paths with captions stops at the shorter list, each pair giving `[caption](dir/path)` |
| ReagentMarkdown.ImageCaptionToMd | src/ibex_imaging_knowledge_base_utilities/md_generation/reagent_resources_csv_2_md_url.py:174-193 | a stripped `"NA"` path cell gives `"NA"`; otherwise the first paths and captions are paired up to the shorter list and the last caption is linked to the last path; no path or no caption raises IndexError |
| ReagentMarkdown.ImageCaptionsPaired | src/ibex_imaging_knowledge_base_utilities/md_generation/reagent_resources_csv_2_md_url.py:180-193 | with as many captions as paths, each caption is linked to its own path, in order, joined by `, ` |
| ReagentMarkdown.ImageCaptionsMismatched | src/ibex_imaging_knowledge_base_utilities/md_generation/reagent_resources_csv_2_md_url.py:190-192 | two paths and one caption give a single link pairing that caption with the second path |
| ReagentMarkdown.UniprotToMd | src/ibex_imaging_knowledge_base_utilities/md_generation/reagent_resources_csv_2_md_url.py:196-221 | `"NA"` stays `"NA"` with no lookup; an accession stays plain text iff the service answered with a status other than 200, and otherwise becomes its UniProt link |
| ReagentMarkdown.UniprotsToMd | src/ibex_imaging_knowledge_base_utilities/md_generation/reagent_resources_csv_2_md_url.py:224-230 | the looked-up texts of the stripped non-empty accessions are joined by `, `; no accession raises IndexError and an accession missing from the table raises KeyError |
| ReagentMarkdown.UniprotTable | src/ibex_imaging_knowledge_base_utilities/md_generation/reagent_resources_csv_2_md_url.py:270-279 | the lookup table has exactly the stripped `;`-pieces of the column as keys, each mapped to its converted text |
| ReagentMarkdown.UniprotLookupsFound | src/ibex_imaging_knowledge_base_utilities/reagent_resources_csv_2_md_url.py:233-245 | every accession of the column is in the table, so converting a cell never raises KeyError, and succeeds iff the cell has an accession |
| ReagentMarkdown.UniprotNotAvailable | src/ibex_imaging_knowledge_base_utilities/reagent_resources_csv_2_md_url.py:186-192 | an `NA` accession cell is converted to `NA` |
| ReagentMarkdown.Assign | src/ibex_imaging_knowledge_base_utilities/md_generation/reagent_resources_csv_2_md_url.py:257-299 | a column assignment succeeds iff every cell converts, and then replaces exactly that column of each row; a failure carries the exception of some cell |
| ReagentMarkdown.Apply | src/ibex_imaging_knowledge_base_utilities/md_generation/reagent_resources_csv_2_md_url.py:257-299 | applying a conversion succeeds iff it renders every row, and then rewrites exactly its column in every row |
| ReagentMarkdown.ApplyKeeps | src/ibex_imaging_knowledge_base_utilities/md_generation/reagent_resources_csv_2_md_url.py:257-299 | a successful conversion keeps every other column of every row |
| ReagentMarkdown.ImageStage | src/ibex_imaging_knowledge_base_utilities/md_generation/reagent_resources_csv_2_md_url.py:295-299 | the image stage succeeds iff the Image Files, Captions and MD5 columns exist and every row's images convert |
| ReagentMarkdown.DropImageColumns | src/ibex_imaging_knowledge_base_utilities/md_generation/reagent_resources_csv_2_md_url.py:299 | dropping the image columns removes exactly Image Files, Captions and MD5 from each row |
| ReagentMarkdown.Convert | src/ibex_imaging_knowledge_base_utilities/md_generation/reagent_resources_csv_2_md_url.py:246-255 | a table without the Target column raises KeyError at the sort, even when it has no rows; an empty table with that column is written unchanged |
| ReagentMarkdown.LinkStagesResult | src/ibex_imaging_knowledge_base_utilities/md_generation/reagent_resources_csv_2_md_url.py:257-265 | linking succeeds iff the four link columns exist and every Agree and Disagree cell converts, and it changes no other column |
| ReagentMarkdown.AgreeFailureFirst | src/ibex_imaging_knowledge_base_utilities/md_generation/reagent_resources_csv_2_md_url.py:257-265 | with the Agree stage's columns present, an Agree cell that cannot convert ends the run with that cell's exception, even when the Disagree column is missing |
| ReagentMarkdown.UniprotStageResult | src/ibex_imaging_knowledge_base_utilities/md_generation/reagent_resources_csv_2_md_url.py:267-282 | the UniProt stage succeeds iff every row has an accession, and leaves the Vendor column as it was |
| ReagentMarkdown.ConvertReturnsOne | src/ibex_imaging_knowledge_base_utilities/reagent_resources_csv_2_md_url.py:247-253 | the conversion returns 1 iff the table has rows whose links and accessions convert but whose vendor is missing from the vendor map |
| ReagentMarkdown.ConvertReturnsZero | src/ibex_imaging_knowledge_base_utilities/md_generation/reagent_resources_csv_2_md_url.py:233-310 | the conversion returns 0 iff the table has the Target column and is empty or every stage succeeds (images only in the newer copy); it raises iff the Target column is missing, or a stage before the vendor lookup or the image stage after it fails |
| ReagentMarkdown.ConvertStages | src/ibex_imaging_knowledge_base_utilities/md_generation/reagent_resources_csv_2_md_url.py:246-310 | the vendor lookup is the only stage that returns 1; the conversion succeeds exactly when the Target column exists and the table is empty or every stage succeeds |
| ReagentMarkdown.AfterLinksResult | src/ibex_imaging_knowledge_base_utilities/md_generation/reagent_resources_csv_2_md_url.py:267-310 | after linking, the outcome depends only on the accessions, the vendors and the images of the original table |
| ReagentMarkdown.UniprotStageOnTable | src/ibex_imaging_knowledge_base_utilities/md_generation/reagent_resources_csv_2_md_url.py:267-282 | the UniProt stage succeeds iff every row of the original table lists an accession, and keeps every column except Agree, Disagree and the accession column |
| ReagentMarkdown.VendorStageResult | src/ibex_imaging_knowledge_base_utilities/md_generation/reagent_resources_csv_2_md_url.py:284-300 | after the UniProt stage, the conversion returns 1 iff some vendor is unknown, and succeeds iff all vendors are known and the images convert |
| ReagentMarkdown.VendorStageOutcome | src/ibex_imaging_knowledge_base_utilities/md_generation/reagent_resources_csv_2_md_url.py:285-293 | the vendor lookup returns 1 iff some row's vendor is not in the vendor map |
| Markdown.Accordion | src/ibex_imaging_knowledge_base_utilities/md_generation/utilities.py:32-36 | the wrapper is `{::nomarkdown}<details ><summary>`, the summary, `...</summary><p>`, the description verbatim, then `</p></details>{:/}` |
| Markdown.Summary | src/ibex_imaging_knowledge_base_utilities/md_generation/utilities.py:34 | the summary's words are the first `num_words` words of the description (fewer if it has fewer), joined by single spaces |
| Markdown.DescriptionToMd | src/ibex_imaging_knowledge_base_utilities/md_generation/utilities.py:20-36 | a blank description gives `""`; any other gives the accordion around the description verbatim, whose summary is its first `num_words` words joined by single spaces |
| Markdown.NewlinesToBr | src/ibex_imaging_knowledge_base_utilities/md_generation/utilities.py:47 | a converted cell holds no newline, grows by 3 characters per newline, and is unchanged when it had none |
| Markdown.BreaksReplaced | src/ibex_imaging_knowledge_base_utilities/utilities.py:47 | replacing `\n` by `<br>` removes every newline and changes nothing in text without one |
| Markdown.RowToMd | src/ibex_imaging_knowledge_base_utilities/utilities.py:39-47 | every cell of a row is converted and no cell keeps a newline; cells without one are unchanged |
| Markdown.NthSpace | src/ibex_imaging_knowledge_base_utilities/protocols_csv_2_md.py:38-43 | the loop stops at the position of the n-th space when there is one, and otherwise runs to the end having seen fewer than n spaces |
| Markdown.ScanFrom | src/ibex_imaging_knowledge_base_utilities/protocols_csv_2_md.py:39-43 | the loop variable ends at the third space, or at the last index when the description has fewer than three spaces |
| Markdown.ScanSpaces | src/ibex_imaging_knowledge_base_utilities/protocols_csv_2_md.py:39-43 | the loop variable is bound iff the description is non-empty, and then is where the scan stops |
| Markdown.ProtocolDetailsAsWritten | src/ibex_imaging_knowledge_base_utilities/protocols_csv_2_md.py:36-51 | as written, the protocol details crash (UnboundLocalError) exactly for an empty description |
| Markdown.ProtocolSummary | src/ibex_imaging_knowledge_base_utilities/protocols_csv_2_md.py:36-49 | corrected summary: the description up to its third space, or the whole description when it has fewer than three spaces |
| Markdown.IntendedSummaryUnique | src/ibex_imaging_knowledge_base_utilities/protocols_csv_2_md.py:36-49 | the intended summary of a description is unique |
| Markdown.ProtocolDetails | src/ibex_imaging_knowledge_base_utilities/protocols_csv_2_md.py:47-51 | corrected details: the accordion around the description verbatim with the intended summary |
| Markdown.ProtocolSummaryAsWrittenLong | src/ibex_imaging_knowledge_base_utilities/protocols_csv_2_md.py:39-49 | with at least three spaces, the code as written gives the intended result |
| Markdown.ProtocolSummaryAsWrittenShort | src/ibex_imaging_knowledge_base_utilities/protocols_csv_2_md.py:39-49 | with fewer than three spaces, the code as written drops the description's last character from the summary |
| Markdown.ShortScanEnd | src/ibex_imaging_knowledge_base_utilities/protocols_csv_2_md.py:39-43 | with fewer than three spaces the loop variable ends at the last index |
| Markdown.ShortSummaryWhole | src/ibex_imaging_knowledge_base_utilities/protocols_csv_2_md.py:36-49 | with fewer than three spaces the intended summary is the whole description |
| Markdown.ShortDescriptionLosesLetter | src/ibex_imaging_knowledge_base_utilities/protocols_csv_2_md.py:39-49 | for `ab` the summary as written is `a`, where the intended one is `ab` |
| Markdown.ProtocolTitle | src/ibex_imaging_knowledge_base_utilities/protocols_csv_2_md.py:63-65 | the title cell is `Title [[detailed protocol](URL)].`: the title first, the URL inside the link, `].` last |
| Markdown.DoiClause | src/ibex_imaging_knowledge_base_utilities/md_generation/data_software_csv_2_md.py:45-57 | an empty DOI field closes the title with `]` alone; otherwise `, associated publication DOIs: ` and the DOI links of the stripped non-empty pieces joined by `, `, then `]` |
| Markdown.DatasetTitle | src/ibex_imaging_knowledge_base_utilities/md_generation/data_software_csv_2_md.py:41-58 | a dataset title is the head `title [[download](url), license: license` followed by exactly the DOI clause: `]` alone for an empty DOI field, otherwise the DOI prefix and links |
| Markdown.SoftwareExtras | src/ibex_imaging_knowledge_base_utilities/md_generation/data_software_csv_2_md.py:65-68 | the extras are empty iff language and repository are both empty; a known language gives `, language: <language>` first and a known repository gives `, [repository](<url>)` last, and nothing else is in between |
| Markdown.SoftwareTitle | src/ibex_imaging_knowledge_base_utilities/md_generation/data_software_csv_2_md.py:61-82 | a software title is exactly the head `title [[download](url), license: license`, then the language and repository extras, then the DOI clause, each in its place |
| Markdown.SoftwareWithoutExtras | src/ibex_imaging_knowledge_base_utilities/md_generation/data_software_csv_2_md.py:61-82 | software without language and repository is titled exactly like a dataset |
| Markdown.ContributorList | src/ibex_imaging_knowledge_base_utilities/md_generation/zenodo_json_2_thewho_md.py:32-37 | the list crashes (KeyError) iff some creator lacks name, affiliation or orcid, and is empty iff there are no creators |
| Markdown.ContributorListLines | src/ibex_imaging_knowledge_base_utilities/md_generation/zenodo_json_2_thewho_md.py:32-37 | splitting the list at newlines gives exactly one `1. name, affiliation, [orcid](https://orcid.org/orcid).` line per creator, in order, with no trailing newline |
| Markdown.CreatorLines | src/ibex_imaging_knowledge_base_utilities/md_generation/zenodo_json_2_thewho_md.py:33-36 | one line per creator, in input order |
| Markdown.ContributorListOrcids | src/ibex_imaging_knowledge_base_utilities/md_generation/zenodo_json_2_thewho_md.py:32-37 | reading the identifiers back out of the list gives the creators' ORCIDs in order |
| Markdown.CreatorLineOrcid | src/ibex_imaging_knowledge_base_utilities/md_generation/zenodo_json_2_thewho_md.py:34 | a creator line yields exactly that creator's ORCID |

## Left out

- HTTP: `url_exists` and `check_urls` become oracles from a URL to an outcome (status, timeout or other error). So do the UniProt query of `uniprot_to_md_str` and the vendor-site probes of `csv_to_md_str_dict`; the vendor map is a parameter. The thread pool of `check_urls` and the randomised backoff sleeps are concurrency and timing, so they are not modelled.
- File system and processes: reading CSV, JSON and BibTeX files, opening and writing output files, `rglob`, `mkdir`, `is_file` and `git checkout` are not modelled. Their results are passed in as values or oracles: `isFile`, `consistent`, `onDisk`, the publication file contents and both releases' tables.
- Comparing a supporting-material page with the table, in `validate_supporting_material`, is the `consistent` oracle. The markdown-table parsing and frozenset comparison are not modelled. The ORCID extraction those lines use is modelled (`Links.FindOrcids`).
- pandas rendering and ordering: `to_markdown` and `str.format` template filling are not modelled, so pages and tables are modelled as rows and sections. The ordering of the reagent converter's case-insensitive `sort_values` is not modelled, and rows are taken in the given order; its KeyError on a missing Target column is. `drop_duplicates` on target–conjugate pairs is modelled as a set of pairs.
- DraftRelease.Match: the outer merge assumes each configuration occurs at most once per release, and matches a configuration to its first row. pandas' pairing of duplicate keys is not modelled.
- DraftRelease.CreateDraftReleaseNotes: when every column of the new reagent table is an ignored one, the merge has no key columns. pandas' behaviour for an empty `on` list is not modelled; the model compares empty configurations.
- DraftRelease.Congratulations: Python iterates the set of first-time contributors in an order of its own. That order is a parameter (`listing`), required to enumerate the set.
- Supporting.CreatedFilesMembers: the files `csv_2_supporting` returns are modelled as a set. The order of `explode()` is not modelled.
- Validation.DuplicateInformation: the order in which Python iterates the duplicate set is replaced by the order of first repetition; the contents are exact.
- Text.Strip: whitespace is the ASCII set Python's `str.isspace` accepts (including `\x1c`-`\x1f`); other Unicode whitespace is not modelled. Likewise `casefold` is ASCII lower-casing (`Bibliography.LowerString`).
- Links.FindOrcids: `\d` in the ORCID pattern matches only ASCII digits here. Python's `\d` also matches other Unicode decimal digits.
- ReleaseNotes.VersionHeadingMatches: `\d` and `\s` in the version-heading pattern match ASCII digits and ASCII whitespace here. Python also matches other Unicode digits and whitespace.
- ReleaseNotes.TagTokensMatch: in the release tag, `.` is the only regular-expression metacharacter given its regex meaning; any other metacharacter is taken literally.
- BibTeX parsing by `bibtexparser`: the parsed database (entries and comments) is the input.
- JSON decoding: a JSON document is a value tree, and Python's `type(...) != str/list/dict` test is a test of the value's constructor. In the contributor list, creator fields are taken to be strings.
- `validate_fluorescent_probes.main` reads `args.zenodo_json`, an argument its parser never defines. Command-line `main` functions, argument parsing (`argparse_types.py`) and printed diagnostics are not modelled; status codes, raised errors and returned strings are.
- Validation.ValidateDf: models the program with the multi-value uniqueness check corrected. As written, a repeated piece in a multi-value column raises TypeError instead of returning 1 (first row of "## Findings").
- Reagents.ValidateReagentResources: models the program with the Contributor restriction and the disjointness check corrected. As written, the configuration loses the Contributor restriction and an Agree/Disagree overlap raises TypeError (second and third rows of "## Findings"). A missing Contributor, Target or Conjugate column makes the row rules raise. A table with no rows does not raise here. pandas versions differ on `apply(..., axis=1)` over zero rows; a version that returns a DataFrame there makes the `df.index[...]` lookup of the row rules (validate_reagent_resources.py:123-127) raise. That version dependence is not modelled.
- Supporting.InputStep: a table with no rows passes the input checks. pandas versions differ on `apply(..., axis=1)` over zero rows; a version that returns a DataFrame there makes the `.all()` test raise ValueError. That version dependence is not modelled.
- Validation.MultiDuplicateInformation: the value the code builds at `validation_utilities.py:160` (a `", ".join` of ints) raises TypeError. The detection before it is modelled, together with that crash.
- The image-resource, video, basic and glossary validators and converters, and `fluorescent_probes_csv_2_md.py`, only wrap `validate_df` or file I/O and are not part of this model.
- `src/ibex_imaging_knowledge_base_utilities/utilities.py` is a byte-identical copy of `md_generation/utilities.py`. The same `Markdown` members model both; rows cite either copy.

## Findings

| source | as written | input that shows it | evidently intended | confidence | as-written member | corrected member |
|---|---|---|---|---|---|---|
| src/ibex_imaging_knowledge_base_utilities/data_validation/validation_utilities.py:160 | `", ".join(problem_rows)` joins a list of int row numbers, which raises TypeError, so a repeated value in a multi-value cell crashes `validate_df` instead of making it return 1 | a table whose `unique_multi_value_columns` column holds the cell `x;x` | the rows are reported and `validate_df` returns 1 | high (not executed) | Validation.MultiDuplicateAsWrittenRaises | Validation.UniqueMultiStep |
| src/ibex_imaging_knowledge_base_utilities/data_validation/validate_reagent_resources.py:81-82 | without `column_is_in` in the configuration, the second assignment replaces the dictionary holding the Contributor restriction, so Contributor is never checked against the zenodo ORCIDs | a configuration without `column_is_in` and a row whose Contributor is not a zenodo creator | both Contributor and Vendor are restricted, as when the key is present | high (not executed) | Reagents.AugmentAsWrittenDropsContributor | Reagents.Augment |
| src/ibex_imaging_knowledge_base_utilities/data_validation/validate_reagent_resources.py:158-160 | the row-number list comprehension iterates each int index (`for i in indexes`), which raises TypeError, so an ORCID in both Agree and Disagree crashes the validator instead of returning 1 | a row with Agree `0000-0001-2345-6789` and Disagree `0000-0001-2345-6789` | the rows are reported and the validator returns 1 | high (not executed) | Reagents.DisjointAsWrittenRaises | Reagents.DisjointStep |
| src/ibex_imaging_knowledge_base_utilities/protocols_csv_2_md.py:39-49 | when the description has fewer than three spaces the loop leaves `i` at the last index, and `description[0:i]` drops the last character from the summary; an empty description leaves `i` unbound (UnboundLocalError) | the description `ab` gives the summary `a` | the summary is the whole description when it has fewer than three words | high (not executed) | Markdown.ShortDescriptionLosesLetter | Markdown.ProtocolDetails |

=== FILE: bib.dfy ===
/**
 `validate_bib_file_data`: the parsed bibliography must have no malformed
 blocks (the parser reports those as comments), every entry must hold the
 required fields, compared without regard to case, and no citation key may
 occur twice.
 */
module Bibliography {
  import opened Seqs
  import opened Tables
  import opened Validation

  /** One parsed entry: field name to value; the parser stores the citation key under `ID`. */
  type Entry = map<string, string>

  datatype Database = Database(entries: seq<Entry>, comments: seq<string>)

  /** The fields every entry must have, in lower case. */
  const RequiredFields: set<string> := {"id", "author", "title", "year", "doi", "note"}

  /** ASCII lower case, standing in for `casefold`. */
  function Lower(c: char): (d: char)
    ensures 'A' <= c <= 'Z' ==> d as int == c as int + 32
    ensures !('A' <= c <= 'Z') ==> d == c
  {
    if 'A' <= c <= 'Z' then (c as int + 32) as char else c
  }

  function LowerString(s: string): (r: string)
    ensures |r| == |s| && forall i :: 0 <= i < |s| ==> r[i] == Lower(s[i])
  {
    seq(|s|, i requires 0 <= i < |s| => Lower(s[i]))
  }

  /** An entry's field names, lower-cased. */
  function FieldNames(e: Entry): set<string> {
    set k | k in e :: LowerString(k)
  }

  /** Every required field is present under some spelling. */
  ghost predicate Complete(e: Entry) {
    forall f :: f in RequiredFields ==> exists k :: k in e && LowerString(k) == f
  }

  /** Reading the citation key raises `KeyError` when there is none; a missing field makes the script return 1. */
  function EntryStep(e: Entry): (r: Step)
    ensures r == Pass <==> "ID" in e && Complete(e)
    ensures r.Crash? <==> "ID" !in e
  {
    if "ID" !in e then Crash("KeyError")
    else if !(RequiredFields <= FieldNames(e)) then
      var f :| f in RequiredFields && f !in FieldNames(e);
      Fail
    else
      assert forall f :: f in RequiredFields ==> f in FieldNames(e);
      Pass
  }

  function Ids(entries: seq<Entry>): (ids: seq<string>)
    ensures |ids| == |entries| && forall k :: 0 <= k < |entries| ==> ids[k] == (if "ID" in entries[k] then entries[k]["ID"] else "")
  {
    seq(|entries|, k requires 0 <= k < |entries| => if "ID" in entries[k] then entries[k]["ID"] else "")
  }

  ghost predicate BibValid(db: Database) {
    db.comments == []
    && (forall k :: 0 <= k < |db.entries| ==> "ID" in db.entries[k] && Complete(db.entries[k]))
    && NoDups(Ids(db.entries))
  }

  /** Malformed blocks first, then the entries in order, then duplicate keys. */
  function ValidateBib(db: Database): (r: Outcome)
    ensures r.Returned? ==> r.code == 0 || r.code == 1
    ensures r == Returned(0) <==> BibValid(db)
    ensures db.comments != [] ==> r == Returned(1)
    ensures r.Raised? ==> r.error == "KeyError" && exists k :: 0 <= k < |db.entries| && "ID" !in db.entries[k]
  {
    if db.comments != [] then Returned(1)
    else
      var entries := Scan(db.entries, EntryStep);
      if entries != Pass then Stop(entries)
      else if DuplicateStep(Ids(db.entries)) != Pass then Returned(1)
      else Returned(0)
  }

  /** The first entry lacking a field decides the result, whatever follows it, repeated keys included. */
  lemma FirstIncompleteEntryFails(db: Database, k: nat)
    requires db.comments == [] && k < |db.entries|
    requires forall j :: 0 <= j < k ==> "ID" in db.entries[j] && Complete(db.entries[j])
    requires "ID" in db.entries[k] && !Complete(db.entries[k])
    ensures ValidateBib(db) == Returned(1)
  {
    assert EntryStep(db.entries[k]) == Fail;
    assert forall j :: 0 <= j < k ==> EntryStep(db.entries[j]) == Pass;
    ScanFirstFailure(db.entries, EntryStep, k);
  }

  /** Field names match without regard to case: `DOI` satisfies `doi`. */
  lemma UpperCaseFieldsAccepted(e: Entry)
    requires "ID" in e && "AUTHOR" in e && "Title" in e && "year" in e && "DOI" in e && "Note" in e
    ensures EntryStep(e) == Pass
  {
    assert LowerString("ID") == "id";
    assert LowerString("AUTHOR") == "author";
    assert LowerString("Title") == "title";
    assert LowerString("year") == "year";
    assert LowerString("DOI") == "doi";
    assert LowerString("Note") == "note";
  }
}

=== FILE: draft_release.dfy ===
/**
 `create_draft_release_notes`: the differences between two releases of the
 knowledge base, summarised as the opening of the release notes. The git
 checkouts and file reads are left to the caller: the model receives the two
 reagent-resources tables, the row counts of the other tables, the DOIs of
 the two bibliographies and the creator ORCIDs of the two `.zenodo.json` files.
 */
module DraftRelease {
  import opened Text
  import opened Seqs
  import opened Tables
  import opened Links

  /** Columns that do not define a reagent validation configuration. */
  const IgnoredColumns: set<string> := {"Agree", "Disagree", "Contributor", "Image Files", "Captions", "MD5"}

  /** The list columns the reader parses; a table without them cannot be read. */
  const ListColumns: set<string> := {"Agree", "Disagree", "MD5"}

  /** The tables whose row counts are compared, with the caption each line uses (the caption ends in `": "`). */
  const CsvLabels: seq<string> := ["Protocols: ", "Videos: ", "Datasets: ", "Software tools: "]

  const Intro := "We are proud to announce a new release of the IBEX Imaging Community Knowledge-Base!\n\n"
    + "All changes and updates have been integrated into the [official Knowledge-Base web-site]"
    + "(https://ibeximagingcommunity.github.io/ibex_imaging_knowledge_base).\n\n"
    + "This release includes the following updates compared to the previous release:\n"

  const CongratulationsText := "## Congratulations\n"
    + "Congratulations and thank you to everyone who contributed to this release.\n"
    + "We would like to especially recognize the following new contributors "
    + "(identified by their unique Open Researcher and Contributor ID):\n"

  // ---------------------------------------------------------------- reading the reagent table

  /** One validation: its configuration and its three list cells, parsed. */
  datatype Reagent = Reagent(config: Row, agree: seq<string>, disagree: seq<string>, md5: seq<string>)

  /**
   The merge columns: the NEW release's columns that define a configuration.
   Both releases are paired on these columns, so the old release must have them.
   */
  function ConfigColumns(newReagents: Table): (keys: set<string>)
    ensures forall c :: c in keys <==> c in newReagents.columns && c !in IgnoredColumns
  {
    newReagents.columns - IgnoredColumns
  }

  /**
   `read_reagent_resources_csv` for one row (the list cells are split on `;`,
   stripped, and `""`/`"NA"` dropped), with the row's configuration taken on
   the merge columns `keys`.
   */
  function ReadReagent(row: Row, keys: set<string>): (r: Reagent)
    ensures r.config.Keys == row.Keys * keys
    ensures forall c :: c in r.config ==> r.config[c] == row[c]
    ensures forall k :: 0 <= k < |r.agree| ==> r.agree[k] != "" && r.agree[k] != "NA"
    ensures forall k :: 0 <= k < |r.disagree| ==> r.disagree[k] != "" && r.disagree[k] != "NA"
    ensures forall k :: 0 <= k < |r.md5| ==> r.md5[k] != "" && r.md5[k] != "NA"
  {
    Reagent(Restrict(row, keys), ParseOrcidList(Cell(row, "Agree")),
            ParseOrcidList(Cell(row, "Disagree")), ParseOrcidList(Cell(row, "MD5")))
  }

  /** The cells of `row` in the columns `keys`. */
  function Restrict(row: Row, keys: set<string>): Row {
    map c | c in row.Keys * keys :: row[c]
  }

  /** A column outside the merge columns, such as one only the old release has, does not change a row's configuration. */
  lemma ExtraColumnIgnored(row: Row, keys: set<string>, c: string, v: string)
    requires c !in keys && c !in ListColumns
    ensures ReadReagent(row[c := v], keys) == ReadReagent(row, keys)
  {
    assert c != "Agree" && c != "Disagree" && c != "MD5";
    assert Cell(row[c := v], "Agree") == Cell(row, "Agree");
    assert Cell(row[c := v], "Disagree") == Cell(row, "Disagree");
    assert Cell(row[c := v], "MD5") == Cell(row, "MD5");
    ConfigFrame(row, keys, c, v);
  }

  lemma ConfigFrame(row: Row, keys: set<string>, c: string, v: string)
    requires c !in keys
    ensures Restrict(row[c := v], keys) == Restrict(row, keys)
  {
    assert row[c := v].Keys * keys == row.Keys * keys;
  }

  function ReadReagents(t: Table, keys: set<string>): (rs: seq<Reagent>)
    ensures |rs| == |t.rows| && forall k :: 0 <= k < |rs| ==> rs[k] == ReadReagent(t.rows[k], keys)
  {
    seq(|t.rows|, k requires 0 <= k < |t.rows| => ReadReagent(t.rows[k], keys))
  }

  // ---------------------------------------------------------------- reagent counts

  predicate HasConfig(rs: seq<Reagent>, cfg: Row) {
    exists k | 0 <= k < |rs| :: rs[k].config == cfg
  }

  /** The first validation with configuration `cfg`: the one an outer merge pairs with when configurations are unique. */
  function Match(rs: seq<Reagent>, cfg: Row): (k: nat)
    requires HasConfig(rs, cfg)
    ensures k < |rs| && rs[k].config == cfg
    ensures forall j :: 0 <= j < k ==> rs[j].config != cfg
  {
    if rs[0].config == cfg then 0
    else
      assert HasConfig(rs[1..], cfg) by {
        var k :| 0 <= k < |rs| && rs[k].config == cfg;
        assert rs[1..][k - 1] == rs[k];
      }
      1 + Match(rs[1..], cfg)
  }

  /** Validations of `rs` whose configuration `others` does not have. */
  function Unmatched(rs: seq<Reagent>, others: seq<Reagent>): (n: nat)
    ensures n <= |rs|
    ensures n == 0 <==> forall k :: 0 <= k < |rs| ==> HasConfig(others, rs[k].config)
  {
    if |rs| == 0 then 0
    else
      var rest := Unmatched(rs[1..], others);
      assert forall k :: 1 <= k < |rs| ==> rs[k] == rs[1..][k - 1];
      (if HasConfig(others, rs[0].config) then 0 else 1) + rest
  }

  /** The number of ORCIDs a validation lists. */
  function Entries(r: Reagent): nat {
    |r.agree| + |r.disagree|
  }

  /**
   New replications of one validation of the new release: for a
   configuration the old release had, the growth of its lists; for a new
   configuration, every listing after the first.
   */
  function Replication(r: Reagent, prev: seq<Reagent>): int {
    if HasConfig(prev, r.config) then Entries(r) - Entries(prev[Match(prev, r.config)]) else Entries(r) - 1
  }

  function Replications(rs: seq<Reagent>, prev: seq<Reagent>): int {
    if |rs| == 0 then 0 else Replication(rs[0], prev) + Replications(rs[1..], prev)
  }

  lemma {:induction false} ReplicationsAppend(rs: seq<Reagent>, r: Reagent, prev: seq<Reagent>)
    ensures Replications(rs + [r], prev) == Replications(rs, prev) + Replication(r, prev)
    decreases |rs|
  {
    if |rs| == 0 {
      assert (rs + [r])[1..] == [];
    } else {
      assert (rs + [r])[1..] == rs[1..] + [r];
      ReplicationsAppend(rs[1..], r, prev);
    }
  }

  lemma {:induction false} UnmatchedAppend(rs: seq<Reagent>, r: Reagent, others: seq<Reagent>)
    ensures Unmatched(rs + [r], others) == Unmatched(rs, others) + (if HasConfig(others, r.config) then 0 else 1)
    decreases |rs|
  {
    if |rs| == 0 {
      assert (rs + [r])[1..] == [];
    } else {
      assert (rs + [r])[1..] == rs[1..] + [r];
      UnmatchedAppend(rs[1..], r, others);
    }
  }

  /** Configurations that occur only once in a release. */
  predicate UniqueConfigs(rs: seq<Reagent>) {
    forall i, j :: 0 <= i < j < |rs| ==> rs[i].config != rs[j].config
  }

  /** Comparing a release with itself finds nothing added, removed or replicated. */
  lemma SameReleaseNoChanges(rs: seq<Reagent>)
    requires UniqueConfigs(rs)
    ensures Unmatched(rs, rs) == 0
    ensures Replications(rs, rs) == 0
  {
    assert forall k :: 0 <= k < |rs| ==> HasConfig(rs, rs[k].config);
    NoReplications(rs, rs);
  }

  lemma {:induction false} NoReplications(ns: seq<Reagent>, prev: seq<Reagent>)
    requires UniqueConfigs(prev)
    requires forall k :: 0 <= k < |ns| ==> ns[k] in prev
    ensures Replications(ns, prev) == 0
    decreases |ns|
  {
    if |ns| > 0 {
      assert forall k :: 0 <= k < |ns[1..]| ==> ns[1..][k] == ns[k + 1];
      NoReplications(ns[1..], prev);
      var j :| 0 <= j < |prev| && prev[j] == ns[0];
      assert HasConfig(prev, ns[0].config);
      assert Match(prev, ns[0].config) == j;
    }
  }

  /**
   A release that adds one validation with a new configuration, listed by
   `n` ORCIDs, reports one addition, no removal and `n - 1` replications.
   */
  lemma OneNewValidation(prev: seq<Reagent>, r: Reagent)
    requires UniqueConfigs(prev) && !HasConfig(prev, r.config)
    ensures Unmatched(prev + [r], prev) == 1
    ensures Unmatched(prev, prev + [r]) == 0
    ensures Replications(prev + [r], prev) == Entries(r) - 1
  {
    SameReleaseNoChanges(prev);
    UnmatchedAppend(prev, r, prev);
    ReplicationsAppend(prev, r, prev);
    assert forall k :: 0 <= k < |prev| ==> (prev + [r])[k] == prev[k];
    assert forall k :: 0 <= k < |prev| ==> HasConfig(prev + [r], prev[k].config);
  }

  // ---------------------------------------------------------------- summary lines

  /** The `"<n> <word>"` parts of a summary line, for the positive counts, in order. */
  function Parts(counts: seq<(int, string)>): (r: seq<string>)
    ensures |r| <= |counts|
    ensures r == [] <==> forall k :: 0 <= k < |counts| ==> counts[k].0 <= 0
  {
    if |counts| == 0 then []
    else
      var rest := Parts(counts[1..]);
      assert forall k :: 1 <= k < |counts| ==> counts[k] == counts[1..][k - 1];
      if counts[0].0 > 0 then [NatToString(counts[0].0) + " " + counts[0].1] + rest else rest
  }

  /** When every count is positive, each one has its part, in the given order. */
  lemma {:induction false} PartsAllPositive(counts: seq<(int, string)>)
    requires forall k :: 0 <= k < |counts| ==> counts[k].0 > 0
    ensures |Parts(counts)| == |counts|
    ensures forall k :: 0 <= k < |counts| ==> Parts(counts)[k] == NatToString(counts[k].0) + " " + counts[k].1
    decreases |counts|
  {
    if |counts| > 0 {
      assert forall k :: 0 <= k < |counts[1..]| ==> counts[1..][k] == counts[k + 1];
      PartsAllPositive(counts[1..]);
    }
  }

  /** `* <title>: <parts joined by ", ">` and a newline, or nothing when no count is positive. */
  function Summary(title: string, counts: seq<(int, string)>): (s: string)
    ensures s == "" <==> forall k :: 0 <= k < |counts| ==> counts[k].0 <= 0
    ensures s != "" ==> |s| > |title| + 4 && s[..|title| + 4] == "* " + title + ": " && s[|s| - 1] == '\n'
  {
    var parts := Parts(counts);
    if parts == [] then ""
    else
      var s := "* " + title + ": " + Join(", ", parts) + "\n";
      assert s[..|title| + 4] == "* " + title + ": ";
      s
  }

  function ReagentLine(added: int, removed: int, replicated: int): (s: string)
    ensures s == "" <==> added <= 0 && removed <= 0 && replicated <= 0
  {
    var counts := [(added, "added"), (removed, "removed"), (replicated, "replicated")];
    assert counts[0].0 == added && counts[1].0 == removed && counts[2].0 == replicated;
    Summary("Reagent validation results", counts)
  }

  /** A line for the difference of two sets: how many members are new and how many are gone. */
  function SetDiffLine(title: string, now: set<string>, before: set<string>): (s: string)
    ensures s == "" <==> now == before
  {
    var counts := [(|now - before|, "added"), (|before - now|, "removed")];
    assert counts[0].0 == |now - before| && counts[1].0 == |before - now|;
    SetsDiffer(now, before);
    Summary(title, counts)
  }

  lemma SetsDiffer(now: set<string>, before: set<string>)
    ensures now == before <==> |now - before| <= 0 && |before - now| <= 0
  {
    if now != before && now - before == {} {
      var x :| x in before && x !in now;
      assert x in before - now;
    }
  }

  /** The members added minus the members removed is the change in size. */
  lemma SetDiffBalance(now: set<string>, before: set<string>)
    ensures |now - before| - |before - now| == |now| - |before|
  {
    var common := now * before;
    assert now == (now - before) + common && (now - before) * common == {};
    assert before == (before - now) + common && (before - now) * common == {};
  }

  /** The line for one table's row count: `* <caption>: <n> added` or `removed`, nothing when equal. */
  function CsvLine(caption: string, oldCount: nat, newCount: nat): (s: string)
    ensures s == "" <==> oldCount == newCount
  {
    if newCount > oldCount then "* " + caption + ": " + NatToString(newCount - oldCount) + " added\n"
    else if newCount < oldCount then "* " + caption + ": " + NatToString(oldCount - newCount) + " removed\n"
    else ""
  }

  /** Going back from the new release to the prev one turns every addition into a removal of the same size. */
  lemma CsvLineReversed(caption: string, a: nat, b: nat)
    requires a < b
    ensures CsvLine(caption, a, b) == "* " + caption + ": " + NatToString(b - a) + " added\n"
    ensures CsvLine(caption, b, a) == "* " + caption + ": " + NatToString(b - a) + " removed\n"
  {
  }

  function CsvLines(oldCounts: seq<nat>, newCounts: seq<nat>, labels: seq<string>): (s: string)
    decreases |labels|
  {
    if |oldCounts| == 0 || |newCounts| == 0 || |labels| == 0 then ""
    else CsvLine(labels[0], oldCounts[0], newCounts[0]) + CsvLines(oldCounts[1..], newCounts[1..], labels[1..])
  }

  /** `zip` stops at the shortest list: when every table kept its size, no table line is written. */
  lemma {:induction false} CsvLinesUnchanged(counts: seq<nat>, labels: seq<string>)
    ensures CsvLines(counts, counts, labels) == ""
    decreases |labels|
  {
    if |counts| > 0 && |labels| > 0 {
      CsvLinesUnchanged(counts[1..], labels[1..]);
    }
  }

  // ---------------------------------------------------------------- first-time contributors

  function FirstTimeContributors(newOrcids: seq<string>, oldOrcids: seq<string>): (s: set<string>)
    ensures forall x :: x in s <==> x in newOrcids && x !in oldOrcids
  {
    Elements(newOrcids) - Elements(oldOrcids)
  }

  /** Python iterates the set in an order of its own: `listing` is that order. */
  predicate Enumerates(listing: seq<string>, s: set<string>) {
    NoDups(listing) && Elements(listing) == s
  }

  function OrcidLinks(orcids: seq<string>): (links: seq<string>)
    ensures |links| == |orcids| && forall k :: 0 <= k < |orcids| ==> links[k] == OrcidLink(orcids[k])
  {
    seq(|orcids|, k requires 0 <= k < |orcids| => OrcidLink(orcids[k]))
  }

  function Congratulations(newOrcids: seq<string>, oldOrcids: seq<string>, listing: seq<string>): (s: string)
    requires Enumerates(listing, FirstTimeContributors(newOrcids, oldOrcids))
    ensures s == "" <==> forall x :: x in newOrcids ==> x in oldOrcids
  {
    if listing == [] then
      assert forall x :: x in newOrcids && x !in oldOrcids ==> x in listing;
      ""
    else
      assert listing[0] in FirstTimeContributors(newOrcids, oldOrcids);
      CongratulationsText + Join(", ", OrcidLinks(listing)) + "\n"
  }

  /** The ORCIDs can be read back out of the congratulation links, in the order written. */
  lemma {:induction false} OrcidLinksReadBack(orcids: seq<string>)
    requires forall k :: 0 <= k < |orcids| ==> IsOrcid(orcids[k])
    ensures FindOrcids(Join(", ", OrcidLinks(orcids))) == orcids
    decreases |orcids|
  {
    if |orcids| == 1 {
      FindOrcidsInLink(orcids[0], "");
      assert OrcidLink(orcids[0]) + "" == OrcidLink(orcids[0]);
      FindOrcidsShort("");
    } else if |orcids| > 1 {
      var links := OrcidLinks(orcids);
      assert links == [links[0]] + OrcidLinks(orcids[1..]);
      JoinCons(", ", links[0], OrcidLinks(orcids[1..]));
      OrcidLinksReadBack(orcids[1..]);
      LinkThenRest(orcids[0], Join(", ", OrcidLinks(orcids[1..])));
      assert orcids == [orcids[0]] + orcids[1..];
    }
  }

  lemma LinkThenRest(orcid: string, rest: string)
    requires IsOrcid(orcid)
    ensures FindOrcids(OrcidLink(orcid) + ", " + rest) == [orcid] + FindOrcids(rest)
  {
    assert OrcidLink(orcid) + ", " + rest == OrcidLink(orcid) + (", " + rest);
    FindOrcidsInLink(orcid, ", " + rest);
    FindOrcidsSkip(", ", rest);
  }

  // ---------------------------------------------------------------- the whole summary

  lemma PrefixOf(a: string, b: string)
    ensures (a + b)[..|a|] == a && (a + b)[|a|..] == b
  {
  }

  datatype Draft = Notes(text: string) | Failed(error: string)

  function Md5s(rs: seq<Reagent>): (s: set<string>)
    ensures forall m :: m in s <==> exists k :: 0 <= k < |rs| && m in rs[k].md5
  {
    set k, m | 0 <= k < |rs| && m in rs[k].md5 :: m
  }

  /**
   The draft release notes: the fixed introduction, then a line for the
   reagent validations, the images, each table, the publications, and the
   congratulations to first-time contributors, each only when there is
   something to say. Reading a reagent table without its list columns fails,
   and so does the merge when the old release lacks one of the new release's
   configuration columns.
   */
  function CreateDraftReleaseNotes(oldReagents: Table, newReagents: Table,
                                   oldCounts: seq<nat>, newCounts: seq<nat>,
                                   oldDois: seq<string>, newDois: seq<string>,
                                   oldOrcids: seq<string>, newOrcids: seq<string>, listing: seq<string>): (r: Draft)
    requires Enumerates(listing, FirstTimeContributors(newOrcids, oldOrcids))
    ensures r.Failed? <==> !(ListColumns <= oldReagents.columns && ListColumns <= newReagents.columns)
                            || !(ConfigColumns(newReagents) <= oldReagents.columns)
    ensures r.Notes? ==> |r.text| >= |Intro| && r.text[..|Intro|] == Intro
  {
    if !(ListColumns <= oldReagents.columns && ListColumns <= newReagents.columns) then Failed("Exception")
    else if !(ConfigColumns(newReagents) <= oldReagents.columns) then Failed("Exception")
    else
      var keys := ConfigColumns(newReagents);
      var changes := Changes(ReadReagents(oldReagents, keys), ReadReagents(newReagents, keys), oldCounts, newCounts,
                             oldDois, newDois, oldOrcids, newOrcids, listing);
      PrefixOf(Intro, changes);
      Notes(Intro + changes)
  }

  /** The lines after the introduction, in order. */
  function Changes(olds: seq<Reagent>, news: seq<Reagent>,
                   oldCounts: seq<nat>, newCounts: seq<nat>,
                   oldDois: seq<string>, newDois: seq<string>,
                   oldOrcids: seq<string>, newOrcids: seq<string>, listing: seq<string>): string
    requires Enumerates(listing, FirstTimeContributors(newOrcids, oldOrcids))
  {
    ReagentLine(Unmatched(news, olds), Unmatched(olds, news), Replications(news, olds))
      + SetDiffLine("Images supporting reagent validation results", Md5s(news), Md5s(olds))
      + CsvLines(oldCounts, newCounts, CsvLabels)
      + SetDiffLine("Publications", Elements(newDois), Elements(oldDois))
      + Congratulations(newOrcids, oldOrcids, listing)
  }

  /**
   Two releases whose reagent validations (with unique configurations),
   table sizes, publications and creators agree give the introduction alone.
   */
  lemma UnchangedReleaseIntroOnly(reagents: Table, counts: seq<nat>, dois: seq<string>, orcids: seq<string>)
    requires ListColumns <= reagents.columns
    requires UniqueConfigs(ReadReagents(reagents, ConfigColumns(reagents)))
    ensures Enumerates([], FirstTimeContributors(orcids, orcids))
    ensures CreateDraftReleaseNotes(reagents, reagents, counts, counts, dois, dois, orcids, orcids, []) == Notes(Intro)
  {
    assert FirstTimeContributors(orcids, orcids) == {};
    assert Elements<string>([]) == {};
    var rs := ReadReagents(reagents, ConfigColumns(reagents));
    NoChanges(rs, counts, dois, orcids);
    assert CreateDraftReleaseNotes(reagents, reagents, counts, counts, dois, dois, orcids, orcids, [])
      == Notes(Intro + Changes(rs, rs, counts, counts, dois, dois, orcids, orcids, []));
    EmptySuffix(Intro);
  }

  lemma EmptySuffix(s: string)
    ensures s + "" == s
  {
  }

  /** Comparing a release with itself leaves nothing to report after the introduction. */
  lemma NoChanges(rs: seq<Reagent>, counts: seq<nat>, dois: seq<string>, orcids: seq<string>)
    requires UniqueConfigs(rs)
    requires Enumerates([], FirstTimeContributors(orcids, orcids))
    ensures Changes(rs, rs, counts, counts, dois, dois, orcids, orcids, []) == ""
  {
    SameReleaseNoChanges(rs);
    CsvLinesUnchanged(counts, CsvLabels);
    var a := ReagentLine(Unmatched(rs, rs), Unmatched(rs, rs), Replications(rs, rs));
    var b := SetDiffLine("Images supporting reagent validation results", Md5s(rs), Md5s(rs));
    var c := CsvLines(counts, counts, CsvLabels);
    var d := SetDiffLine("Publications", Elements(dois), Elements(dois));
    var e := Congratulations(orcids, orcids, []);
    assert a == "" && b == "" && c == "" && d == "" && e == "";
  }
}

=== FILE: index_stats.dfy ===
/**
 `update_index_md_stats`: four figures about the reagent-resources table,
 substituted into `{name}` placeholders of the site's index page, plus the
 cell parser `entry2list` the module also provides.
 */
module IndexStats {
  import opened Text
  import opened Seqs
  import opened Tables
  import Reagents

  const AgreeColumn := Reagents.AgreeColumn
  const DisagreeColumn := Reagents.DisagreeColumn
  const ConjugateColumn := Reagents.ConjugateColumn
  const SpeciesColumn := "Target Species"
  const TissueColumn := "Target Tissue"
  const StateColumn := "Tissue State"

  // ---------------------------------------------------------------- entry2list

  /** The set of a cell's entries, or the exception raised for a repeated entry. */
  datatype Entries = Entries(values: set<string>) | Repeated(error: string)

  /**
   `entry2list`: the stripped, non-blank `;`-pieces of a cell as a set. A
   blank cell gives the empty set; a cell whose pieces hold a repeat raises
   ValueError, detected by the set being smaller than the list.
   */
  function EntryToSet(entry: string): (r: Entries)
    ensures r.Entries? <==> NoDups(StrippedPieces(entry, ';'))
    ensures r.Repeated? ==> r.error == "ValueError"
    ensures r.Entries? ==> |r.values| == |StrippedPieces(entry, ';')|
    ensures r.Entries? ==> forall x :: x in r.values <==> x != "" && StripsTo(Split(entry, ';'), x)
  {
    BlankHasNoPieces(entry, ';');
    var list := StrippedPieces(entry, ';');
    forall x ensures x in list <==> x != "" && StripsTo(Split(entry, ';'), x) {
      NonEmptyStrippedMembers(Split(entry, ';'), ';', x);
    }
    if IsBlank(entry) then Entries({})
    else
      var res := Elements(list);
      DistinctCount(list);
      if |list| != |res| then Repeated("ValueError") else Entries(res)
  }

  /** A blank cell has no non-blank piece. */
  lemma BlankHasNoPieces(s: string, sep: char)
    ensures IsBlank(s) ==> StrippedPieces(s, sep) == []
  {
    if IsBlank(s) {
      BlankIffAllSpace(s);
      var ps := Split(s, sep);
      SplitAllSpace(s, sep);
      forall x ensures x !in StrippedPieces(s, sep) {
        NonEmptyStrippedMembers(ps, sep, x);
        if x != "" && StripsTo(ps, x) {
          var k :| 0 <= k < |ps| && Strip(ps[k]) == x;
          BlankIffAllSpace(ps[k]);
        }
      }
      EmptyWithoutMembers(StrippedPieces(s, sep));
    }
  }

  /** The pieces of an all-whitespace string are all whitespace. */
  lemma {:induction false} SplitAllSpace(s: string, sep: char)
    requires AllSpace(s)
    ensures forall k :: 0 <= k < |Split(s, sep)| ==> AllSpace(Split(s, sep)[k])
    decreases |s|
  {
    if |s| > 0 {
      assert AllSpace(s[1..]) by { assert forall i :: 0 <= i < |s[1..]| ==> s[1..][i] == s[i + 1]; }
      SplitAllSpace(s[1..], sep);
      var rest := Split(s[1..], sep);
      if s[0] != sep {
        assert AllSpace([s[0]] + rest[0]) by {
          forall i | 0 <= i < |[s[0]] + rest[0]| ensures IsSpace(([s[0]] + rest[0])[i]) {
            if i > 0 { assert ([s[0]] + rest[0])[i] == rest[0][i - 1]; }
          }
        }
      }
    }
  }

  // ---------------------------------------------------------------- the four figures

  /** Conjugates that are not fluorescent probes. */
  const NotProbes: set<string> := {"NA", "Unconjugated", "Biotin", "HRP", "UT014", "UT015", "UT016", "UT019"}

  /** The columns the figures read. */
  const StatsColumns: set<string> := {AgreeColumn, DisagreeColumn, ConjugateColumn, SpeciesColumn, TissueColumn, StateColumn}

  /**
   The contributors: every stripped `;`-piece of every Agree and Disagree
   cell other than `"NA"`. A blank piece, as a trailing `;` leaves, counts
   as a contributor `""`.
   */
  function Contributors(t: Table): set<string> {
    StrippedPieceSet(CellsOf(t.rows, AgreeColumn) + CellsOf(t.rows, DisagreeColumn), ';') - {"NA"}
  }

  /** The distinct conjugates that are fluorescent probes. */
  function Probes(t: Table): set<string> {
    Elements(CellsOf(t.rows, ConjugateColumn)) - NotProbes
  }

  /** A tissue: species, tissue and tissue state. */
  function TissueOf(row: Row): (string, string, string) {
    (Cell(row, SpeciesColumn), Cell(row, TissueColumn), Cell(row, StateColumn))
  }

  /** The distinct tissues. */
  function Tissues(t: Table): set<(string, string, string)> {
    Elements(seq(|t.rows|, k requires 0 <= k < |t.rows| => TissueOf(t.rows[k])))
  }

  const ContributorsKey := "number_of_contributors"
  const ReagentsKey := "number_of_validated_reagents"
  const ProbesKey := "number_of_fluorescent_probes"
  const TissuesKey := "number_of_tissues"

  /** The statistics dictionary in insertion order, or the KeyError of a missing column. */
  datatype Stats = Stats(entries: seq<(string, nat)>) | MissingColumn(error: string)

  /** The four figures, keyed in the order the dictionary is built. */
  function StatsEntries(contributors: nat, reagents: nat, probes: nat, tissues: nat): (r: seq<(string, nat)>)
    ensures |r| == 4
    ensures r[0].0 == ContributorsKey && r[1].0 == ReagentsKey && r[2].0 == ProbesKey && r[3].0 == TissuesKey
    ensures r[0].1 == contributors && r[1].1 == reagents && r[2].1 == probes && r[3].1 == tissues
  {
    [(ContributorsKey, contributors), (ReagentsKey, reagents), (ProbesKey, probes), (TissuesKey, tissues)]
  }

  /**
   `compute_stats_dictionary`: the number of contributors, of validated
   reagents (rows), of fluorescent probes and of tissues, or a KeyError when
   a column it reads is missing.
   */
  function ComputeStats(t: Table): (r: Stats)
    ensures r.MissingColumn? <==> exists c :: c in StatsColumns && c !in t.columns
    ensures r.MissingColumn? ==> r.error == "KeyError"
    ensures r.Stats? ==> r.entries == StatsEntries(|Contributors(t)|, |t.rows|, |Probes(t)|, |Tissues(t)|)
  {
    if exists c :: c in StatsColumns && c !in t.columns then MissingColumn("KeyError")
    else Stats(StatsEntries(|Contributors(t)|, |t.rows|, |Probes(t)|, |Tissues(t)|))
  }

  /**
   Apart from the blank piece, the contributors counted are exactly the
   ORCIDs the reagent validator parses out of the Agree and Disagree cells.
   */
  lemma ContributorsAreParsedOrcids(t: Table, x: string)
    requires x != ""
    ensures x in Contributors(t) <==>
      exists k :: 0 <= k < |t.rows| &&
        (x in ParseOrcidList(Cell(t.rows[k], AgreeColumn)) || x in ParseOrcidList(Cell(t.rows[k], DisagreeColumn)))
  {
    var a, d := CellsOf(t.rows, AgreeColumn), CellsOf(t.rows, DisagreeColumn);
    PieceSetParsed(a + d, x);
    ParsedInPairs(a, d, x);
    if x in Contributors(t) {
      var k :| 0 <= k < |a| && (x in ParseOrcidList(a[k]) || x in ParseOrcidList(d[k]));
      assert a[k] == Cell(t.rows[k], AgreeColumn) && d[k] == Cell(t.rows[k], DisagreeColumn);
    }
    if exists k :: 0 <= k < |t.rows| &&
        (x in ParseOrcidList(Cell(t.rows[k], AgreeColumn)) || x in ParseOrcidList(Cell(t.rows[k], DisagreeColumn))) {
      var k :| 0 <= k < |t.rows| &&
        (x in ParseOrcidList(Cell(t.rows[k], AgreeColumn)) || x in ParseOrcidList(Cell(t.rows[k], DisagreeColumn)));
      assert a[k] == Cell(t.rows[k], AgreeColumn) && d[k] == Cell(t.rows[k], DisagreeColumn);
    }
  }

  /** Some cell of `a + d` parses to `x` exactly when some position of `a` or of `d` does. */
  lemma ParsedInPairs(a: seq<string>, d: seq<string>, x: string)
    requires |a| == |d|
    ensures (exists j :: 0 <= j < |a + d| && x in ParseOrcidList((a + d)[j])) <==>
      exists k :: 0 <= k < |a| && (x in ParseOrcidList(a[k]) || x in ParseOrcidList(d[k]))
  {
    if exists j :: 0 <= j < |a + d| && x in ParseOrcidList((a + d)[j]) {
      var j :| 0 <= j < |a + d| && x in ParseOrcidList((a + d)[j]);
      if j < |a| { assert (a + d)[j] == a[j]; } else { assert (a + d)[j] == d[j - |a|]; }
    }
    if exists k :: 0 <= k < |a| && (x in ParseOrcidList(a[k]) || x in ParseOrcidList(d[k])) {
      var k :| 0 <= k < |a| && (x in ParseOrcidList(a[k]) || x in ParseOrcidList(d[k]));
      assert (a + d)[k] == a[k] && (a + d)[|a| + k] == d[k];
    }
  }

  /** Outside `""` and `"NA"`, a stripped piece of some cell is an entry the list parser keeps. */
  lemma PieceSetParsed(cells: seq<string>, x: string)
    requires x != ""
    ensures x in StrippedPieceSet(cells, ';') - {"NA"} <==> exists j :: 0 <= j < |cells| && x in ParseOrcidList(cells[j])
  {
    StrippedPieceSetMembers(cells, ';', x);
    if x in StrippedPieceSet(cells, ';') - {"NA"} {
      var j :| 0 <= j < |cells| && StripsTo(Split(cells[j], ';'), x);
      ParseOrcidListMembers(cells[j], x);
    }
    if exists j :: 0 <= j < |cells| && x in ParseOrcidList(cells[j]) {
      var j :| 0 <= j < |cells| && x in ParseOrcidList(cells[j]);
      ParseOrcidListMembers(cells[j], x);
    }
  }

  /** A row whose Agree cell ends in `;` makes the empty string a contributor. */
  lemma TrailingSeparatorCounted(t: Table, k: nat, orcid: string)
    requires k < |t.rows| && Cell(t.rows[k], AgreeColumn) == orcid + ";"
    ensures "" in Contributors(t)
  {
    var cell := orcid + ";";
    var cells := CellsOf(t.rows, AgreeColumn) + CellsOf(t.rows, DisagreeColumn);
    assert cells[k] == cell;
    SplitTrailing(orcid);
    var ps := Split(cell, ';');
    assert Strip(ps[|ps| - 1]) == "";
    StrippedPieceSetMembers(cells, ';', "");
  }

  /** The last piece of a string ending in the separator is empty. */
  lemma {:induction false} SplitTrailing(s: string)
    ensures Split(s + ";", ';')[|Split(s + ";", ';')| - 1] == ""
    decreases |s|
  {
    if |s| == 0 {
      assert ";"[1..] == "";
    } else {
      assert (s + ";")[1..] == s[1..] + ";";
      SplitTrailing(s[1..]);
    }
  }

  /** There are never more probes or tissues than validated reagents, and a non-empty table has a tissue. */
  lemma FiguresBounded(t: Table)
    ensures |Probes(t)| <= |t.rows|
    ensures |Tissues(t)| <= |t.rows|
    ensures |t.rows| > 0 ==> |Tissues(t)| >= 1
  {
    DistinctCount(CellsOf(t.rows, ConjugateColumn));
    var tissues := seq(|t.rows|, k requires 0 <= k < |t.rows| => TissueOf(t.rows[k]));
    DistinctCount(tissues);
    if |t.rows| > 0 {
      assert tissues[0] in Tissues(t);
    }
  }

  /** A conjugate is counted exactly when some row uses it and it is not in the exclusion list. */
  lemma ProbeMembers(t: Table, x: string)
    ensures x in Probes(t) <==> x !in NotProbes && exists k :: 0 <= k < |t.rows| && Cell(t.rows[k], ConjugateColumn) == x
  {
    var cells := CellsOf(t.rows, ConjugateColumn);
    if x in cells {
      var k :| 0 <= k < |cells| && cells[k] == x;
    }
  }

  // ---------------------------------------------------------------- placeholder substitution

  /**
   The loop of `update_index_stats`: for each key in insertion order, every
   `{key}` is replaced by the decimal form of its value.
   */
  function Substitute(template: string, stats: seq<(string, nat)>): string
    decreases |stats|
  {
    if |stats| == 0 then template
    else Substitute(ReplaceAll(template, Placeholder(stats[0].0), NatToString(stats[0].1)), stats[1..])
  }

  function Placeholder(key: string): (p: string)
    ensures |p| == |key| + 2 && p[0] == '{'
  {
    "{" + key + "}"
  }

  /** A template read as literal text and `{key}` slots. */
  datatype Segment = Literal(text: string) | Slot(key: string)

  /** A key that cannot be confused with the braces around it. */
  predicate PlainKey(key: string) {
    '{' !in key && '}' !in key
  }

  /** Literal text holds no opening brace; slot keys are plain. */
  predicate Parsable(segs: seq<Segment>) {
    forall k :: 0 <= k < |segs| ==>
      match segs[k]
      case Literal(text) => '{' !in text
      case Slot(key) => PlainKey(key)
  }

  /** The template text. */
  function Flatten(segs: seq<Segment>): string {
    if |segs| == 0 then ""
    else
      (match segs[0] case Literal(text) => text case Slot(key) => Placeholder(key)) + Flatten(segs[1..])
  }

  /** The value a slot shows: the first entry with its key, or the placeholder itself when there is none. */
  function SlotText(key: string, stats: seq<(string, nat)>): string
    decreases |stats|
  {
    if |stats| == 0 then Placeholder(key)
    else if stats[0].0 == key then NatToString(stats[0].1)
    else SlotText(key, stats[1..])
  }

  /** The page as intended: every slot shows its statistic, every literal stays. */
  function Filled(segs: seq<Segment>, stats: seq<(string, nat)>): string {
    if |segs| == 0 then ""
    else
      (match segs[0] case Literal(text) => text case Slot(key) => SlotText(key, stats)) + Filled(segs[1..], stats)
  }

  /**
   Substitution fills the template as intended: each `{key}` slot with a
   statistic becomes its value, slots without one and all literal text are
   left as they were.
   */
  lemma {:induction false} SubstituteFills(segs: seq<Segment>, stats: seq<(string, nat)>)
    requires Parsable(segs)
    requires forall k :: 0 <= k < |stats| ==> PlainKey(stats[k].0)
    ensures Substitute(Flatten(segs), stats) == Filled(segs, stats)
    decreases |stats|
  {
    if |stats| == 0 {
      FilledEmpty(segs, stats);
    } else {
      var key, value := stats[0].0, stats[0].1;
      var segs' := FillKey(segs, key, NatToString(value));
      ReplaceSegments(segs, key, NatToString(value));
      SubstituteFills(segs', stats[1..]);
      FillKeyFilled(segs, stats);
    }
  }

  /** Every slot for `key` turned into literal `rep`. */
  function FillKey(segs: seq<Segment>, key: string, rep: string): (r: seq<Segment>)
    ensures |r| == |segs|
  {
    if |segs| == 0 then []
    else
      [match segs[0] case Slot(k) => if k == key then Literal(rep) else segs[0] case Literal(_) => segs[0]]
      + FillKey(segs[1..], key, rep)
  }

  lemma {:induction false} FilledEmpty(segs: seq<Segment>, stats: seq<(string, nat)>)
    requires |stats| == 0
    ensures Flatten(segs) == Filled(segs, stats)
    decreases |segs|
  {
    if |segs| > 0 { FilledEmpty(segs[1..], stats); }
  }

  lemma {:induction false} FillKeyFilled(segs: seq<Segment>, stats: seq<(string, nat)>)
    requires |stats| > 0
    ensures Filled(FillKey(segs, stats[0].0, NatToString(stats[0].1)), stats[1..]) == Filled(segs, stats)
    decreases |segs|
  {
    if |segs| > 0 { FillKeyFilled(segs[1..], stats); }
  }

  /** One replacement pass over a parsable template turns exactly the slots of `key` into `rep`. */
  lemma {:induction false} ReplaceSegments(segs: seq<Segment>, key: string, rep: string)
    requires Parsable(segs) && PlainKey(key)
    requires forall i :: 0 <= i < |rep| ==> '0' <= rep[i] <= '9'
    ensures ReplaceAll(Flatten(segs), Placeholder(key), rep) == Flatten(FillKey(segs, key, rep))
    ensures Parsable(FillKey(segs, key, rep))
    decreases |segs|
  {
    var pat := Placeholder(key);
    if |segs| > 0 {
      assert Parsable(segs[1..]) by { assert forall k :: 1 <= k < |segs| ==> segs[k] == segs[1..][k - 1]; }
      ReplaceSegments(segs[1..], key, rep);
      var rest := Flatten(segs[1..]);
      var tail := FillKey(segs[1..], key, rep);
      assert FillKey(segs, key, rep)[1..] == tail;
      match segs[0] {
        case Literal(text) =>
          assert '{' !in text;
          ReplaceAllAfterLiteral(text, rest, pat, rep);
        case Slot(k) =>
          if k == key {
            ReplaceAllAtPattern(rest, pat, rep);
            assert '{' !in rep;
          } else {
            ReplaceAllOtherSlot(k, key, rest, rep);
          }
      }
      ParsableCons(FillKey(segs, key, rep));
    }
  }

  lemma ParsableCons(segs: seq<Segment>)
    requires |segs| > 0 && Parsable(segs[1..])
    requires match segs[0] case Literal(text) => '{' !in text case Slot(key) => PlainKey(key)
    ensures Parsable(segs)
  {
    forall k | 1 <= k < |segs| ensures segs[k] == segs[1..][k - 1] {}
  }

  /** Text without an opening brace passes through a placeholder replacement unchanged. */
  lemma {:induction false} ReplaceAllAfterLiteral(a: string, s: string, pat: string, rep: string)
    requires |pat| > 0 && pat[0] == '{' && '{' !in a
    ensures ReplaceAll(a + s, pat, rep) == a + ReplaceAll(s, pat, rep)
    decreases |a|
  {
    if |a| > 0 {
      var t := a + s;
      assert t[1..] == a[1..] + s;
      assert '{' !in a[1..] by { assert forall i :: 0 <= i < |a[1..]| ==> a[1..][i] == a[i + 1]; }
      ReplaceAllAfterLiteral(a[1..], s, pat, rep);
      assert a[0] in a;
      if |t| >= |pat| {
        assert t[..|pat|][0] == a[0];
      } else {
        ReplaceAllShort(s, pat, rep);
        ReplaceAllShort(t, pat, rep);
      }
      assert a == [a[0]] + a[1..];
    } else {
      assert a + s == s;
    }
  }

  lemma ReplaceAllShort(s: string, pat: string, rep: string)
    requires 0 < |pat| && |s| < |pat|
    ensures ReplaceAll(s, pat, rep) == s
  {
  }

  lemma ReplaceAllAtPattern(s: string, pat: string, rep: string)
    requires |pat| > 0
    ensures ReplaceAll(pat + s, pat, rep) == rep + ReplaceAll(s, pat, rep)
  {
    assert (pat + s)[..|pat|] == pat;
    assert (pat + s)[|pat|..] == s;
  }

  /** The slot of another plain key is not an occurrence of the placeholder. */
  lemma ReplaceAllOtherSlot(other: string, key: string, s: string, rep: string)
    requires PlainKey(other) && PlainKey(key) && other != key
    ensures ReplaceAll(Placeholder(other) + s, Placeholder(key), rep) == Placeholder(other) + ReplaceAll(s, Placeholder(key), rep)
  {
    var pat := Placeholder(key);
    var t := Placeholder(other) + s;
    if |t| >= |pat| {
      assert t[..|pat|] != pat by { SlotMismatch(other, key, s); }
    } else {
      ReplaceAllShort(t, pat, rep);
    }
    assert t[1..] == (other + "}") + s;
    assert '{' !in other + "}";
    ReplaceAllAfterLiteral(other + "}", s, pat, rep);
    assert t == "{" + ((other + "}") + s);
    assert Placeholder(other) == "{" + (other + "}");
  }

  lemma SlotMismatch(other: string, key: string, s: string)
    requires PlainKey(other) && PlainKey(key) && other != key
    requires |Placeholder(other) + s| >= |Placeholder(key)|
    ensures (Placeholder(other) + s)[..|Placeholder(key)|] != Placeholder(key)
  {
    var t := Placeholder(other) + s;
    var pat := Placeholder(key);
    if |other| == |key| {
      var i :| 0 <= i < |key| && other[i] != key[i];
      assert t[i + 1] == other[i] && pat[i + 1] == key[i];
    } else if |other| < |key| {
      assert t[|other| + 1] == '}' && pat[|other| + 1] == key[|other|];
      assert key[|other|] in key;
    } else {
      assert t[|key| + 1] == other[|key|] && pat[|key| + 1] == '}';
      assert other[|key|] in other;
    }
  }

  /** A template without an opening brace comes out unchanged. */
  lemma {:induction false} SubstituteWithoutPlaceholders(template: string, stats: seq<(string, nat)>)
    requires '{' !in template
    ensures Substitute(template, stats) == template
    decreases |stats|
  {
    if |stats| > 0 {
      var pat := Placeholder(stats[0].0);
      ReplaceAllAfterLiteral(template, "", pat, "");
      ReplaceAllShort("", pat, NatToString(stats[0].1));
      ReplaceAllAfterLiteral(template, "", pat, NatToString(stats[0].1));
      assert template + "" == template;
      SubstituteWithoutPlaceholders(template, stats[1..]);
    }
  }
}

=== FILE: links.dfy ===
/**
 Markdown links as the scripts write them, and the ORCID identifier pattern
 the reagent validator reads back out of supporting-material tables.
 */
module Links {
  import opened Text

  /** `[text](target)`. */
  function MdLink(text: string, target: string): (r: string)
    ensures |r| == |text| + |target| + 4
    ensures r[0] == '[' && r[|text| + 1] == ']' && r[|text| + 2] == '(' && r[|r| - 1] == ')'
    ensures r[1..|text| + 1] == text && r[|text| + 3..|r| - 1] == target
  {
    "[" + text + "](" + target + ")"
  }

  const OrcidSite := "https://orcid.org/"
  const DoiSite := "https://doi.org/"

  /** `[orcid](https://orcid.org/orcid)`. */
  function OrcidLink(orcid: string): string {
    MdLink(orcid, OrcidSite + orcid)
  }

  /** `[doi](https://doi.org/doi)`. */
  function DoiLink(doi: string): string {
    MdLink(doi, DoiSite + doi)
  }

  predicate IsDigit(c: char) {
    '0' <= c <= '9'
  }

  /**
   The ORCID identifier structure `NNNN-NNNN-NNNN-NNNC`: four groups of four,
   separated by hyphens, every character a digit except the last, which may
   also be `X`.
   */
  predicate IsOrcid(id: string) {
    |id| == 19
    && forall i :: 0 <= i < 19 ==>
      if i == 4 || i == 9 || i == 14 then id[i] == '-'
      else if i == 18 then IsDigit(id[i]) || id[i] == 'X'
      else IsDigit(id[i])
  }

  /** Length of a bracketed identifier `[NNNN-NNNN-NNNN-NNNC]`. */
  const BracketedLength := 21

  /** `s` starts with an identifier in square brackets. */
  predicate BracketedOrcidAt(s: string) {
    |s| >= BracketedLength && s[0] == '[' && s[BracketedLength - 1] == ']' && IsOrcid(s[1..BracketedLength - 1])
  }

  /**
   `[s[1:-1] for s in re.findall(r"\[\d{4}-\d{4}-\d{4}-\d{3}[\dX]\]", text)]`:
   the bracketed identifiers of `text`, scanned left to right without overlap,
   brackets removed.
   */
  function FindOrcids(s: string): (r: seq<string>)
    ensures forall k :: 0 <= k < |r| ==> IsOrcid(r[k])
    decreases |s|
  {
    if |s| < BracketedLength then []
    else if BracketedOrcidAt(s) then [s[1..BracketedLength - 1]] + FindOrcids(s[BracketedLength..])
    else FindOrcids(s[1..])
  }

  /** Text without an opening bracket before `b` contributes no identifier. */
  lemma {:induction false} FindOrcidsSkip(a: string, b: string)
    requires '[' !in a
    ensures FindOrcids(a + b) == FindOrcids(b)
    decreases |a|
  {
    if |a| > 0 {
      assert (a + b)[1..] == a[1..] + b;
      assert '[' !in a[1..] by { assert forall c :: c in a[1..] ==> c in a; }
      FindOrcidsSkip(a[1..], b);
      assert (a + b)[0] == a[0] && a[0] in a;
      if |a + b| < BracketedLength {
        FindOrcidsShort(b);
        FindOrcidsShort(a + b);
      } else {
        assert !BracketedOrcidAt(a + b);
        assert FindOrcids(a + b) == FindOrcids((a + b)[1..]);
      }
    } else {
      assert a + b == b;
    }
  }

  lemma FindOrcidsShort(s: string)
    requires |s| < BracketedLength
    ensures FindOrcids(s) == []
  {
  }

  /** Text without a hyphen holds no identifier. */
  lemma {:induction false} FindOrcidsNoHyphen(s: string)
    requires '-' !in s
    ensures FindOrcids(s) == []
    decreases |s|
  {
    if |s| >= BracketedLength {
      assert s[5] == s[1..BracketedLength - 1][4];
      assert !BracketedOrcidAt(s);
      assert '-' !in s[1..] by { assert forall c :: c in s[1..] ==> c in s; }
      FindOrcidsNoHyphen(s[1..]);
    }
  }

  /** A link whose text is an identifier, and whose target has no opening bracket, yields that identifier and nothing else. */
  lemma FindOrcidsInMdLink(id: string, target: string, rest: string)
    requires IsOrcid(id) && '[' !in target
    ensures FindOrcids(MdLink(id, target) + rest) == [id] + FindOrcids(rest)
  {
    var tail := "(" + target + ")";
    var s := MdLink(id, target) + rest;
    assert s == "[" + id + "]" + tail + rest;
    assert s[1..BracketedLength - 1] == id;
    assert BracketedOrcidAt(s);
    assert s[BracketedLength..] == tail + rest;
    FindOrcidsSkip(tail, rest);
  }

  /** An ORCID link yields its identifier and nothing else. */
  lemma FindOrcidsInLink(orcid: string, rest: string)
    requires IsOrcid(orcid)
    ensures FindOrcids(OrcidLink(orcid) + rest) == [orcid] + FindOrcids(rest)
  {
    assert '[' !in OrcidSite + orcid by {
      assert forall i :: 0 <= i < |orcid| ==> orcid[i] != '[';
    }
    FindOrcidsInMdLink(orcid, OrcidSite + orcid, rest);
  }
}

=== FILE: markdown.dfy ===
/**
 The markdown builders of the site pages: the accordion wrapper for long
 descriptions, the newline replacement applied to table cells, the protocol,
 dataset and software title strings, and the contributor list built from the
 creators of `.zenodo.json`.
 */
module Markdown {
  import opened Text
  import opened Tables
  import opened Links
  import ReagentMarkdown

  type Rendered = ReagentMarkdown.Rendered

  // ---------------------------------------------------------------- the accordion

  const DetailsOpen := "{::nomarkdown}<details ><summary>"
  const DetailsMiddle := "...</summary><p>"
  const DetailsClose := "</p></details>{:/}"

  /**
   The html a table cell carries for a long text: `summary` shown, `body`
   revealed on demand, the whole kept away from the markdown renderer.
   Both parts can be read back at fixed offsets.
   */
  function Accordion(summary: string, body: string): (r: string)
    ensures |r| == |DetailsOpen| + |summary| + |DetailsMiddle| + |body| + |DetailsClose|
    ensures r[..|DetailsOpen|] == DetailsOpen && r[|r| - |DetailsClose|..] == DetailsClose
    ensures r[|DetailsOpen|..|DetailsOpen| + |summary|] == summary
    ensures r[|r| - |DetailsClose| - |body|..|r| - |DetailsClose|] == body
  {
    DetailsOpen + summary + DetailsMiddle + body + DetailsClose
  }

  function Min(a: nat, b: nat): nat {
    if a <= b then a else b
  }

  /** The number of words the accordion summary shows by default. */
  const SummaryWords := 3

  /**
   `' '.join(description.split()[0:num_words])`: the summary has the
   description's first `numWords` words, single-spaced, and no other.
   */
  function Summary(description: string, numWords: nat): (s: string)
    ensures Words(s) == Words(description)[..Min(numWords, |Words(description)|)]
    ensures |Words(s)| <= numWords
    ensures s == Join(" ", Words(s))
  {
    var ws := Words(description)[..Min(numWords, |Words(description)|)];
    WordsJoin(ws);
    Join(" ", ws)
  }

  /**
   `_description_2_md`: nothing for a blank description; otherwise the
   accordion whose summary is the description's first `numWords` words and
   whose body is the description verbatim.
   */
  function DescriptionToMd(description: string, numWords: nat): (r: string)
    ensures r == "" <==> IsBlank(description)
    ensures !IsBlank(description) ==>
      exists summary :: r == Accordion(summary, description)
        && Words(summary) == Words(description)[..Min(numWords, |Words(description)|)]
        && summary == Join(" ", Words(summary))
  {
    if IsBlank(description) then ""
    else Accordion(Summary(description, numWords), description)
  }

  // ---------------------------------------------------------------- newlines in table cells

  /**
   The cell text `_dataframe_2_md` passes on: every newline becomes `<br>`,
   so none is left, each adds three characters, and a cell without a newline
   is untouched.
   */
  function NewlinesToBr(cell: string): (r: string)
    ensures '\n' !in r
    ensures |r| == |cell| + 3 * Occurrences(cell, '\n')
    ensures '\n' !in cell ==> r == cell
  {
    BreaksReplaced(cell);
    ReplaceAll(cell, "\n", "<br>")
  }

  lemma {:induction false} BreaksReplaced(s: string)
    ensures '\n' !in ReplaceAll(s, "\n", "<br>")
    ensures |ReplaceAll(s, "\n", "<br>")| == |s| + 3 * Occurrences(s, '\n')
    ensures '\n' !in s ==> ReplaceAll(s, "\n", "<br>") == s
    decreases |s|
  {
    if |s| > 0 {
      assert s[..1] == [s[0]];
      BreaksReplaced(s[1..]);
      assert '\n' !in s ==> '\n' !in s[1..] by { assert forall c :: c in s[1..] ==> c in s; }
      assert s == [s[0]] + s[1..];
    }
  }

  /** A row as the markdown table receives it: the same columns, no newline left in any cell. */
  function RowToMd(row: Row): (r: Row)
    ensures r.Keys == row.Keys
    ensures forall c :: c in r ==> '\n' !in r[c] && ('\n' !in row[c] ==> r[c] == row[c])
  {
    map c | c in row :: NewlinesToBr(row[c])
  }

  // ---------------------------------------------------------------- the protocols page

  /** Number of occurrences of `c` in `s + [x]`. */
  lemma {:induction false} OccurrencesSnoc(s: string, x: char, c: char)
    ensures Occurrences(s + [x], c) == Occurrences(s, c) + (if x == c then 1 else 0)
    decreases |s|
  {
    if |s| > 0 {
      assert (s + [x])[1..] == s[1..] + [x];
      OccurrencesSnoc(s[1..], x, c);
    } else {
      assert s + [x] == [x];
    }
  }

  /** A prefix has no more occurrences than the whole. */
  lemma {:induction false} OccurrencesPrefix(s: string, k: nat, c: char)
    requires k <= |s|
    ensures Occurrences(s[..k], c) <= Occurrences(s, c)
    decreases |s|
  {
    if k > 0 {
      assert s[..k][1..] == s[1..][..k - 1];
      OccurrencesPrefix(s[1..], k - 1, c);
    }
  }

  /** Index of the `n`-th space of `d`, counting from 1, or `|d|` when it has fewer. */
  function NthSpace(d: string, n: nat): (k: nat)
    requires n >= 1
    ensures k <= |d|
    ensures k < |d| ==> d[k] == ' ' && Occurrences(d[..k], ' ') == n - 1
    ensures k == |d| ==> Occurrences(d, ' ') < n
    decreases |d|
  {
    if |d| == 0 then 0
    else if d[0] == ' ' && n == 1 then 0
    else
      var k := 1 + NthSpace(d[1..], if d[0] == ' ' then n - 1 else n);
      assert d[..k][1..] == d[1..][..k - 1];
      k
  }

  /**
   The space-counting loop of the protocol converter's `_description_2_md`,
   resumed at index `j` with `spaces` spaces counted before it: the index the
   loop variable holds when the loop ends, by the break at the third space or
   by running out of characters.
   */
  function ScanFrom(d: string, j: nat, spaces: nat): (i: nat)
    requires j < |d| && spaces == Occurrences(d[..j], ' ') && spaces < 3
    ensures j <= i < |d|
    ensures (d[i] == ' ' && Occurrences(d[..i], ' ') == 2) || (i == |d| - 1 && Occurrences(d, ' ') < 3)
    decreases |d| - j
  {
    OccurrencesSnoc(d[..j], d[j], ' ');
    assert d[..j] + [d[j]] == d[..j + 1];
    if d[j] == ' ' && spaces + 1 == 3 then j
    else if j == |d| - 1 then
      assert d[..j + 1] == d;
      j
    else ScanFrom(d, j + 1, if d[j] == ' ' then spaces + 1 else spaces)
  }

  /**
   The loop as the method runs it. The index stays unassigned when the
   description is empty and the loop body never runs.
   */
  method ScanSpaces(d: string) returns (i: nat, bound: bool)
    ensures bound <==> |d| > 0
    ensures bound ==> i == ScanFrom(d, 0, 0)
  {
    var spaces := 0;
    var j := 0;
    i, bound := 0, false;
    while j < |d|
      invariant j <= |d| && spaces < 3
      invariant spaces == Occurrences(d[..j], ' ')
      invariant bound <==> j > 0
      invariant j < |d| ==> ScanFrom(d, j, spaces) == ScanFrom(d, 0, 0)
      invariant j == |d| && bound ==> i == ScanFrom(d, 0, 0)
      decreases |d| - j
    {
      i, bound := j, true;
      OccurrencesSnoc(d[..j], d[j], ' ');
      assert d[..j] + [d[j]] == d[..j + 1];
      if d[j] == ' ' {
        spaces := spaces + 1;
        if spaces == 3 {
          return;
        }
      }
      j := j + 1;
    }
  }

  /**
   The protocol converter's `_description_2_md` as written: the summary is
   `description[0:i]` for the loop's final index `i`; an empty description
   leaves `i` unbound.
   */
  function ProtocolDetailsAsWritten(d: string): (r: Rendered)
    ensures r.Crashed? <==> d == ""
    ensures r.Crashed? ==> r.error == "UnboundLocalError"
  {
    if d == "" then ReagentMarkdown.Crashed("UnboundLocalError")
    else ReagentMarkdown.Md(Accordion(d[..ScanFrom(d, 0, 0)], d))
  }

  /**
   The summary the loop is meant to find: the description up to, not
   including, its third space, or all of it when it has fewer spaces.
   */
  ghost predicate IntendedSummary(d: string, s: string) {
    |s| <= |d| && s == d[..|s|] &&
    ((s == d && Occurrences(d, ' ') < 3) || (|s| < |d| && d[|s|] == ' ' && Occurrences(s, ' ') == 2))
  }

  function ProtocolSummary(d: string): (s: string)
    ensures IntendedSummary(d, s)
  {
    var k := NthSpace(d, 3);
    assert k == |d| ==> d[..k] == d;
    d[..k]
  }

  /** There is only one intended summary. */
  lemma IntendedSummaryUnique(d: string, s: string, t: string)
    requires IntendedSummary(d, s) && IntendedSummary(d, t)
    ensures s == t
  {
    if |s| < |t| {
      assert t[..|s| + 1] == d[..|s| + 1];
      OneMoreSpace(d, |s|);
      OccurrencesPrefix(t, |s| + 1, ' ');
    } else if |t| < |s| {
      assert s[..|t| + 1] == d[..|t| + 1];
      OneMoreSpace(d, |t|);
      OccurrencesPrefix(s, |t| + 1, ' ');
    }
  }

  /** A space at `k` after two spaces makes the third. */
  lemma OneMoreSpace(d: string, k: nat)
    requires k < |d| && d[k] == ' ' && Occurrences(d[..k], ' ') == 2
    ensures Occurrences(d[..k + 1], ' ') == 3
  {
    OccurrencesSnoc(d[..k], d[k], ' ');
    assert d[..k] + [d[k]] == d[..k + 1];
  }

  /** The protocol details with the intended summary. */
  function ProtocolDetails(d: string): (r: string)
    ensures exists s :: r == Accordion(s, d) && IntendedSummary(d, s)
  {
    Accordion(ProtocolSummary(d), d)
  }

  /**
   What the converter does against what it means, with three or more
   spaces: the two agree.
   */
  lemma ProtocolSummaryAsWrittenLong(d: string)
    requires d != "" && Occurrences(d, ' ') >= 3
    ensures ProtocolDetailsAsWritten(d) == ReagentMarkdown.Md(ProtocolDetails(d))
  {
    var i := ScanFrom(d, 0, 0);
    assert d[..i] == d[..i][..|d[..i]|];
    assert IntendedSummary(d, d[..i]);
    IntendedSummaryUnique(d, d[..i], ProtocolSummary(d));
  }

  /**
   With fewer than three spaces the intended summary is the whole
   description, and the one written loses its last character.
   */
  lemma ProtocolSummaryAsWrittenShort(d: string)
    requires d != "" && Occurrences(d, ' ') < 3
    ensures ProtocolDetailsAsWritten(d) == ReagentMarkdown.Md(Accordion(d[..|d| - 1], d))
    ensures ProtocolSummary(d) == d
  {
    ShortScanEnd(d);
    ShortSummaryWhole(d);
  }

  lemma ShortScanEnd(d: string)
    requires d != "" && Occurrences(d, ' ') < 3
    ensures ScanFrom(d, 0, 0) == |d| - 1
  {
    var i := ScanFrom(d, 0, 0);
    if d[i] == ' ' && Occurrences(d[..i], ' ') == 2 {
      OneMoreSpace(d, i);
      OccurrencesPrefix(d, i + 1, ' ');
    }
  }

  lemma ShortSummaryWhole(d: string)
    requires Occurrences(d, ' ') < 3
    ensures ProtocolSummary(d) == d
  {
    var s := ProtocolSummary(d);
    if s != d {
      OneMoreSpace(d, |s|);
      OccurrencesPrefix(d, |s| + 1, ' ');
    }
  }

  /** A two-letter description without spaces: the summary written is its first letter alone. */
  lemma ShortDescriptionLosesLetter()
    ensures ProtocolDetailsAsWritten("ab") == ReagentMarkdown.Md(Accordion("a", "ab"))
    ensures ProtocolDetails("ab") == Accordion("ab", "ab")
  {
    assert Occurrences("ab", ' ') == 0;
    ProtocolSummaryAsWrittenShort("ab");
  }

  /** `f"{title} [[detailed protocol]({url})]."`: the title, then the link, from which the URL reads back. */
  function ProtocolTitle(title: string, url: string): (r: string)
    ensures |r| == |title| + |url| + 25
    ensures r[..|title|] == title && r[|r| - 2..] == "]."
    ensures r[|r| - 3 - |url|..|r| - 3] == url
  {
    title + " [" + MdLink("detailed protocol", url) + "]."
  }

  // ---------------------------------------------------------------- the datasets and software pages

  const DoiPrefix := ", associated publication DOIs: "

  /** `[doi](https://doi.org/doi)` for each DOI, in order. */
  function DoiLinks(dois: seq<string>): (r: seq<string>)
    ensures |r| == |dois| && forall k :: 0 <= k < |dois| ==> r[k] == DoiLink(dois[k])
  {
    seq(|dois|, k requires 0 <= k < |dois| => DoiLink(dois[k]))
  }

  /** `{title} [[download]({url}), license: {license}`. */
  function TitleHead(title: string, url: string, license: string): (r: string)
    ensures |r| > |title| && r[..|title|] == title
  {
    var r := title + " [" + MdLink("download", url) + ", license: " + license;
    assert r[..|title|] == title;
    r
  }

  /**
   The closing of a title: just `]` for an empty DOI cell; otherwise the
   links to its stripped, non-blank DOIs, in order, then `]`.
   */
  function DoiClause(dois: string): (r: string)
    ensures |r| > 0 && r[|r| - 1] == ']'
    ensures r == "]" <==> dois == ""
    ensures dois != "" ==> (|r| > |DoiPrefix| && r[..|DoiPrefix|] == DoiPrefix
      && r[|DoiPrefix|..|r| - 1] == Join(", ", DoiLinks(StrippedPieces(dois, ';'))))
  {
    if dois == "" then "]"
    else DoiPrefix + Join(", ", DoiLinks(StrippedPieces(dois, ';'))) + "]"
  }

  /** `dataset_2_title_md_str`. */
  function DatasetTitle(title: string, url: string, dois: string, license: string): (r: string)
    ensures |r| > |title| && r[..|title|] == title && r[|r| - 1] == ']'
    ensures dois == "" ==> r == TitleHead(title, url, license) + "]"
    ensures dois != "" ==> (|r| > |TitleHead(title, url, license)| + |DoiPrefix|
      && r[|TitleHead(title, url, license)|..][..|DoiPrefix|] == DoiPrefix)
    ensures |r| > |TitleHead(title, url, license)| && r[..|TitleHead(title, url, license)|] == TitleHead(title, url, license)
    ensures r[|TitleHead(title, url, license)|..] == DoiClause(dois)
  {
    var head, tail := TitleHead(title, url, license), DoiClause(dois);
    assert (head + tail)[..|title|] == head[..|title|];
    assert (head + tail)[|head|..] == tail;
    head + tail
  }

  const LanguagePrefix := ", language: "

  /** `, [repository]({repository})`. */
  function RepositoryClause(repository: string): (r: string)
    ensures |r| == |repository| + 16
  {
    ", [repository](" + repository + ")"
  }

  /** The clauses only some software has: `, language: {language}` and `, [repository]({repository})`, each when known. */
  function SoftwareExtras(language: string, repository: string): (r: string)
    ensures r == "" <==> language == "" && repository == ""
    ensures |r| == (if language != "" then |LanguagePrefix + language| else 0)
                   + (if repository != "" then |RepositoryClause(repository)| else 0)
    ensures language != "" ==> r[..|LanguagePrefix + language|] == LanguagePrefix + language
    ensures repository != "" ==> r[|r| - |RepositoryClause(repository)|..] == RepositoryClause(repository)
  {
    var lang := if language != "" then LanguagePrefix + language else "";
    var repo := if repository != "" then RepositoryClause(repository) else "";
    assert (lang + repo)[..|lang|] == lang;
    assert (lang + repo)[|lang|..] == repo;
    lang + repo
  }

  /** `software_2_title_md_str`. */
  function SoftwareTitle(title: string, url: string, repository: string, language: string, dois: string, license: string): (r: string)
    ensures |r| > |title| && r[..|title|] == title && r[|r| - 1] == ']'
    ensures language != "" ==> (|r| > |TitleHead(title, url, license)| + |LanguagePrefix + language|
      && r[|TitleHead(title, url, license)|..][..|LanguagePrefix + language|] == LanguagePrefix + language)
    ensures |r| == |TitleHead(title, url, license)| + |SoftwareExtras(language, repository)| + |DoiClause(dois)|
    ensures r[..|TitleHead(title, url, license)|] == TitleHead(title, url, license)
    ensures r[|TitleHead(title, url, license)|..|TitleHead(title, url, license)| + |SoftwareExtras(language, repository)|]
            == SoftwareExtras(language, repository)
    ensures r[|r| - |DoiClause(dois)|..] == DoiClause(dois)
  {
    var head, extras, tail := TitleHead(title, url, license), SoftwareExtras(language, repository), DoiClause(dois);
    TitleParts(title, head, if language != "" then LanguagePrefix + language else "", extras, tail);
    head + extras + tail
  }

  /** A title assembled from a head, the optional clauses and a closing keeps each in place. */
  lemma TitleParts(title: string, head: string, clause: string, extras: string, tail: string)
    requires |head| > |title| && head[..|title|] == title
    requires |extras| >= |clause| && extras[..|clause|] == clause
    requires |tail| > 0 && tail[|tail| - 1] == ']'
    ensures |head + extras + tail| > |head| + |clause|
    ensures (head + extras + tail)[..|title|] == title && (head + extras + tail)[|head + extras + tail| - 1] == ']'
    ensures (head + extras + tail)[|head|..][..|clause|] == clause
    ensures (head + extras + tail)[..|head|] == head
    ensures (head + extras + tail)[|head|..|head| + |extras|] == extras
    ensures (head + extras + tail)[|head + extras|..] == tail
  {
    var r := head + extras + tail;
    assert r[..|head|] == head;
    assert r[..|title|] == head[..|title|];
    assert r[|head|..] == extras + tail;
    assert (extras + tail)[..|clause|] == extras[..|clause|];
  }

  /** Software with neither a language nor a repository gets the title a dataset with the same fields gets. */
  lemma SoftwareWithoutExtras(title: string, url: string, dois: string, license: string)
    ensures SoftwareTitle(title, url, "", "", dois, license) == DatasetTitle(title, url, dois, license)
  {
  }

  // ---------------------------------------------------------------- the contributor list

  /** A creator of `.zenodo.json`, its fields as text. */
  type Creator = map<string, string>

  predicate HasCreatorFields(c: Creator) {
    "name" in c && "affiliation" in c && "orcid" in c
  }

  /** `1. {name}, {affiliation}, [{orcid}](https://orcid.org/{orcid}).` */
  function CreatorLine(c: Creator): string
    requires HasCreatorFields(c)
  {
    "1. " + c["name"] + ", " + c["affiliation"] + ", " + OrcidLink(c["orcid"]) + "."
  }

  function CreatorLines(cs: seq<Creator>): (r: seq<string>)
    requires forall k :: 0 <= k < |cs| ==> HasCreatorFields(cs[k])
    ensures |r| == |cs| && forall k :: 0 <= k < |cs| ==> r[k] == CreatorLine(cs[k])
  {
    seq(|cs|, k requires 0 <= k < |cs| => CreatorLine(cs[k]))
  }

  /**
   The contributor list of `zenodo_creators_to_md`: one numbered line per
   creator, joined by newlines, or the KeyError of a creator missing a field.
   */
  function ContributorList(cs: seq<Creator>): (r: Rendered)
    ensures r.Crashed? <==> exists k :: 0 <= k < |cs| && !HasCreatorFields(cs[k])
    ensures r.Crashed? ==> r.error == "KeyError"
    ensures r.Md? ==> (r.text == "" <==> cs == [])
  {
    if exists k :: 0 <= k < |cs| && !HasCreatorFields(cs[k]) then ReagentMarkdown.Crashed("KeyError")
    else
      ReagentMarkdown.Md(Join("\n", CreatorLines(cs)))
  }

  predicate NoNewlines(c: Creator) {
    forall f :: f in c ==> '\n' !in c[f]
  }

  /** When no field holds a newline, the list splits back into one line per creator, in order. */
  lemma ContributorListLines(cs: seq<Creator>)
    requires |cs| > 0
    requires forall k :: 0 <= k < |cs| ==> HasCreatorFields(cs[k]) && NoNewlines(cs[k])
    ensures Split(ContributorList(cs).text, '\n') == CreatorLines(cs)
  {
    var lines := CreatorLines(cs);
    forall k | 0 <= k < |lines| ensures '\n' !in lines[k] {
      var c := cs[k];
      assert '\n' !in c["name"] && '\n' !in c["affiliation"] && '\n' !in c["orcid"];
      assert '\n' !in OrcidLink(c["orcid"]) by {
        assert forall i :: 0 <= i < |OrcidSite| ==> OrcidSite[i] != '\n';
      }
    }
    assert "\n" == ['\n'];
    SplitJoin(lines, '\n');
  }

  /** The creators' ORCID identifiers, in order. */
  function CreatorOrcids(cs: seq<Creator>): (r: seq<string>)
    requires forall k :: 0 <= k < |cs| ==> HasCreatorFields(cs[k])
    ensures |r| == |cs| && forall k :: 0 <= k < |cs| ==> r[k] == OrcidOf(cs[k])
  {
    seq(|cs|, k requires 0 <= k < |cs| => OrcidOf(cs[k]))
  }

  function OrcidOf(c: Creator): string
    requires HasCreatorFields(c)
  {
    c["orcid"]
  }

  /** A creator whose ORCID is well formed and whose name and affiliation hold no bracket. */
  predicate ReadableCreator(c: Creator)
    requires HasCreatorFields(c)
  {
    IsOrcid(c["orcid"]) && '[' !in c["name"] && '[' !in c["affiliation"]
  }

  /**
   The ORCID identifiers read back out of the list are the creators'
   identifiers, in order, when no name or affiliation holds a bracket.
   */
  lemma ContributorListOrcids(cs: seq<Creator>)
    requires forall k :: 0 <= k < |cs| ==> HasCreatorFields(cs[k])
    requires forall k :: 0 <= k < |cs| ==> ReadableCreator(cs[k])
    ensures FindOrcids(Join("\n", CreatorLines(cs))) == CreatorOrcids(cs)
  {
    var lines, ids := CreatorLines(cs), CreatorOrcids(cs);
    forall k | 0 <= k < |cs| ensures Yields(lines[k], ids[k]) {
      forall rest ensures FindOrcids(lines[k] + rest) == [ids[k]] + FindOrcids(rest) {
        CreatorLineOrcid(cs[k], rest);
      }
    }
    JoinedLinesOrcids(lines, ids);
  }

  /** Whatever follows it, `line` contributes exactly the identifier `id`. */
  ghost predicate Yields(line: string, id: string) {
    forall rest :: FindOrcids(line + rest) == [id] + FindOrcids(rest)
  }

  /** Lines joined by newlines yield their identifiers in order. */
  lemma {:induction false} JoinedLinesOrcids(lines: seq<string>, ids: seq<string>)
    requires |lines| == |ids|
    requires forall k :: 0 <= k < |lines| ==> Yields(lines[k], ids[k])
    ensures FindOrcids(Join("\n", lines)) == ids
    decreases |lines|
  {
    if |lines| == 0 {
      FindOrcidsShort("");
    } else if |lines| == 1 {
      assert Yields(lines[0], ids[0]);
      assert lines[0] + "" == lines[0];
      FindOrcidsShort("");
    } else {
      JoinedLinesOrcids(lines[1..], ids[1..]);
      JoinCons("\n", lines[0], lines[1..]);
      assert lines == [lines[0]] + lines[1..];
      NextLineOrcid(lines[0], ids[0], Join("\n", lines[1..]));
      assert ids == [ids[0]] + ids[1..];
    }
  }

  lemma NextLineOrcid(line: string, id: string, rest: string)
    requires Yields(line, id)
    ensures FindOrcids(line + "\n" + rest) == [id] + FindOrcids(rest)
  {
    assert line + "\n" + rest == line + ("\n" + rest);
    FindOrcidsSkip("\n", rest);
  }

  /** A creator's line yields its ORCID identifier and nothing else. */
  lemma CreatorLineOrcid(c: Creator, rest: string)
    requires HasCreatorFields(c) && ReadableCreator(c)
    ensures FindOrcids(CreatorLine(c) + rest) == [OrcidOf(c)] + FindOrcids(rest)
  {
    var lead := "1. " + c["name"] + ", " + c["affiliation"] + ", ";
    var link := OrcidLink(c["orcid"]);
    assert '[' !in lead;
    assert CreatorLine(c) + rest == lead + (link + ("." + rest));
    FindOrcidsSkip(lead, link + ("." + rest));
    FindOrcidsInLink(c["orcid"], "." + rest);
    FindOrcidsSkip(".", rest);
  }
}

=== FILE: paths.dfy ===
/**
 Supporting-material locations. A target–conjugate pair is stored under a
 directory whose name is `target_conjugate` with every character that is
 awkward in file paths or in static-site URLs replaced by `_`
 (`replace_char_list`, of which the repository holds four identical copies).
 A path is modelled as its sequence of components.
 */
module Paths {
  import opened Text

  type Path = seq<string>

  /** The characters `replace_char_list` is asked to replace, in the order the scripts list them. */
  const InvalidChars: seq<char> := [' ', '\t', '/', '\\', '{', '}', '[', ']', '(', ')', '<', '>', ':', '&']

  /** Every occurrence of `c` becomes `rep`; every other character stays. */
  predicate MapsChar(s: string, r: string, c: char, rep: char) {
    |r| == |s| && forall i :: 0 <= i < |s| ==> r[i] == (if s[i] == c then rep else s[i])
  }

  /** `s.replace(c, rep)` for single characters replaces each occurrence in place. */
  lemma {:induction false} ReplaceOneChar(s: string, c: char, rep: char)
    ensures MapsChar(s, ReplaceAll(s, [c], [rep]), c, rep)
    decreases |s|
  {
    if |s| > 0 {
      ReplaceOneChar(s[1..], c, rep);
      var r := ReplaceAll(s, [c], [rep]);
      var rest := ReplaceAll(s[1..], [c], [rep]);
      if s[..1] == [c] {
        assert s[|[c]|..] == s[1..];
        assert r == [rep] + rest;
      } else {
        assert r == [s[0]] + rest;
      }
      forall i | 0 <= i < |s| ensures r[i] == (if s[i] == c then rep else s[i]) {
        if i > 0 { assert r[i] == rest[i - 1] && s[i] == s[1..][i - 1]; }
      }
    }
  }

  /** `replace_char_list(s, chars, rep)`: replace the characters of `chars` one after another, each only if present. */
  function ReplaceCharList(s: string, chars: seq<char>, rep: char): (r: string)
    ensures |r| == |s|
    decreases |chars|
  {
    if |chars| == 0 then s
    else
      var next := if chars[0] in s then ReplaceAll(s, [chars[0]], [rep]) else s;
      ReplaceOneChar(s, chars[0], rep);
      ReplaceCharList(next, chars[1..], rep)
  }

  /**
   When the replacement is not itself one of the listed characters, every
   listed character becomes the replacement and every other character stays.
   */
  lemma {:induction false} ReplaceCharListPointwise(s: string, chars: seq<char>, rep: char)
    requires rep !in chars
    ensures forall i :: 0 <= i < |s| ==> ReplaceCharList(s, chars, rep)[i] == (if s[i] in chars then rep else s[i])
    decreases |chars|
  {
    if |chars| > 0 {
      var c := chars[0];
      var next := if c in s then ReplaceAll(s, [c], [rep]) else s;
      ReplaceOneChar(s, c, rep);
      assert MapsChar(s, next, c, rep) by {
        if c !in s {
          forall i | 0 <= i < |s| ensures s[i] != c { assert s[i] in s; }
        }
      }
      assert rep !in chars[1..] by { assert forall x :: x in chars[1..] ==> x in chars; }
      ReplaceCharListPointwise(next, chars[1..], rep);
      forall i | 0 <= i < |s| ensures ReplaceCharList(s, chars, rep)[i] == (if s[i] in chars then rep else s[i]) {
        assert s[i] in chars <==> s[i] == c || s[i] in chars[1..];
      }
    }
  }

  /** After sanitising, no listed character is left. */
  lemma ReplaceCharListRemoves(s: string, chars: seq<char>, rep: char)
    requires rep !in chars
    ensures forall c :: c in chars ==> c !in ReplaceCharList(s, chars, rep)
  {
    ReplaceCharListPointwise(s, chars, rep);
  }

  /** The directory name of a target–conjugate pair. */
  function PairDirectory(target: string, conjugate: string): (d: string)
    ensures |d| == |target| + 1 + |conjugate|
    ensures forall c :: c in InvalidChars ==> c !in d
  {
    ReplaceCharListRemoves(target + "_" + conjugate, InvalidChars, '_');
    ReplaceCharList(target + "_" + conjugate, InvalidChars, '_')
  }

  /** The supporting-material file of one contributor for one pair: `root/target_conjugate/orcid.md`. */
  function SupportingFile(root: Path, target: string, conjugate: string, orcid: string): (p: Path)
    ensures |p| == |root| + 2 && p[..|root|] == root
    ensures p[|root|] == PairDirectory(target, conjugate)
    ensures p[|root| + 1] == orcid + ".md"
  {
    root + [PairDirectory(target, conjugate), orcid + ".md"]
  }
}

=== FILE: probes.dfy ===
/**
 `validate_fluorescent_probes_data`: no cell of the fluorescent-probes table
 may carry leading or trailing whitespace, and no probe name may occur twice.
 */
module Probes {
  import opened Text
  import opened Seqs
  import opened Tables
  import opened Validation

  const ProbeColumn := "Fluorescent Probe"

  /**
   The whitespace check comes first and covers every column; only then is
   the probe column read, which raises `KeyError` when the table has none.
   */
  function ValidateFluorescentProbes(t: Table): (r: Outcome)
    requires WellFormed(t)
    ensures r.Returned? ==> r.code == 0 || r.code == 1
    ensures r == Returned(0) <==> NoPadding(t) && ProbeColumn in t.columns && NoDups(Column(t, ProbeColumn))
    ensures !NoPadding(t) ==> r == Returned(1)
    ensures r.Raised? <==> NoPadding(t) && ProbeColumn !in t.columns
    ensures r.Raised? ==> r.error == "KeyError"
  {
    var whitespace := WhitespaceStep(t);
    if whitespace != Pass then Stop(whitespace)
    else if ProbeColumn !in t.columns then Raised("KeyError")
    else Finish(DuplicateStep(Column(t, ProbeColumn)))
  }

  /** A step as the script's final answer: 0 when it passes. */
  function Finish(s: Step): (r: Outcome)
    ensures r == Returned(0) <==> s == Pass
    ensures r == Returned(1) <==> s == Fail
  {
    if s == Pass then Returned(0) else Stop(s)
  }

  /** The message part of a failed run: each repeated probe with every spreadsheet row that holds it. */
  function ProbeDuplicates(t: Table): (r: seq<DuplicateReport>)
    requires WellFormed(t) && ProbeColumn in t.columns
    ensures r == [] <==> NoDups(Column(t, ProbeColumn))
  {
    var vals := Column(t, ProbeColumn);
    DuplicatedValuesEmpty(vals);
    ReportsFor(t, ProbeColumn, DuplicatedValues(vals))
  }

  /** A probe is reported exactly when two rows hold it. */
  lemma ProbeDuplicatesValues(t: Table, v: string)
    requires WellFormed(t) && ProbeColumn in t.columns
    ensures (exists k :: 0 <= k < |ProbeDuplicates(t)| && ProbeDuplicates(t)[k].value == v)
      <==> exists i, j :: 0 <= i < j < |t.rows| && t.rows[i][ProbeColumn] == v && t.rows[j][ProbeColumn] == v
  {
    var dups := DuplicatedValues(Column(t, ProbeColumn));
    ColumnRepeats(t, ProbeColumn, v);
    if v in dups {
      var k :| 0 <= k < |dups| && dups[k] == v;
      assert ProbeDuplicates(t)[k].value == v;
    }
  }

  /** The rows reported for a probe are every row that holds it, numbered as a spreadsheet shows them. */
  lemma ProbeDuplicatesRows(t: Table, k: nat, n: nat)
    requires WellFormed(t) && ProbeColumn in t.columns && k < |ProbeDuplicates(t)|
    ensures n in ProbeDuplicates(t)[k].rows <==>
      exists i :: 0 <= i < |t.rows| && n == i + ShiftIndex && t.rows[i][ProbeColumn] == ProbeDuplicates(t)[k].value
  {
  }
}

=== FILE: reagent_md.dfy ===
/**
 `csv_to_md_with_url`: the reagent-resources table rendered as a markdown
 table whose cells link to the supporting material, to UniProt, to vendor
 websites and to image files. The repository holds two copies of the
 converter; the older one, in the package root, stops after the vendor
 links and has no image column.

 `dir` is the last path component of the supporting-material root, the
 prefix every generated link uses. The UniProt REST service and the
 vendor-name table (itself built from HTTP probes) are parameters.
 */
module ReagentMarkdown {
  import opened Text
  import opened Tables
  import opened Links
  import opened Paths
  import opened Validation
  import Reagents

  const AgreeColumn := Reagents.AgreeColumn
  const DisagreeColumn := Reagents.DisagreeColumn
  const TargetColumn := Reagents.TargetColumn
  const ConjugateColumn := Reagents.ConjugateColumn
  const VendorColumn := Reagents.VendorColumn
  const UniprotColumn := "UniProt Accession Number"
  const ImageFilesColumn := "Image Files"
  const CaptionsColumn := "Captions"
  const Md5Column := "MD5"
  const ImagesColumn := "Images"

  /** A rendered cell, or the Python exception its rendering raises. */
  datatype Rendered = Md(text: string) | Crashed(error: string)

  // ---------------------------------------------------------------- supporting-material links

  /** `[v](dir/tc/v.md)`: the supporting-material file of contributor `v`. */
  function SupportLink(v: string, dir: string, tc: string): string {
    MdLink(v, dir + "/" + tc + "/" + v + ".md")
  }

  function SupportLinks(vs: seq<string>, dir: string, tc: string): (r: seq<string>)
    ensures |r| == |vs|
    ensures forall k :: 0 <= k < |vs| ==> r[k] == SupportLink(vs[k], dir, tc)
  {
    seq(|vs|, k requires 0 <= k < |vs| => SupportLink(vs[k], dir, tc))
  }

  /**
   `data_to_md_str`: an Agree or Disagree cell as links to the contributors'
   supporting-material files of the row's target–conjugate pair. A cell that
   strips to `"NA"` stays `"NA"`; any other cell needs at least one non-blank
   `;`-piece, since the loop ends by indexing the last one.
   */
  function DataToMd(cell: string, target: string, conjugate: string, dir: string): (r: Rendered)
    ensures Strip(cell) == "NA" ==> r == Md("NA")
    ensures r.Crashed? <==> Strip(cell) != "NA" && StrippedPieces(cell, ';') == []
    ensures r.Crashed? ==> r.error == "IndexError"
    ensures r.Md? && Strip(cell) != "NA" ==>
      r.text == Join(", ", SupportLinks(StrippedPieces(cell, ';'), dir, PairDirectory(target, conjugate)))
  {
    if Strip(cell) == "NA" then Md("NA")
    else
      var txt := StrippedPieces(cell, ';');
      if |txt| == 0 then Crashed("IndexError")
      else
        Md(JoinedByLoop(", ", SupportLinks(txt, dir, PairDirectory(target, conjugate))))
  }

  /**
   The ORCIDs a rendered cell links to, read back with the identifier pattern,
   are the cell's entries in order: no link target introduces a spurious
   bracketed identifier.
   */
  lemma DataToMdReadBack(cell: string, target: string, conjugate: string, dir: string)
    requires Strip(cell) != "NA"
    requires forall k :: 0 <= k < |StrippedPieces(cell, ';')| ==> IsOrcid(StrippedPieces(cell, ';')[k])
    requires '[' !in dir
    ensures DataToMd(cell, target, conjugate, dir).Md? ==>
      FindOrcids(DataToMd(cell, target, conjugate, dir).text) == StrippedPieces(cell, ';')
  {
    var vs := StrippedPieces(cell, ';');
    var tc := PairDirectory(target, conjugate);
    assert '[' !in tc by { assert '[' in InvalidChars; }
    SupportLinksReadBack(vs, dir, tc);
  }

  lemma {:induction false} SupportLinksReadBack(vs: seq<string>, dir: string, tc: string)
    requires forall k :: 0 <= k < |vs| ==> IsOrcid(vs[k])
    requires '[' !in dir && '[' !in tc
    ensures FindOrcids(Join(", ", SupportLinks(vs, dir, tc))) == vs
    decreases |vs|
  {
    if |vs| == 0 {
      FindOrcidsShort("");
    } else if |vs| == 1 {
      SupportLinksSingle(vs, dir, tc);
    } else {
      SupportLinksReadBack(vs[1..], dir, tc);
      SupportLinksCons(vs, dir, tc);
    }
  }

  lemma SupportLinksSingle(vs: seq<string>, dir: string, tc: string)
    requires |vs| == 1 && IsOrcid(vs[0])
    requires '[' !in dir && '[' !in tc
    ensures FindOrcids(Join(", ", SupportLinks(vs, dir, tc))) == vs
  {
    var links := SupportLinks(vs, dir, tc);
    SupportLinkThen(vs[0], dir, tc, "");
    assert Join(", ", links) == links[0] + "";
    FindOrcidsShort("");
  }

  lemma SupportLinksCons(vs: seq<string>, dir: string, tc: string)
    requires |vs| >= 2 && IsOrcid(vs[0])
    requires '[' !in dir && '[' !in tc
    requires FindOrcids(Join(", ", SupportLinks(vs[1..], dir, tc))) == vs[1..]
    ensures FindOrcids(Join(", ", SupportLinks(vs, dir, tc))) == vs
  {
    var links := SupportLinks(vs, dir, tc);
    assert links[1..] == SupportLinks(vs[1..], dir, tc);
    var rest := Join(", ", links[1..]);
    JoinFirst(", ", links);
    SupportLinkThen(vs[0], dir, tc, ", " + rest);
    FindOrcidsSkip(", ", rest);
    assert vs == [vs[0]] + vs[1..];
  }

  /** A link to a contributor's file reads back as that contributor's ORCID, before whatever follows. */
  lemma SupportLinkThen(v: string, dir: string, tc: string, rest: string)
    requires IsOrcid(v) && '[' !in dir && '[' !in tc
    ensures FindOrcids(SupportLink(v, dir, tc) + rest) == [v] + FindOrcids(rest)
  {
    var target := dir + "/" + tc + "/" + v + ".md";
    assert '[' !in target by {
      assert forall i :: 0 <= i < |v| ==> v[i] != '[';
    }
    FindOrcidsInMdLink(v, target, rest);
  }

  // ---------------------------------------------------------------- image links

  /** `[caption](dir/path)`. */
  function ImageLink(caption: string, dir: string, path: string): string {
    MdLink(caption, dir + "/" + path)
  }

  /** `zip(paths, captions)` as links: as many as the shorter list holds. */
  function ImageLinks(paths: seq<string>, captions: seq<string>, dir: string): (r: seq<string>)
    ensures |r| == if |paths| <= |captions| then |paths| else |captions|
    ensures forall k :: 0 <= k < |r| ==> r[k] == ImageLink(captions[k], dir, paths[k])
  {
    var n := if |paths| <= |captions| then |paths| else |captions|;
    seq(n, k requires 0 <= k < n => ImageLink(captions[k], dir, paths[k]))
  }

  /**
   `image_caption_to_md_str`: every caption linked to its image file. An
   image cell that strips to `"NA"` stays `"NA"`; otherwise both cells need a
   non-blank piece. All pairs but the last come from zipping the two lists
   without their last pieces; the last caption is then linked to the last
   path, so with lists of different lengths the middle of the longer list is
   dropped.
   */
  function ImageCaptionToMd(paths: string, captions: string, dir: string): (r: Rendered)
    ensures Strip(paths) == "NA" ==> r == Md("NA")
    ensures r.Crashed? <==>
      Strip(paths) != "NA" && (StrippedPieces(paths, ';') == [] || StrippedPieces(captions, ';') == [])
    ensures r.Crashed? ==> r.error == "IndexError"
    ensures r.Md? && Strip(paths) != "NA" ==>
      var ps, cs := StrippedPieces(paths, ';'), StrippedPieces(captions, ';');
      r.text == Join(", ", ImageLinks(ps[..|ps| - 1], cs[..|cs| - 1], dir)
                           + [ImageLink(cs[|cs| - 1], dir, ps[|ps| - 1])])
  {
    if Strip(paths) == "NA" then Md("NA")
    else
      var ps, cs := StrippedPieces(paths, ';'), StrippedPieces(captions, ';');
      if |ps| == 0 || |cs| == 0 then Crashed("IndexError")
      else
        var init := ImageLinks(ps[..|ps| - 1], cs[..|cs| - 1], dir);
        var last := ImageLink(cs[|cs| - 1], dir, ps[|ps| - 1]);
        Md(JoinedByLoop(", ", init + [last]))
  }

  /** With as many captions as image files, the k-th caption links to the k-th file. */
  lemma ImageCaptionsPaired(paths: string, captions: string, dir: string)
    requires Strip(paths) != "NA"
    requires |StrippedPieces(paths, ';')| == |StrippedPieces(captions, ';')| >= 1
    ensures ImageCaptionToMd(paths, captions, dir) ==
      Md(Join(", ", ImageLinks(StrippedPieces(paths, ';'), StrippedPieces(captions, ';'), dir)))
  {
    var ps, cs := StrippedPieces(paths, ';'), StrippedPieces(captions, ';');
    ImageLinksSnoc(ps, cs, dir);
  }

  lemma ImageLinksSnoc(ps: seq<string>, cs: seq<string>, dir: string)
    requires |ps| == |cs| >= 1
    ensures ImageLinks(ps[..|ps| - 1], cs[..|cs| - 1], dir) + [ImageLink(cs[|cs| - 1], dir, ps[|ps| - 1])]
            == ImageLinks(ps, cs, dir)
  {
  }

  /** A piece of a `;`-list that is not empty and strips to itself. */
  predicate Plain(s: string) {
    s != "" && ';' !in s && Strip(s) == s
  }

  /** Two image files with one caption: the caption goes to the second file and the first file is not linked. */
  lemma ImageCaptionsMismatched(a: string, b: string, c: string, dir: string)
    requires Plain(a) && Plain(b) && Plain(c)
    ensures ImageCaptionToMd(a + ";" + b, c, dir) == Md(ImageLink(c, dir, b))
  {
    TwoPieces(a, b);
    OnePiece(c);
    var ps: seq<string>, cs: seq<string> := [a, b], [c];
    assert ps[..1] == [a] && cs[..0] == [];
    assert ImageLinks(ps[..1], cs[..0], dir) == [];
    assert [] + [ImageLink(c, dir, b)] == [ImageLink(c, dir, b)];
  }

  lemma TwoPieces(a: string, b: string)
    requires Plain(a) && Plain(b)
    ensures Strip(a + ";" + b) != "NA"
    ensures StrippedPieces(a + ";" + b, ';') == [a, b]
  {
    var s := a + ";" + b;
    assert Join([';'], [a, b]) == s;
    SplitJoin([a, b], ';');
    NonEmptyStrippedOfTrimmed([a, b], ';');
    assert s[0] == a[0] && s[|s| - 1] == b[|b| - 1];
    StripOfTrimmed(s);
    assert s[|a|] == ';';
  }

  lemma OnePiece(c: string)
    requires Plain(c)
    ensures StrippedPieces(c, ';') == [c]
  {
    SplitNoSep(c, ';');
    NonEmptyStrippedOfTrimmed([c], ';');
  }

  // ---------------------------------------------------------------- UniProt links

  const UniprotSite := "https://www.uniprot.org/uniprotkb/"
  const UniprotRest := "https://rest.uniprot.org/uniprotkb/"

  /** `[u](https://www.uniprot.org/uniprotkb/u)`. */
  function UniprotLink(u: string): string {
    MdLink(u, UniprotSite + u)
  }

  /**
   `uniprot_to_md_str`: `"NA"` is kept without a request. Otherwise the
   accession is linked unless the REST service answers with a status other
   than 200; a request that fails or times out still gets the link.
   */
  function UniprotToMd(u: string, probe: string -> HttpOutcome): (r: string)
    ensures u == "NA" ==> r == "NA"
    ensures r == u <==> (u == "NA" ||
      (probe(UniprotRest + u + ".txt").Response? && probe(UniprotRest + u + ".txt").status != 200))
    ensures r != u ==> r == UniprotLink(u)
  {
    if u == "NA" then "NA"
    else match probe(UniprotRest + u + ".txt")
      case Response(status) => if status == 200 then UniprotLink(u) else u
      case _ => UniprotLink(u)
  }

  /** Every lookup of the loop, in order. */
  function Lookups(us: seq<string>, table: map<string, string>): (r: seq<string>)
    requires forall k :: 0 <= k < |us| ==> us[k] in table
    ensures |r| == |us| && forall k :: 0 <= k < |us| ==> r[k] == table[us[k]]
  {
    seq(|us|, k requires 0 <= k < |us| => table[us[k]])
  }

  /**
   `uniprots_to_md`: each non-blank accession of the cell replaced by its
   entry in `table`, joined with `", "`. A cell without a non-blank piece
   raises IndexError; an accession missing from the table raises KeyError.
   */
  function UniprotsToMd(cell: string, table: map<string, string>): (r: Rendered)
    ensures r == Crashed("IndexError") <==> StrippedPieces(cell, ';') == []
    ensures r == Crashed("KeyError") <==>
      StrippedPieces(cell, ';') != [] && exists x :: x in StrippedPieces(cell, ';') && x !in table
    ensures r.Crashed? ==> r.error in {"IndexError", "KeyError"}
    ensures r.Md? ==> r.text == Join(", ", Lookups(StrippedPieces(cell, ';'), table))
  {
    var us := StrippedPieces(cell, ';');
    if |us| == 0 then Crashed("IndexError")
    else if exists k :: 0 <= k < |us| && us[k] !in table then Crashed("KeyError")
    else
      Md(JoinedByLoop(", ", Lookups(us, table)))
  }

  /** The accession table: every accession of the column with its rendering. */
  function UniprotTable(cells: seq<string>, probe: string -> HttpOutcome): (r: map<string, string>)
    ensures r.Keys == StrippedPieceSet(cells, ';')
    ensures forall x :: x in r ==> r[x] == UniprotToMd(x, probe)
  {
    map x | x in StrippedPieceSet(cells, ';') :: UniprotToMd(x, probe)
  }

  /**
   Rendering a cell of the column the table was built from never misses
   an accession: the only failure left is a cell without a non-blank piece.
   */
  lemma UniprotLookupsFound(cells: seq<string>, probe: string -> HttpOutcome, k: nat)
    requires k < |cells|
    ensures UniprotsToMd(cells[k], UniprotTable(cells, probe)) != Crashed("KeyError")
    ensures UniprotsToMd(cells[k], UniprotTable(cells, probe)).Md? <==> StrippedPieces(cells[k], ';') != []
  {
    var table := UniprotTable(cells, probe);
    forall x | x in StrippedPieces(cells[k], ';') ensures x in table {
      NonEmptyStrippedMembers(Split(cells[k], ';'), ';', x);
      StrippedPieceSetMembers(cells, ';', x);
    }
  }

  /** An `"NA"` accession cell stays `"NA"`. */
  lemma UniprotNotAvailable(cells: seq<string>, probe: string -> HttpOutcome, k: nat)
    requires k < |cells| && cells[k] == "NA"
    ensures UniprotsToMd(cells[k], UniprotTable(cells, probe)) == Md("NA")
  {
    SplitNoSep("NA", ';');
    assert Strip("NA") == "NA" by { assert !IsSpace('N') && !IsSpace('A'); }
    assert StrippedPieces("NA", ';') == ["NA"];
    assert StripsTo(Split(cells[k], ';'), "NA");
    UniprotLookupsFound(cells, probe, k);
    assert Join(", ", ["NA"]) == "NA";
  }

  // ---------------------------------------------------------------- the conversion

  /** One column-rewriting pass of the conversion. */
  datatype Stage =
    | AgreeLinks(dir: string)
    | DisagreeLinks(dir: string)
    | UniprotLinks(table: map<string, string>)
    | VendorLinks(sites: map<string, string>)
    | ImageLinksStage(dir: string)

  /** The column a stage writes. */
  function Written(s: Stage): string {
    match s
    case AgreeLinks(_) => AgreeColumn
    case DisagreeLinks(_) => DisagreeColumn
    case UniprotLinks(_) => UniprotColumn
    case VendorLinks(_) => VendorColumn
    case ImageLinksStage(_) => ImagesColumn
  }

  /** The columns a stage reads. */
  function ReadBy(s: Stage): set<string> {
    match s
    case AgreeLinks(_) => {AgreeColumn, TargetColumn, ConjugateColumn}
    case DisagreeLinks(_) => {DisagreeColumn, TargetColumn, ConjugateColumn}
    case UniprotLinks(_) => {UniprotColumn}
    case VendorLinks(_) => {VendorColumn}
    case ImageLinksStage(_) => {ImageFilesColumn, CaptionsColumn}
  }

  /** The new text of one row's cell; a vendor missing from the site table raises KeyError. */
  function Render(s: Stage, row: Row): Rendered {
    match s
    case AgreeLinks(dir) => DataToMd(Cell(row, AgreeColumn), Cell(row, TargetColumn), Cell(row, ConjugateColumn), dir)
    case DisagreeLinks(dir) => DataToMd(Cell(row, DisagreeColumn), Cell(row, TargetColumn), Cell(row, ConjugateColumn), dir)
    case UniprotLinks(table) => UniprotsToMd(Cell(row, UniprotColumn), table)
    case VendorLinks(sites) =>
      if Cell(row, VendorColumn) in sites then Md(sites[Cell(row, VendorColumn)]) else Crashed("KeyError")
    case ImageLinksStage(dir) => ImageCaptionToMd(Cell(row, ImageFilesColumn), Cell(row, CaptionsColumn), dir)
  }

  /** A stage depends on nothing but the columns it reads. */
  lemma RenderReads(s: Stage, a: Row, b: Row)
    requires forall c :: c in ReadBy(s) ==> Cell(a, c) == Cell(b, c)
    ensures Render(s, a) == Render(s, b)
  {
    match s
    case AgreeLinks(_) =>
      assert Cell(a, AgreeColumn) == Cell(b, AgreeColumn);
      assert Cell(a, TargetColumn) == Cell(b, TargetColumn);
      assert Cell(a, ConjugateColumn) == Cell(b, ConjugateColumn);
    case DisagreeLinks(_) =>
      assert Cell(a, DisagreeColumn) == Cell(b, DisagreeColumn);
      assert Cell(a, TargetColumn) == Cell(b, TargetColumn);
      assert Cell(a, ConjugateColumn) == Cell(b, ConjugateColumn);
    case UniprotLinks(_) => assert Cell(a, UniprotColumn) == Cell(b, UniprotColumn);
    case VendorLinks(_) => assert Cell(a, VendorColumn) == Cell(b, VendorColumn);
    case ImageLinksStage(_) =>
      assert Cell(a, ImageFilesColumn) == Cell(b, ImageFilesColumn);
      assert Cell(a, CaptionsColumn) == Cell(b, CaptionsColumn);
  }

  /** Where the conversion stands: the table so far, an early `return`, or an escaping exception. */
  datatype Converted = Converted(rows: seq<Row>) | Exited(code: int) | Failed(error: string)

  /** How the script ends. */
  function ExitStatus(c: Converted): (o: Outcome) {
    match c
    case Converted(_) => Returned(0)
    case Exited(code) => Returned(code)
    case Failed(e) => Raised(e)
  }

  /** Every row renders. */
  predicate RendersAll(s: Stage, rows: seq<Row>) {
    forall k :: 0 <= k < |rows| ==> Render(s, rows[k]).Md?
  }

  /** The stage's rendering of every row, top to bottom. */
  function Renders(s: Stage, rows: seq<Row>): (r: seq<Rendered>)
    ensures |r| == |rows| && forall k :: 0 <= k < |rows| ==> r[k] == Render(s, rows[k])
  {
    seq(|rows|, k requires 0 <= k < |rows| => Render(s, rows[k]))
  }

  /**
   Storing rendered cells into column `col`, as `df[col] = df[...].apply(f, axis=1)`
   does: the first exception escapes; otherwise every row gets its new cell.
   */
  function Assign(rows: seq<Row>, col: string, cells: seq<Rendered>): (r: Converted)
    requires |cells| == |rows|
    ensures !r.Exited?
    ensures r.Converted? <==> forall k :: 0 <= k < |cells| ==> cells[k].Md?
    ensures r.Converted? ==> (|r.rows| == |rows| &&
      forall k :: 0 <= k < |rows| ==> r.rows[k] == rows[k][col := cells[k].text])
    ensures r.Failed? ==> exists k :: 0 <= k < |cells| && cells[k] == Crashed(r.error)
  {
    if |rows| == 0 then Converted([])
    else match cells[0]
      case Crashed(e) => Failed(e)
      case Md(v) =>
        var rest := Assign(rows[1..], col, cells[1..]);
        assert forall k :: 1 <= k < |rows| ==> rows[k] == rows[1..][k - 1] && cells[k] == cells[1..][k - 1];
        if rest.Converted? then Converted([rows[0][col := v]] + rest.rows)
        else
          assert exists k :: 0 <= k < |cells[1..]| && cells[1..][k] == Crashed(rest.error);
          rest
  }

  /** One stage over the whole table. */
  function Apply(s: Stage, rows: seq<Row>): (r: Converted)
    ensures !r.Exited?
    ensures r.Converted? <==> RendersAll(s, rows)
    ensures r.Converted? ==> (|r.rows| == |rows| &&
      forall k :: 0 <= k < |rows| ==> r.rows[k] == rows[k][Written(s) := Render(s, rows[k]).text])
  {
    Assign(rows, Written(s), Renders(s, rows))
  }

  /** A stage leaves every column but the one it writes as it was. */
  lemma ApplyKeeps(s: Stage, rows: seq<Row>)
    requires Apply(s, rows).Converted?
    ensures |Apply(s, rows).rows| == |rows|
    ensures forall c, k :: c != Written(s) && 0 <= k < |rows| ==> Cell(Apply(s, rows).rows[k], c) == Cell(rows[k], c)
  {
  }

  /** Tables that agree on the columns a stage reads render alike. */
  lemma RendersAllReads(s: Stage, a: seq<Row>, b: seq<Row>)
    requires |a| == |b|
    requires forall c, k :: c in ReadBy(s) && 0 <= k < |a| ==> Cell(a[k], c) == Cell(b[k], c)
    ensures RendersAll(s, a) <==> RendersAll(s, b)
  {
    forall k | 0 <= k < |a| ensures Render(s, a[k]) == Render(s, b[k]) {
      RenderReads(s, a[k], b[k]);
    }
  }

  const LinkColumns: set<string> := {AgreeColumn, DisagreeColumn, TargetColumn, ConjugateColumn}

  /**
   Agree, then Disagree. Each stage selects its columns just before it runs,
   so a missing Disagree column is only noticed once every Agree cell rendered.
   */
  function LinkStages(columns: set<string>, rows: seq<Row>, dir: string): (r: Converted)
    ensures !r.Exited?
  {
    if !(ReadBy(AgreeLinks(dir)) <= columns) then Failed("KeyError")
    else
      var agreed := Apply(AgreeLinks(dir), rows);
      if !agreed.Converted? then agreed
      else if DisagreeColumn !in columns then Failed("KeyError")
      else Apply(DisagreeLinks(dir), agreed.rows)
  }

  /** The UniProt column, with the table built from the accessions it holds. */
  function UniprotStage(rows: seq<Row>, probe: string -> HttpOutcome): (r: Converted)
    ensures !r.Exited?
  {
    Apply(UniprotLinks(UniprotTable(CellsOf(rows, UniprotColumn), probe)), rows)
  }

  /** A KeyError while looking up vendors, the missing column included, is caught and ends the script with 1. */
  function VendorStage(columns: set<string>, rows: seq<Row>, sites: map<string, string>): (r: Converted)
    ensures !r.Failed?
  {
    if VendorColumn !in columns then Exited(1)
    else
      var linked := Apply(VendorLinks(sites), rows);
      if linked.Converted? then linked else Exited(1)
  }

  /** The Images column, then the image columns dropped. */
  function ImageStage(columns: set<string>, rows: seq<Row>, dir: string): (r: Converted)
    ensures !r.Exited?
    ensures r.Converted? <==>
      ImageFilesColumn in columns && CaptionsColumn in columns && Md5Column in columns && RendersAll(ImageLinksStage(dir), rows)
  {
    if ImageFilesColumn !in columns || CaptionsColumn !in columns then Failed("KeyError")
    else
      var imaged := Apply(ImageLinksStage(dir), rows);
      if !imaged.Converted? then imaged
      else if Md5Column !in columns then Failed("KeyError")
      else Converted(DropImageColumns(imaged.rows))
  }

  /** `df.drop(columns=[...])` for the three image columns. */
  function DropImageColumns(rows: seq<Row>): (r: seq<Row>)
    ensures |r| == |rows|
    ensures forall k :: 0 <= k < |rows| ==> r[k] == rows[k] - {ImageFilesColumn, CaptionsColumn, Md5Column}
  {
    seq(|rows|, k requires 0 <= k < |rows| => rows[k] - {ImageFilesColumn, CaptionsColumn, Md5Column})
  }

  /**
   `csv_to_md_with_url`, from the sorted table to the table written into the
   template. `withImages` selects the copy in `md_generation`, which adds the
   image stage.
   */
  function Convert(t: Table, dir: string, sites: map<string, string>, probe: string -> HttpOutcome,
                   withImages: bool): (r: Converted)
    requires WellFormed(t)
    ensures TargetColumn !in t.columns ==> r == Failed("KeyError")
    ensures TargetColumn in t.columns && |t.rows| == 0 ==> r == Converted(t.rows)
  {
    if TargetColumn !in t.columns then Failed("KeyError")
    else if |t.rows| == 0 then Converted(t.rows)
    else AfterLinks(t.columns, LinkStages(t.columns, t.rows, dir), sites, probe, dir, withImages)
  }

  /** The UniProt, vendor and image stages. */
  function AfterLinks(columns: set<string>, linked: Converted, sites: map<string, string>,
                      probe: string -> HttpOutcome, dir: string, withImages: bool): Converted {
    if !linked.Converted? then linked
    else if UniprotColumn !in columns then Failed("KeyError")
    else AfterAccessions(columns, UniprotStage(linked.rows, probe), sites, dir, withImages)
  }

  /** The vendor and image stages. */
  function AfterAccessions(columns: set<string>, accessions: Converted, sites: map<string, string>,
                           dir: string, withImages: bool): Converted {
    if !accessions.Converted? then accessions
    else
      var vendors := VendorStage(columns, accessions.rows, sites);
      if vendors.Converted? && withImages then ImageStage(columns, vendors.rows, dir) else vendors
  }

  // ---------------------------------------------------------------- what the conversion promises

  /** Every Agree and Disagree cell renders. */
  predicate LinksRender(t: Table, dir: string) {
    LinkColumns <= t.columns && RendersAll(AgreeLinks(dir), t.rows) && RendersAll(DisagreeLinks(dir), t.rows)
  }

  /** Every UniProt cell holds a non-blank accession. */
  predicate AccessionsListed(t: Table) {
    UniprotColumn in t.columns && forall k :: 0 <= k < |t.rows| ==> StrippedPieces(Cell(t.rows[k], UniprotColumn), ';') != []
  }

  /** Every row's vendor has a website. */
  predicate VendorsKnown(t: Table, sites: map<string, string>) {
    VendorColumn in t.columns && forall k :: 0 <= k < |t.rows| ==> Cell(t.rows[k], VendorColumn) in sites
  }

  /** Every image cell renders and the image columns can be dropped. */
  predicate ImagesRender(t: Table, dir: string) {
    {ImageFilesColumn, CaptionsColumn, Md5Column} <= t.columns && RendersAll(ImageLinksStage(dir), t.rows)
  }

  /** The two link stages succeed exactly when every original cell renders, and change only their own columns. */
  lemma LinkStagesResult(columns: set<string>, rows: seq<Row>, dir: string)
    ensures LinkStages(columns, rows, dir).Converted? <==>
      LinkColumns <= columns && RendersAll(AgreeLinks(dir), rows) && RendersAll(DisagreeLinks(dir), rows)
    ensures LinkStages(columns, rows, dir).Converted? ==> (|LinkStages(columns, rows, dir).rows| == |rows| &&
      forall c, k :: c != AgreeColumn && c != DisagreeColumn && 0 <= k < |rows| ==>
        Cell(LinkStages(columns, rows, dir).rows[k], c) == Cell(rows[k], c))
  {
    var agreed := Apply(AgreeLinks(dir), rows);
    if ReadBy(AgreeLinks(dir)) <= columns && agreed.Converted? && DisagreeColumn in columns {
      ApplyKeeps(AgreeLinks(dir), rows);
      assert AgreeColumn !in ReadBy(DisagreeLinks(dir));
      RendersAllReads(DisagreeLinks(dir), agreed.rows, rows);
      if Apply(DisagreeLinks(dir), agreed.rows).Converted? {
        ApplyKeeps(DisagreeLinks(dir), agreed.rows);
      }
    }
  }

  /** On the rows the link stages produce, the UniProt stage fails exactly when some cell has no accession. */
  lemma UniprotStageResult(rows: seq<Row>, probe: string -> HttpOutcome)
    ensures UniprotStage(rows, probe).Converted? <==>
      forall k :: 0 <= k < |rows| ==> StrippedPieces(Cell(rows[k], UniprotColumn), ';') != []
    ensures UniprotStage(rows, probe).Converted? ==> (|UniprotStage(rows, probe).rows| == |rows| &&
      forall k :: 0 <= k < |rows| ==> Cell(UniprotStage(rows, probe).rows[k], VendorColumn) == Cell(rows[k], VendorColumn))
  {
    var cells := CellsOf(rows, UniprotColumn);
    forall k | 0 <= k < |rows|
      ensures Render(UniprotLinks(UniprotTable(cells, probe)), rows[k]).Md? <==>
        StrippedPieces(Cell(rows[k], UniprotColumn), ';') != []
    {
      UniprotLookupsFound(cells, probe, k);
    }
  }

  /**
   The script returns 1 exactly when the table has rows, all link and
   UniProt cells render, and some vendor (or the Vendor column) is missing.
   */
  lemma ConvertReturnsOne(t: Table, dir: string, sites: map<string, string>, probe: string -> HttpOutcome, withImages: bool)
    requires WellFormed(t)
    ensures ExitStatus(Convert(t, dir, sites, probe, withImages)) == Returned(1) <==>
      |t.rows| > 0 && LinksRender(t, dir) && AccessionsListed(t) && !VendorsKnown(t, sites)
  {
    ConvertStages(t, dir, sites, probe, withImages);
  }

  /**
   The script returns 0 exactly when the table has the Target column (the
   sort needs it even when there are no rows) and is empty or every stage
   renders every row; every other run ends with an exception.
   */
  lemma ConvertReturnsZero(t: Table, dir: string, sites: map<string, string>, probe: string -> HttpOutcome, withImages: bool)
    requires WellFormed(t)
    ensures ExitStatus(Convert(t, dir, sites, probe, withImages)) == Returned(0) <==>
      TargetColumn in t.columns && (|t.rows| == 0 ||
      (LinksRender(t, dir) && AccessionsListed(t) && VendorsKnown(t, sites) && (withImages ==> ImagesRender(t, dir))))
    ensures ExitStatus(Convert(t, dir, sites, probe, withImages)).Raised? <==>
      TargetColumn !in t.columns ||
      (|t.rows| > 0 && !(LinksRender(t, dir) && AccessionsListed(t) &&
                         (VendorsKnown(t, sites) ==> (withImages ==> ImagesRender(t, dir)))))
  {
    ConvertStages(t, dir, sites, probe, withImages);
  }

  /** The conversion stage by stage, each stage's success stated on the original table. */
  lemma ConvertStages(t: Table, dir: string, sites: map<string, string>, probe: string -> HttpOutcome, withImages: bool)
    requires WellFormed(t)
    ensures var r := Convert(t, dir, sites, probe, withImages);
      && (r.Exited? ==> r.code == 1)
      && (r.Exited? <==> |t.rows| > 0 && LinksRender(t, dir) && AccessionsListed(t) && !VendorsKnown(t, sites))
      && (r.Converted? <==>
            TargetColumn in t.columns &&
            (|t.rows| == 0 ||
             (LinksRender(t, dir) && AccessionsListed(t) && VendorsKnown(t, sites) && (withImages ==> ImagesRender(t, dir)))))
  {
    if TargetColumn in t.columns && |t.rows| > 0 {
      LinkStagesResult(t.columns, t.rows, dir);
      AfterLinksResult(t, LinkStages(t.columns, t.rows, dir), sites, probe, dir, withImages);
    }
  }

  /**
   With the Agree stage's columns present, an Agree cell that cannot render
   ends the run with that cell's exception, whether or not the Disagree
   column exists.
   */
  lemma AgreeFailureFirst(columns: set<string>, rows: seq<Row>, dir: string)
    requires ReadBy(AgreeLinks(dir)) <= columns && !RendersAll(AgreeLinks(dir), rows)
    ensures LinkStages(columns, rows, dir).Failed?
    ensures exists k :: 0 <= k < |rows| && Render(AgreeLinks(dir), rows[k]) == Crashed(LinkStages(columns, rows, dir).error)
  {
    var cells := Renders(AgreeLinks(dir), rows);
    assert Apply(AgreeLinks(dir), rows) == Assign(rows, AgreeColumn, cells);
  }

  lemma AfterLinksResult(t: Table, linked: Converted, sites: map<string, string>, probe: string -> HttpOutcome,
                         dir: string, withImages: bool)
    requires !linked.Exited?
    requires linked.Converted? ==> |linked.rows| == |t.rows|
    requires linked.Converted? ==> forall c, k :: c != AgreeColumn && c != DisagreeColumn && 0 <= k < |t.rows| ==>
      Cell(linked.rows[k], c) == Cell(t.rows[k], c)
    ensures var r := AfterLinks(t.columns, linked, sites, probe, dir, withImages);
      && (r.Exited? ==> r.code == 1)
      && (r.Exited? <==> linked.Converted? && AccessionsListed(t) && !VendorsKnown(t, sites))
      && (r.Converted? <==> (linked.Converted? &&
           AccessionsListed(t) && VendorsKnown(t, sites) && (withImages ==> ImagesRender(t, dir))))
  {
    if linked.Converted? && UniprotColumn in t.columns {
      var accessions := UniprotStage(linked.rows, probe);
      UniprotStageOnTable(t, linked.rows, probe);
      if accessions.Converted? {
        VendorStageResult(t, accessions.rows, sites, dir, withImages);
      }
    }
  }

  /** The UniProt stage on the linked rows succeeds exactly when the original table lists an accession in every row. */
  lemma UniprotStageOnTable(t: Table, rows: seq<Row>, probe: string -> HttpOutcome)
    requires UniprotColumn in t.columns && |rows| == |t.rows|
    requires forall c, k :: c != AgreeColumn && c != DisagreeColumn && 0 <= k < |t.rows| ==> Cell(rows[k], c) == Cell(t.rows[k], c)
    ensures UniprotStage(rows, probe).Converted? <==> AccessionsListed(t)
    ensures UniprotStage(rows, probe).Converted? ==> (|UniprotStage(rows, probe).rows| == |t.rows| &&
      forall c, k :: c != AgreeColumn && c != DisagreeColumn && c != UniprotColumn && 0 <= k < |t.rows| ==>
        Cell(UniprotStage(rows, probe).rows[k], c) == Cell(t.rows[k], c))
  {
    UniprotStageResult(rows, probe);
    assert UniprotColumn != AgreeColumn && UniprotColumn != DisagreeColumn by {
      assert UniprotColumn[0] == 'U' && AgreeColumn[0] == 'A' && DisagreeColumn[0] == 'D';
    }
    assert forall k :: 0 <= k < |t.rows| ==> Cell(rows[k], UniprotColumn) == Cell(t.rows[k], UniprotColumn);
    if UniprotStage(rows, probe).Converted? {
      ApplyKeeps(UniprotLinks(UniprotTable(CellsOf(rows, UniprotColumn), probe)), rows);
    }
  }

  lemma VendorStageResult(t: Table, accessions: seq<Row>, sites: map<string, string>, dir: string, withImages: bool)
    requires |accessions| == |t.rows|
    requires forall c, k :: c != AgreeColumn && c != DisagreeColumn && c != UniprotColumn && 0 <= k < |t.rows| ==>
      Cell(accessions[k], c) == Cell(t.rows[k], c)
    ensures var r := AfterAccessions(t.columns, Converted(accessions), sites, dir, withImages);
      && (r.Exited? ==> r.code == 1)
      && (r.Exited? <==> !VendorsKnown(t, sites))
      && (r.Converted? <==> VendorsKnown(t, sites) && (withImages ==> ImagesRender(t, dir)))
  {
    var v := VendorStage(t.columns, accessions, sites);
    StageColumnsDistinct();
    VendorStageOutcome(t, accessions, sites);
    if v.Converted? && withImages {
      ApplyKeeps(VendorLinks(sites), accessions);
      ImageStageOutcome(t.columns, v.rows, t.rows, dir);
    }
  }

  lemma StageColumnsDistinct()
    ensures VendorColumn != AgreeColumn && VendorColumn != DisagreeColumn && VendorColumn != UniprotColumn
    ensures ImageFilesColumn !in {AgreeColumn, DisagreeColumn, UniprotColumn, VendorColumn}
    ensures CaptionsColumn !in {AgreeColumn, DisagreeColumn, UniprotColumn, VendorColumn}
  {
    assert AgreeColumn[0] == 'A' && DisagreeColumn[0] == 'D' && UniprotColumn[0] == 'U' && VendorColumn[0] == 'V';
    assert ImageFilesColumn[0] == 'I' && CaptionsColumn[0] == 'C';
  }

  lemma VendorStageOutcome(t: Table, accessions: seq<Row>, sites: map<string, string>)
    requires |accessions| == |t.rows|
    requires forall k :: 0 <= k < |t.rows| ==> Cell(accessions[k], VendorColumn) == Cell(t.rows[k], VendorColumn)
    ensures var v := VendorStage(t.columns, accessions, sites);
      (v.Exited? ==> v.code == 1) && (v.Converted? <==> VendorsKnown(t, sites))
  {
    if VendorColumn in t.columns {
      RendersAllReads(VendorLinks(sites), accessions, t.rows);
      assert RendersAll(VendorLinks(sites), t.rows) <==> VendorsKnown(t, sites);
    }
  }

  lemma ImageStageOutcome(columns: set<string>, rows: seq<Row>, orig: seq<Row>, dir: string)
    requires |rows| == |orig|
    requires forall k :: 0 <= k < |orig| ==>
      Cell(rows[k], ImageFilesColumn) == Cell(orig[k], ImageFilesColumn) && Cell(rows[k], CaptionsColumn) == Cell(orig[k], CaptionsColumn)
    ensures ImageStage(columns, rows, dir).Converted? <==>
      {ImageFilesColumn, CaptionsColumn, Md5Column} <= columns && RendersAll(ImageLinksStage(dir), orig)
  {
    forall c, k | c in ReadBy(ImageLinksStage(dir)) && 0 <= k < |rows| ensures Cell(rows[k], c) == Cell(orig[k], c) {
      assert c == ImageFilesColumn || c == CaptionsColumn;
    }
    RendersAllReads(ImageLinksStage(dir), rows, orig);
  }

}

=== FILE: reagents.dfy ===
/**
 `validate_reagent_resources`: the reagent-resources table is first checked
 by the generic validator with the allowed contributor ORCIDs and vendor
 names added to its configuration, then by row rules on the contributor
 columns, and finally against the supporting-material files on disk.

 The file system is a set of oracles: `isFile(p)` says whether `p` is a
 file, `consistent(p)` whether the configurations table inside it matches the
 rows of the table it belongs to, and `onDisk` is the set of `.md` files found
 below the supporting-material root.
 */
module Reagents {
  import opened Text
  import opened Seqs
  import opened Tables
  import opened Paths
  import opened Validation

  const MaxOrcidEntries := 5

  const ContributorColumn := "Contributor"
  const AgreeColumn := "Agree"
  const DisagreeColumn := "Disagree"
  const TargetColumn := "Target Name / Protein Biomarker"
  const ConjugateColumn := "Conjugate"
  const VendorColumn := "Vendor"

  // ---------------------------------------------------------------- configuration

  /** The JSON configuration: the `validate_df` arguments and whether each allowed-value map was present. */
  datatype ConfigFile = ConfigFile(args: Config, hasColumnIsIn: bool, hasMultiValueColumnIsIn: bool)

  /** An absent map reads as the empty map. */
  predicate ConsistentConfig(cf: ConfigFile) {
    (!cf.hasColumnIsIn ==> cf.args.columnIsIn == map[])
    && (!cf.hasMultiValueColumnIsIn ==> cf.args.multiValueColumnIsIn == map[])
  }

  /** The values allowed in the contributor columns: every creator's stripped ORCID, then `"NA"`. */
  function AllowedOrcids(creatorOrcids: seq<string>): (r: seq<string>)
    ensures "NA" in r
    ensures forall x :: x in r <==> x == "NA" || exists k :: 0 <= k < |creatorOrcids| && Strip(creatorOrcids[k]) == x
  {
    var stripped := seq(|creatorOrcids|, k requires 0 <= k < |creatorOrcids| => Strip(creatorOrcids[k]));
    var r := stripped + ["NA"];
    assert r[|r| - 1] == "NA";
    forall x | exists k :: 0 <= k < |creatorOrcids| && Strip(creatorOrcids[k]) == x ensures x in r {
      var k :| 0 <= k < |creatorOrcids| && Strip(creatorOrcids[k]) == x;
      assert r[k] == x;
    }
    r
  }

  /**
   The configuration augmentation as written: when the file has no
   `column_is_in`, the second assignment replaces the first, so only the
   vendor column ends up restricted.
   */
  function AugmentAsWritten(cf: ConfigFile, orcids: seq<string>, vendors: seq<string>): (r: Config)
  {
    var single :=
      if cf.hasColumnIsIn then cf.args.columnIsIn[ContributorColumn := orcids][VendorColumn := vendors]
      else map[VendorColumn := vendors];
    var multi :=
      if cf.hasMultiValueColumnIsIn then cf.args.multiValueColumnIsIn[AgreeColumn := orcids][DisagreeColumn := orcids]
      else map[AgreeColumn := orcids, DisagreeColumn := orcids];
    cf.args.(columnIsIn := single, multiValueColumnIsIn := multi)
  }

  /** Without `column_is_in` in the file, the augmentation as written leaves the contributor column unrestricted. */
  lemma AugmentAsWrittenDropsContributor(cf: ConfigFile, orcids: seq<string>, vendors: seq<string>)
    requires !cf.hasColumnIsIn
    ensures ContributorColumn !in AugmentAsWritten(cf, orcids, vendors).columnIsIn
    ensures AugmentAsWritten(cf, orcids, vendors).columnIsIn.Keys == {VendorColumn}
  {
  }

  /**
   The augmentation as evidently intended: the contributor column takes the
   ORCIDs and the vendor column the vendor names, whether or not the file had
   a `column_is_in`; Agree and Disagree take the ORCIDs; every other entry of
   the file's maps and every other argument stays.
   */
  function Augment(cf: ConfigFile, orcids: seq<string>, vendors: seq<string>): (r: Config)
    requires ConsistentConfig(cf)
    ensures r.columnIsIn.Keys == cf.args.columnIsIn.Keys + {ContributorColumn, VendorColumn}
    ensures ContributorColumn in r.columnIsIn && r.columnIsIn[ContributorColumn] == orcids
    ensures VendorColumn in r.columnIsIn && r.columnIsIn[VendorColumn] == vendors
    ensures r.multiValueColumnIsIn.Keys == cf.args.multiValueColumnIsIn.Keys + {AgreeColumn, DisagreeColumn}
    ensures AgreeColumn in r.multiValueColumnIsIn && r.multiValueColumnIsIn[AgreeColumn] == orcids
    ensures DisagreeColumn in r.multiValueColumnIsIn && r.multiValueColumnIsIn[DisagreeColumn] == orcids
    ensures forall c :: c in cf.args.columnIsIn && c != ContributorColumn && c != VendorColumn ==> r.columnIsIn[c] == cf.args.columnIsIn[c]
    ensures forall c :: c in cf.args.multiValueColumnIsIn && c != AgreeColumn && c != DisagreeColumn ==>
      r.multiValueColumnIsIn[c] == cf.args.multiValueColumnIsIn[c]
    ensures r.(columnIsIn := cf.args.columnIsIn, multiValueColumnIsIn := cf.args.multiValueColumnIsIn) == cf.args
  {
    var single :=
      if cf.hasColumnIsIn then cf.args.columnIsIn[ContributorColumn := orcids][VendorColumn := vendors]
      else map[ContributorColumn := orcids, VendorColumn := vendors];
    var multi :=
      if cf.hasMultiValueColumnIsIn then cf.args.multiValueColumnIsIn[AgreeColumn := orcids][DisagreeColumn := orcids]
      else map[AgreeColumn := orcids, DisagreeColumn := orcids];
    cf.args.(columnIsIn := single, multiValueColumnIsIn := multi)
  }

  /** Both versions agree whenever the file has its own `column_is_in`. */
  lemma AugmentAgreesWithColumnIsIn(cf: ConfigFile, orcids: seq<string>, vendors: seq<string>)
    requires ConsistentConfig(cf) && cf.hasColumnIsIn
    ensures AugmentAsWritten(cf, orcids, vendors) == Augment(cf, orcids, vendors)
  {
  }

  // ---------------------------------------------------------------- row rules

  /** The columns holding contributor details, ignored when looking for repeated rows. */
  const ContributorColumns: set<string> := {ContributorColumn, AgreeColumn, DisagreeColumn}

  ghost predicate HasContributorColumns(t: Table) {
    ContributorColumns <= t.columns
  }

  function Agree(r: Row): seq<string> {
    ParseOrcidList(Cell(r, AgreeColumn))
  }

  function Disagree(r: Row): seq<string> {
    ParseOrcidList(Cell(r, DisagreeColumn))
  }

  /** The ORCIDs a row names in either list. */
  function RowOrcids(r: Row): (os: seq<string>)
    ensures forall k :: 0 <= k < |os| ==> os[k] != "" && os[k] != "NA"
  {
    var a, d := Agree(r), Disagree(r);
    ListedConcat(a, d);
    a + d
  }

  lemma RowOrcidsMembers(r: Row, x: string)
    ensures x in RowOrcids(r) <==> x in ParseOrcidList(Cell(r, AgreeColumn)) || x in ParseOrcidList(Cell(r, DisagreeColumn))
  {
    assert RowOrcids(r) == Agree(r) + Disagree(r);
  }

  lemma ListedConcat(a: seq<string>, d: seq<string>)
    requires forall k :: 0 <= k < |a| ==> a[k] != "" && a[k] != "NA"
    requires forall k :: 0 <= k < |d| ==> d[k] != "" && d[k] != "NA"
    ensures forall k :: 0 <= k < |a + d| ==> (a + d)[k] != "" && (a + d)[k] != "NA"
  {
    assert forall k :: 0 <= k < |d| ==> (a + d)[|a| + k] == d[k];
  }

  ghost predicate NoRepeatedRows(t: Table) {
    forall i, j :: 0 <= i < j < |t.rows| ==> t.rows[i] - ContributorColumns != t.rows[j] - ContributorColumns
  }

  ghost predicate ContributorsListed(t: Table) {
    forall i :: 0 <= i < |t.rows| && ContributorColumn in t.rows[i] ==>
      t.rows[i][ContributorColumn] in Agree(t.rows[i]) || t.rows[i][ContributorColumn] in Disagree(t.rows[i])
  }

  ghost predicate ListsWithinMax(t: Table) {
    forall i :: 0 <= i < |t.rows| ==> |Agree(t.rows[i])| <= MaxOrcidEntries && |Disagree(t.rows[i])| <= MaxOrcidEntries
  }

  ghost predicate ListsDisjoint(t: Table) {
    forall i, x :: 0 <= i < |t.rows| && x in Agree(t.rows[i]) ==> x !in Disagree(t.rows[i])
  }

  function RepeatedRowsStep(t: Table): (r: Step)
    requires WellFormed(t)
    ensures r.Crash? <==> !HasContributorColumns(t)
    ensures r == Pass <==> HasContributorColumns(t) && NoRepeatedRows(t)
  {
    if !(ContributorColumns <= t.columns) then Crash("KeyError")
    else
      var reduced := seq(|t.rows|, i requires 0 <= i < |t.rows| => t.rows[i] - ContributorColumns);
      assert forall i :: 0 <= i < |t.rows| ==> reduced[i] == t.rows[i] - ContributorColumns;
      if NoDups(reduced) then Pass else Fail
  }

  predicate ContributorMissing(r: Row) {
    ContributorColumn in r && r[ContributorColumn] !in Agree(r) && r[ContributorColumn] !in Disagree(r)
  }

  predicate TooManyOrcids(r: Row) {
    |Agree(r)| > MaxOrcidEntries || |Disagree(r)| > MaxOrcidEntries
  }

  predicate AgreesAndDisagrees(r: Row) {
    exists x | x in Agree(r) :: x in Disagree(r)
  }

  function ContributorStep(t: Table): (r: Step)
    ensures !r.Crash?
    ensures r == Pass <==> ContributorsListed(t)
  {
    RowNumbersEmpty(t.rows, ContributorMissing);
    if RowNumbers(t.rows, ContributorMissing) == [] then Pass else Fail
  }

  function MaxEntriesStep(t: Table): (r: Step)
    ensures !r.Crash?
    ensures r == Pass <==> ListsWithinMax(t)
  {
    RowNumbersEmpty(t.rows, TooManyOrcids);
    if RowNumbers(t.rows, TooManyOrcids) == [] then Pass else Fail
  }

  /** The disjointness check as evidently intended: an ORCID in both lists of a row makes the script return 1. */
  function DisjointStep(t: Table): (r: Step)
    ensures !r.Crash?
    ensures r == Pass <==> ListsDisjoint(t)
  {
    RowNumbersEmpty(t.rows, AgreesAndDisagrees);
    if RowNumbers(t.rows, AgreesAndDisagrees) == [] then Pass else Fail
  }

  /**
   The disjointness check as written: it reports the offending rows by
   iterating over each row index as if it were a list of indexes, which
   raises `TypeError` for an integer.
   */
  function DisjointStepAsWritten(t: Table): (r: Step)
    ensures r == Pass || r == Crash("TypeError")
  {
    if RowNumbers(t.rows, AgreesAndDisagrees) == [] then Pass else Crash("TypeError")
  }

  /** Whenever the intended check fails, the check as written raises instead. */
  lemma DisjointAsWrittenRaises(t: Table)
    requires !ListsDisjoint(t)
    ensures DisjointStep(t) == Fail
    ensures DisjointStepAsWritten(t) == Crash("TypeError")
  {
    RowNumbersEmpty(t.rows, AgreesAndDisagrees);
  }

  // ---------------------------------------------------------------- supporting material

  /** The target–conjugate pair of a row. */
  function PairOf(r: Row): (string, string) {
    (Cell(r, TargetColumn), Cell(r, ConjugateColumn))
  }

  /** The distinct target–conjugate pairs, in order of first appearance (`drop_duplicates`). */
  function Pairs(t: Table): (r: seq<(string, string)>)
    ensures NoDups(r)
    ensures forall p :: p in r <==> exists i :: 0 <= i < |t.rows| && p == PairOf(t.rows[i])
  {
    var all := seq(|t.rows|, i requires 0 <= i < |t.rows| => PairOf(t.rows[i]));
    assert forall i :: 0 <= i < |t.rows| ==> all[i] == PairOf(t.rows[i]);
    Dedupe(all)
  }

  /** The ORCIDs named by the rows of one pair, in either list; `"NA"` is never among them. */
  function PairOrcids(t: Table, pair: (string, string)): (r: set<string>)
    ensures "NA" !in r && "" !in r
  {
    set i, x | 0 <= i < |t.rows| && PairOf(t.rows[i]) == pair && x in RowOrcids(t.rows[i]) :: x
  }

  /** The file one row asks for on behalf of one of its ORCIDs. */
  function FileOf(root: Path, r: Row, orcid: string): Path {
    SupportingFile(root, Cell(r, TargetColumn), Cell(r, ConjugateColumn), orcid)
  }

  /** The files the table calls for, pair by pair: `root/target_conjugate/orcid.md` for each ORCID of the pair. */
  function ExpectedFiles(t: Table, root: Path): set<Path> {
    var pairs := Pairs(t);
    set k, x | 0 <= k < |pairs| && x in PairOrcids(t, pairs[k]) :: SupportingFile(root, pairs[k].0, pairs[k].1, x)
  }

  /** A row's file for one of its ORCIDs is among the expected files. */
  lemma ExpectedFilesComplete(t: Table, root: Path, i: nat, x: string)
    requires i < |t.rows| && x in RowOrcids(t.rows[i])
    ensures FileOf(root, t.rows[i], x) in ExpectedFiles(t, root)
  {
    var pairs := Pairs(t);
    var pair := PairOf(t.rows[i]);
    assert pair in pairs;
    var k :| 0 <= k < |pairs| && pairs[k] == pair;
    assert x in PairOrcids(t, pairs[k]);
  }

  /** Every expected file is some row's file for one of that row's ORCIDs. */
  lemma ExpectedFilesSound(t: Table, root: Path, p: Path) returns (i: nat, x: string)
    requires p in ExpectedFiles(t, root)
    ensures i < |t.rows| && x in RowOrcids(t.rows[i]) && p == FileOf(root, t.rows[i], x)
  {
    var pairs := Pairs(t);
    var k, y :| 0 <= k < |pairs| && y in PairOrcids(t, pairs[k]) && p == SupportingFile(root, pairs[k].0, pairs[k].1, y);
    var j := PairOrcidsRow(t, pairs[k], y);
    assert Cell(t.rows[j], TargetColumn) == pairs[k].0 && Cell(t.rows[j], ConjugateColumn) == pairs[k].1;
    i, x := j, y;
  }

  /** An ORCID of a pair comes from some row of that pair. */
  lemma PairOrcidsRow(t: Table, pair: (string, string), x: string) returns (j: nat)
    requires x in PairOrcids(t, pair)
    ensures j < |t.rows| && PairOf(t.rows[j]) == pair && x in RowOrcids(t.rows[j])
  {
    var i, y :| 0 <= i < |t.rows| && PairOf(t.rows[i]) == pair && y in RowOrcids(t.rows[i]) && x == y;
    j := i;
  }

  /** Gathering the files pair by pair gives exactly one file per row and ORCID named in that row. */
  lemma ExpectedFilesMembers(t: Table, root: Path, p: Path)
    ensures p in ExpectedFiles(t, root) <==> exists i, x :: 0 <= i < |t.rows| && x in RowOrcids(t.rows[i]) && p == FileOf(root, t.rows[i], x)
  {
    if p in ExpectedFiles(t, root) {
      var i, x := ExpectedFilesSound(t, root, p);
    } else {
      forall i, x | 0 <= i < |t.rows| && x in RowOrcids(t.rows[i])
        ensures p != FileOf(root, t.rows[i], x)
      {
        ExpectedFilesComplete(t, root, i, x);
      }
    }
  }

  /** Each expected file exists and agrees with the table. */
  ghost predicate SupportingConsistent(t: Table, root: Path, isFile: Path -> bool, consistent: Path -> bool) {
    forall i, x :: 0 <= i < |t.rows| && x in RowOrcids(t.rows[i]) ==>
      isFile(FileOf(root, t.rows[i], x)) && consistent(FileOf(root, t.rows[i], x))
  }

  function SupportingStep(t: Table, root: Path, isFile: Path -> bool, consistent: Path -> bool): (r: Step)
    requires WellFormed(t)
    ensures r.Crash? <==> !(TargetColumn in t.columns && ConjugateColumn in t.columns)
    ensures r == Pass <==> TargetColumn in t.columns && ConjugateColumn in t.columns && SupportingConsistent(t, root, isFile, consistent)
  {
    if !(TargetColumn in t.columns && ConjugateColumn in t.columns) then Crash("KeyError")
    else
      if forall p :: p in ExpectedFiles(t, root) ==> isFile(p) && consistent(p) then
        ExpectedFilesConsistent(t, root, isFile, consistent);
        Pass
      else
        MissingFileInconsistent(t, root, isFile, consistent);
        Fail
  }

  lemma MissingFileInconsistent(t: Table, root: Path, isFile: Path -> bool, consistent: Path -> bool)
    requires exists p :: p in ExpectedFiles(t, root) && !(isFile(p) && consistent(p))
    ensures !SupportingConsistent(t, root, isFile, consistent)
  {
    var p :| p in ExpectedFiles(t, root) && !(isFile(p) && consistent(p));
    ExpectedFilesMembers(t, root, p);
    var i, x :| 0 <= i < |t.rows| && x in RowOrcids(t.rows[i]) && p == FileOf(root, t.rows[i], x);
    assert !(isFile(FileOf(root, t.rows[i], x)) && consistent(FileOf(root, t.rows[i], x)));
  }

  lemma ExpectedFilesConsistent(t: Table, root: Path, isFile: Path -> bool, consistent: Path -> bool)
    requires forall p :: p in ExpectedFiles(t, root) ==> isFile(p) && consistent(p)
    ensures SupportingConsistent(t, root, isFile, consistent)
  {
    forall i, x | 0 <= i < |t.rows| && x in RowOrcids(t.rows[i])
      ensures isFile(FileOf(root, t.rows[i], x)) && consistent(FileOf(root, t.rows[i], x))
    {
      ExpectedFilesMembers(t, root, FileOf(root, t.rows[i], x));
    }
  }

  /** No `.md` file on disk lies outside the expected set. */
  function SuperfluousStep(t: Table, root: Path, onDisk: set<Path>): (r: Step)
    ensures !r.Crash?
    ensures r == Pass <==> NoSuperfluousFiles(t, root, onDisk)
  {
    var superfluous := onDisk - ExpectedFiles(t, root);
    if superfluous != {} then
      var p :| p in superfluous;
      ExpectedFilesMembers(t, root, p);
      Fail
    else
      assert forall p :: p in onDisk ==> p in ExpectedFiles(t, root) by {
        forall p | p in onDisk ensures p in ExpectedFiles(t, root) { assert p !in superfluous; }
      }
      forall p | p in onDisk ensures exists i, x :: 0 <= i < |t.rows| && x in RowOrcids(t.rows[i]) && p == FileOf(root, t.rows[i], x) {
        ExpectedFilesMembers(t, root, p);
      }
      Pass
  }

  /** Every file on disk is one the table calls for. */
  ghost predicate NoSuperfluousFiles(t: Table, root: Path, onDisk: set<Path>) {
    forall p :: p in onDisk ==> exists i, x :: 0 <= i < |t.rows| && x in RowOrcids(t.rows[i]) && p == FileOf(root, t.rows[i], x)
  }

  // ---------------------------------------------------------------- the whole validation

  /** Everything `validate_reagent_resources` requires once the generic validation has passed. */
  ghost predicate RowsAndFilesValid(t: Table, root: Path, isFile: Path -> bool, consistent: Path -> bool, onDisk: set<Path>)
    requires WellFormed(t)
  {
    HasContributorColumns(t) && NoRepeatedRows(t) && ContributorsListed(t) && ListsWithinMax(t) && ListsDisjoint(t)
    && TargetColumn in t.columns && ConjugateColumn in t.columns
    && SupportingConsistent(t, root, isFile, consistent) && NoSuperfluousFiles(t, root, onDisk)
  }

  /**
   `validate_reagent_resources` with the configuration augmented as evidently
   intended and the disjointness failure returning 1: the generic result when
   it is not 0, otherwise 0 exactly when the row rules and the supporting
   files all hold.
   */
  function ValidateReagentResources(t: Table, cf: ConfigFile, creatorOrcids: seq<string>, vendors: seq<string>,
                                    probe: (string, bool) -> HttpOutcome, root: Path,
                                    isFile: Path -> bool, consistent: Path -> bool, onDisk: set<Path>): (r: Outcome)
    requires WellFormed(t) && ConsistentConfig(cf)
    ensures r.Returned? ==> r.code == 0 || r.code == 1
    ensures ValidateDf(t, Augment(cf, AllowedOrcids(creatorOrcids), vendors), probe) != Returned(0) ==>
      r == ValidateDf(t, Augment(cf, AllowedOrcids(creatorOrcids), vendors), probe)
    ensures r == Returned(0) <==>
      ValidateDf(t, Augment(cf, AllowedOrcids(creatorOrcids), vendors), probe) == Returned(0)
      && RowsAndFilesValid(t, root, isFile, consistent, onDisk)
  {
    var generic := ValidateDf(t, Augment(cf, AllowedOrcids(creatorOrcids), vendors), probe);
    if generic != Returned(0) then generic else
    var repeated := RepeatedRowsStep(t);
    if repeated != Pass then Stop(repeated) else
    var listed := ContributorStep(t);
    if listed != Pass then Stop(listed) else
    var max := MaxEntriesStep(t);
    if max != Pass then Stop(max) else
    var disjoint := DisjointStep(t);
    if disjoint != Pass then Stop(disjoint) else
    var supporting := SupportingStep(t, root, isFile, consistent);
    if supporting != Pass then Stop(supporting) else
    var superfluous := SuperfluousStep(t, root, onDisk);
    if superfluous != Pass then Stop(superfluous) else
    Returned(0)
  }

  /** A contributor that is missing from both lists of its row fails the validation. */
  lemma ContributorMustBeListed(t: Table, cf: ConfigFile, creatorOrcids: seq<string>, vendors: seq<string>,
                                probe: (string, bool) -> HttpOutcome, root: Path,
                                isFile: Path -> bool, consistent: Path -> bool, onDisk: set<Path>, i: nat)
    requires WellFormed(t) && ConsistentConfig(cf)
    requires i < |t.rows| && ContributorColumn in t.rows[i]
    requires t.rows[i][ContributorColumn] !in RowOrcids(t.rows[i])
    ensures ValidateReagentResources(t, cf, creatorOrcids, vendors, probe, root, isFile, consistent, onDisk) != Returned(0)
  {
    assert !ContributorsListed(t);
  }
}

=== FILE: release_notes.dfy ===
/**
 `create_release_notes`: the notes of one release are the lines of the
 changelog that follow a `## <tag>` heading, up to the next `## vX.Y.Z`
 heading, with trailing blank lines removed; they are written after a fixed
 installation header. The changelog is the sequence of lines `readline`
 returns, each with its line ending, so none is empty.
 */
module ReleaseNotes {
  import opened Text
  import opened Links

  /** A line as `readline` returns it before the end of the file. */
  type FileLine = s: string | s != "" witness "\n"

  // ---------------------------------------------------------------- the two patterns

  /** One element of the regular expressions in play: a literal, `.` (any character but a newline) or `\d+`. */
  datatype Token = Lit(c: char) | Wild | Digits

  predicate AllDigits(s: string) {
    forall i :: 0 <= i < |s| ==> IsDigit(s[i])
  }

  /** Length of the run of digits that starts `s`. */
  function DigitRun(s: string): (n: nat)
    ensures n <= |s| && AllDigits(s[..n])
    ensures n < |s| ==> !IsDigit(s[n])
  {
    if |s| > 0 && IsDigit(s[0]) then
      var n := 1 + DigitRun(s[1..]);
      assert s[..n] == [s[0]] + s[1..][..n - 1];
      n
    else 0
  }

  /**
   `re.match` of a token sequence: some prefix of `s` matches. `\d+` first
   takes the whole run of digits and gives them back one at a time while
   the rest of the pattern fails, as a backtracking matcher does.
   */
  predicate MatchPrefix(s: string, toks: seq<Token>)
    decreases |toks|, |s| + 1
  {
    if |toks| == 0 then true
    else match toks[0]
      case Lit(c) => |s| > 0 && s[0] == c && MatchPrefix(s[1..], toks[1..])
      case Wild => |s| > 0 && s[0] != '\n' && MatchPrefix(s[1..], toks[1..])
      case Digits => MatchDigits(s, DigitRun(s), toks[1..])
  }

  /** `\d+` having taken the first `n` digits of `s` (and able to give them back) before `toks`. */
  predicate MatchDigits(s: string, n: nat, toks: seq<Token>)
    requires n <= |s|
    decreases |toks| + 1, n
  {
    n >= 1 && (MatchPrefix(s[n..], toks) || MatchDigits(s, n - 1, toks))
  }

  /** The digit run can stop after any of its digits. */
  lemma {:induction false} MatchDigitsFrom(s: string, m: nat, n: nat, toks: seq<Token>)
    requires 1 <= m <= n <= |s|
    requires MatchPrefix(s[m..], toks)
    ensures MatchDigits(s, n, toks)
    decreases n
  {
    if n > m {
      MatchDigitsFrom(s, m, n - 1, toks);
    }
  }

  /** The release tag pasted into the pattern: every `.` is a wildcard, every other character literal. */
  function TagTokens(tag: string): (toks: seq<Token>)
    ensures |toks| == |tag|
    ensures forall i :: 0 <= i < |tag| ==> toks[i] == (if tag[i] == '.' then Wild else Lit(tag[i]))
  {
    seq(|tag|, i requires 0 <= i < |tag| => if tag[i] == '.' then Wild else Lit(tag[i]))
  }

  /** `v\d+.\d+.\d+`. */
  const VersionTokens: seq<Token> := [Lit('v'), Digits, Wild, Digits, Wild, Digits]

  /**
   `\s*##\s` followed by `toks`: leading whitespace, two hashes, one
   whitespace character, then the tokens; the trailing `\s*` of both
   patterns matches the empty string and adds nothing.
   */
  predicate Heading(line: string, toks: seq<Token>) {
    var l := TrimLeft(line);
    |l| >= 3 && l[0] == '#' && l[1] == '#' && IsSpace(l[2]) && MatchPrefix(l[3..], toks)
  }

  predicate TagHeading(line: string, tag: string) {
    Heading(line, TagTokens(tag))
  }

  predicate VersionHeading(line: string) {
    Heading(line, VersionTokens)
  }

  /** A tag with no wildcard matches exactly the lines that start with it. */
  lemma {:induction false} TagTokensMatch(s: string, tag: string)
    ensures MatchPrefix(s, TagTokens(tag)) <==>
      |s| >= |tag| && forall i :: 0 <= i < |tag| ==> if tag[i] == '.' then s[i] != '\n' else s[i] == tag[i]
    decreases |tag|
  {
    if |tag| > 0 {
      var toks := TagTokens(tag);
      assert toks[1..] == TagTokens(tag[1..]);
      if |s| > 0 {
        TagTokensMatch(s[1..], tag[1..]);
        if |s| >= |tag| && forall i :: 0 <= i < |tag| ==> if tag[i] == '.' then s[i] != '\n' else s[i] == tag[i] {
          assert forall i :: 0 <= i < |tag[1..]| ==> if tag[1..][i] == '.' then s[1..][i] != '\n' else s[1..][i] == tag[1..][i] by {
            forall i | 0 <= i < |tag[1..]| ensures if tag[1..][i] == '.' then s[1..][i] != '\n' else s[1..][i] == tag[1..][i] {
              assert tag[1..][i] == tag[i + 1] && s[1..][i] == s[i + 1];
            }
          }
        }
        if MatchPrefix(s, toks) {
          forall i | 0 <= i < |tag| ensures if tag[i] == '.' then s[i] != '\n' else s[i] == tag[i] {
            if i > 0 { assert tag[1..][i - 1] == tag[i] && s[1..][i - 1] == s[i]; }
          }
        }
      }
    }
  }

  lemma DigitsThen(d: string, s: string, toks: seq<Token>)
    requires |d| > 0 && AllDigits(d) && MatchPrefix(s, toks)
    ensures MatchPrefix(d + s, [Digits] + toks)
  {
    var t := [Digits] + toks;
    assert t[1..] == toks;
    var ds := d + s;
    assert ds[|d|..] == s;
    assert forall k :: 0 <= k < |d| ==> ds[k] == d[k];
    MatchDigitsFrom(ds, |d|, DigitRun(ds), toks);
  }

  lemma CharThen(c: char, s: string, tok: Token, toks: seq<Token>)
    requires tok == Lit(c) || (tok == Wild && c != '\n')
    requires MatchPrefix(s, toks)
    ensures MatchPrefix([c] + s, [tok] + toks)
  {
    var t := [tok] + toks;
    assert t[1..] == toks;
    assert ([c] + s)[1..] == s;
  }

  /** A conventional version heading such as `## v1.2.3` ends the notes of a release. */
  lemma VersionHeadingMatches(major: string, minor: string, patch: string, rest: string)
    requires |major| > 0 && |minor| > 0 && |patch| > 0
    requires AllDigits(major) && AllDigits(minor) && AllDigits(patch)
    ensures VersionHeading("## v" + major + "." + minor + "." + patch + rest)
  {
    var v := VersionText(major, minor, patch, rest);
    VersionTextMatches(major, minor, patch, rest);
    HeadingOf(v, VersionTokens);
    assert "## v" + major + "." + minor + "." + patch + rest == "## " + v by {
      VersionTextIs(major, minor, patch, rest);
    }
  }

  /** `v<major>.<minor>.<patch><rest>`, built from the right. */
  function VersionText(major: string, minor: string, patch: string, rest: string): string {
    "v" + (major + ("." + (minor + ("." + (patch + rest)))))
  }

  lemma VersionTextIs(major: string, minor: string, patch: string, rest: string)
    ensures "## v" + major + "." + minor + "." + patch + rest == "## " + VersionText(major, minor, patch, rest)
  {
  }

  lemma VersionTextMatches(major: string, minor: string, patch: string, rest: string)
    requires |major| > 0 && |minor| > 0 && |patch| > 0
    requires AllDigits(major) && AllDigits(minor) && AllDigits(patch)
    ensures MatchPrefix(VersionText(major, minor, patch, rest), VersionTokens)
  {
    DigitsThen(patch, rest, []);
    CharThen('.', patch + rest, Wild, [Digits]);
    DigitsThen(minor, "." + (patch + rest), [Wild, Digits]);
    CharThen('.', minor + ("." + (patch + rest)), Wild, [Digits, Wild, Digits]);
    DigitsThen(major, "." + (minor + ("." + (patch + rest))), [Wild, Digits, Wild, Digits]);
    CharThen('v', major + ("." + (minor + ("." + (patch + rest)))), Lit('v'), [Digits, Wild, Digits, Wild, Digits]);
    assert [Lit('v')] + [Digits, Wild, Digits, Wild, Digits] == VersionTokens;
  }

  /** `## ` followed by text that matches the tokens is a heading. */
  lemma HeadingOf(s: string, toks: seq<Token>)
    requires MatchPrefix(s, toks)
    ensures Heading("## " + s, toks)
  {
    var line := "## " + s;
    assert line[0] == '#';
    assert TrimLeft(line) == line;
    assert line[3..] == s;
  }

  // ---------------------------------------------------------------- the reading loops

  /**
   The outer loop, about to read line `i`: a tag heading starts the inner
   loop on the next line; anything else is skipped.
   */
  function Scan(lines: seq<FileLine>, tag: string, i: nat, notes: seq<string>): (r: seq<string>)
    requires i <= |lines|
    ensures |r| >= |notes| && r[..|notes|] == notes
    ensures forall k :: |notes| <= k < |r| ==> Kept(lines, r[k])
    decreases |lines| - i, 1
  {
    if i == |lines| then notes
    else if TagHeading(lines[i], tag) then Collect(lines, tag, i + 1, notes)
    else Scan(lines, tag, i + 1, notes)
  }

  /**
   The inner loop, about to read line `i`: lines are kept until a version
   heading. The loop has already read the line after that heading when it
   stops, so the outer loop resumes one line further on.
   */
  function Collect(lines: seq<FileLine>, tag: string, i: nat, notes: seq<string>): (r: seq<string>)
    requires i <= |lines|
    ensures |r| >= |notes| && r[..|notes|] == notes
    ensures forall k :: |notes| <= k < |r| ==> Kept(lines, r[k])
    decreases |lines| - i, 0
  {
    if i == |lines| then notes
    else if VersionHeading(lines[i]) then Scan(lines, tag, if i + 2 <= |lines| then i + 2 else |lines|, notes)
    else
      assert Kept(lines, lines[i]);
      var r := Collect(lines, tag, i + 1, notes + [lines[i]]);
      assert r[..|notes|] == (notes + [lines[i]])[..|notes|];
      assert r[|notes|] == (notes + [lines[i]])[|notes|];
      r
  }

  /** A line of the file that is not a version heading. */
  predicate Kept(lines: seq<FileLine>, x: string) {
    x in lines && !VersionHeading(x)
  }

  /** Every line kept by the two loops, in order. */
  function Extract(lines: seq<FileLine>, tag: string): (r: seq<string>)
    ensures forall k :: 0 <= k < |r| ==> Kept(lines, r[k])
  {
    Scan(lines, tag, 0, [])
  }

  /** Without a tag heading from line `i` on, the outer loop adds nothing. */
  lemma {:induction false} ScanNoHeading(lines: seq<FileLine>, tag: string, i: nat, notes: seq<string>)
    requires i <= |lines|
    requires forall k :: i <= k < |lines| ==> !TagHeading(lines[k], tag)
    ensures Scan(lines, tag, i, notes) == notes
    decreases |lines| - i
  {
    if i < |lines| {
      ScanNoHeading(lines, tag, i + 1, notes);
    }
  }

  /** The inner loop keeps lines `i` up to the next version heading `e`, then hands back to the outer loop. */
  lemma {:induction false} CollectSection(lines: seq<FileLine>, tag: string, i: nat, e: nat, notes: seq<string>)
    requires i <= e <= |lines|
    requires forall k :: i <= k < e ==> !VersionHeading(lines[k])
    requires e == |lines| || VersionHeading(lines[e])
    requires forall k :: e < k < |lines| ==> !TagHeading(lines[k], tag)
    ensures Collect(lines, tag, i, notes) == notes + lines[i..e]
    decreases e - i
  {
    if i == e {
      CollectStops(lines, tag, e, notes);
      assert lines[i..e] == [];
    } else {
      CollectKeeps(lines, tag, i, notes);
      CollectSection(lines, tag, i + 1, e, notes + [lines[i]]);
      SliceCons(notes, lines, i, e);
    }
  }

  /** A line that is not a version heading is kept and the inner loop goes on. */
  lemma CollectKeeps(lines: seq<FileLine>, tag: string, i: nat, notes: seq<string>)
    requires i < |lines| && !VersionHeading(lines[i])
    ensures Collect(lines, tag, i, notes) == Collect(lines, tag, i + 1, notes + [lines[i]])
  {
  }

  lemma SliceCons(notes: seq<string>, lines: seq<string>, i: nat, e: nat)
    requires i < e <= |lines|
    ensures notes + [lines[i]] + lines[i + 1..e] == notes + lines[i..e]
  {
    assert lines[i..e] == [lines[i]] + lines[i + 1..e];
  }

  /** At a version heading, or at the end, the inner loop stops and no further tag heading adds anything. */
  lemma CollectStops(lines: seq<FileLine>, tag: string, e: nat, notes: seq<string>)
    requires e <= |lines|
    requires e == |lines| || VersionHeading(lines[e])
    requires forall k :: e < k < |lines| ==> !TagHeading(lines[k], tag)
    ensures Collect(lines, tag, e, notes) == notes
  {
    if e < |lines| {
      var next := if e + 2 <= |lines| then e + 2 else |lines|;
      ScanNoHeading(lines, tag, next, notes);
      assert Collect(lines, tag, e, notes) == Scan(lines, tag, next, notes);
    }
  }

  /**
   With a single tag heading at `h`, the notes are exactly the lines after it
   up to the next version heading `e` (or the end of the file).
   */
  lemma ExtractSection(lines: seq<FileLine>, tag: string, h: nat, e: nat)
    requires h < e <= |lines|
    requires TagHeading(lines[h], tag)
    requires forall k :: 0 <= k < |lines| && k != h ==> !TagHeading(lines[k], tag)
    requires forall k :: h < k < e ==> !VersionHeading(lines[k])
    requires e == |lines| || VersionHeading(lines[e])
    ensures Extract(lines, tag) == lines[h + 1..e]
  {
    ScanPrefix(lines, tag, 0, h);
    CollectSection(lines, tag, h + 1, e, []);
  }

  /** The outer loop passes over lines without a tag heading. */
  lemma {:induction false} ScanPrefix(lines: seq<FileLine>, tag: string, i: nat, h: nat)
    requires i <= h < |lines|
    requires forall k :: i <= k < h ==> !TagHeading(lines[k], tag)
    ensures Scan(lines, tag, i, []) == Scan(lines, tag, h, [])
    decreases h - i
  {
    if i < h {
      ScanPrefix(lines, tag, i + 1, h);
    }
  }

  // ---------------------------------------------------------------- the result

  /** The notes without their trailing blank lines. */
  function TrimBlankTail(notes: seq<string>): (r: seq<string>)
    ensures |r| <= |notes| && r == notes[..|r|]
    ensures forall k :: |r| <= k < |notes| ==> IsBlank(notes[k])
    ensures |r| > 0 ==> !IsBlank(r[|r| - 1])
  {
    TrimTail(notes, IsBlank)
  }

  /** The longest prefix of `xs` after which every element is dropped, ending in one that is kept. */
  function TrimTail<T>(xs: seq<T>, drop: T -> bool): (r: seq<T>)
    ensures |r| <= |xs| && r == xs[..|r|]
    ensures forall k :: |r| <= k < |xs| ==> drop(xs[k])
    ensures |r| > 0 ==> !drop(r[|r| - 1])
  {
    if |xs| > 0 && drop(xs[|xs| - 1]) then
      var front := xs[..|xs| - 1];
      assert forall k :: 0 <= k < |front| ==> front[k] == xs[k];
      var r := TrimTail(front, drop);
      assert front[..|r|] == xs[..|r|];
      r
    else xs
  }

  /** Python's `s[1:]`. */
  function DropFirst(s: string): (r: string)
    ensures |s| > 0 ==> r == s[1..]
    ensures |s| == 0 ==> r == ""
  {
    if |s| == 0 then "" else s[1..]
  }

  /** The installation instructions that precede the notes; the wheel's version is the tag without its `v`. */
  function Header(repository: string, package: string, tag: string): string {
    "# Installing\n\n" + "```\n" + "pip install --upgrade pip\n"
    + "pip install https://github.com/" + repository + "/releases/download/" + tag + "/"
    + package + "-" + DropFirst(tag) + "-py3-none-any.whl\n"
    + "```\n\n" + "# Release Notes\n\n"
  }

  datatype Written = Written(status: int, output: string) | NothingWritten(status: int)

  /** Status 0 and the written file when there are notes; status 1 and nothing written otherwise. */
  function CreateReleaseNotes(repository: string, package: string, tag: string, lines: seq<FileLine>): (r: Written)
    ensures r.Written? <==> r.status == 0
    ensures r.NothingWritten? ==> r.status == 1
    ensures r.Written? ==> exists notes ::
      notes == TrimBlankTail(Extract(lines, tag)) && notes != [] && r.output == Header(repository, package, tag) + Join("", notes)
    ensures r.NothingWritten? <==> forall k :: 0 <= k < |Extract(lines, tag)| ==> IsBlank(Extract(lines, tag)[k])
  {
    var notes := TrimBlankTail(Extract(lines, tag));
    if notes == [] then NothingWritten(1) else Written(0, Header(repository, package, tag) + Join("", notes))
  }

  /** A changelog whose only section for the tag holds one non-blank line produces that line after the header. */
  lemma OneLineSection(repository: string, package: string, tag: string, lines: seq<FileLine>, h: nat)
    requires h + 1 < |lines|
    requires TagHeading(lines[h], tag)
    requires forall k :: 0 <= k < |lines| && k != h ==> !TagHeading(lines[k], tag)
    requires !VersionHeading(lines[h + 1]) && !IsBlank(lines[h + 1])
    requires h + 2 == |lines| || VersionHeading(lines[h + 2])
    ensures CreateReleaseNotes(repository, package, tag, lines) == Written(0, Header(repository, package, tag) + lines[h + 1])
  {
    ExtractSection(lines, tag, h, h + 2);
    assert lines[h + 1..h + 2] == [lines[h + 1]];
    SingleNoteKept(lines[h + 1]);
  }

  lemma SingleNoteKept(x: string)
    requires !IsBlank(x)
    ensures TrimBlankTail([x]) == [x] && Join("", [x]) == x
  {
  }
}

=== FILE: seqs.dfy ===
/**
 Sequence helpers shared by the scripts: duplicate detection, first-appearance
 de-duplication (pandas `unique()` / `drop_duplicates()` on one column) and
 Python's stable `sorted(xs, key=...)` on string keys.
 */
module Seqs {
  import opened Text

  /** No value occurs twice. */
  predicate NoDups<T(==)>(xs: seq<T>) {
    forall i, j :: 0 <= i < j < |xs| ==> xs[i] != xs[j]
  }

  /** Position of the first occurrence of `x` in `xs`. */
  function FirstIndex<T(==)>(xs: seq<T>, x: T): (k: nat)
    requires x in xs
    ensures k < |xs| && xs[k] == x
    ensures forall i :: 0 <= i < k ==> xs[i] != x
  {
    if xs[0] == x then 0 else 1 + FirstIndex(xs[1..], x)
  }

  /** The distinct values of `xs`, in order of first appearance. */
  function Dedupe<T(==,!new)>(xs: seq<T>): (r: seq<T>)
    ensures NoDups(r)
    ensures forall x :: x in r <==> x in xs
    ensures |r| <= |xs|
  {
    if |xs| == 0 then []
    else
      var d := Dedupe(xs[..|xs| - 1]);
      var x := xs[|xs| - 1];
      assert forall y :: y in xs <==> y in xs[..|xs| - 1] || y == x by {
        assert xs == xs[..|xs| - 1] + [x];
      }
      if x in d then d else d + [x]
  }

  /** Earlier values of a de-duplication first appear earlier in the input. */
  lemma {:induction false} DedupeKeepsFirstAppearanceOrder<T(!new)>(xs: seq<T>, i: nat, j: nat)
    requires i < j < |Dedupe(xs)|
    ensures FirstIndex(xs, Dedupe(xs)[i]) < FirstIndex(xs, Dedupe(xs)[j])
    decreases |xs|
  {
    var p := xs[..|xs| - 1];
    var x := xs[|xs| - 1];
    var d := Dedupe(p);
    FirstIndexPrefix(xs, p, Dedupe(xs)[i]);
    if j < |d| {
      DedupeKeepsFirstAppearanceOrder(p, i, j);
      FirstIndexPrefix(xs, p, Dedupe(xs)[j]);
    } else {
      assert Dedupe(xs)[j] == x && x !in p;
      assert FirstIndex(xs, x) == |xs| - 1;
    }
  }

  lemma FirstIndexPrefix<T>(xs: seq<T>, p: seq<T>, x: T)
    requires |xs| > 0 && p == xs[..|xs| - 1] && x in p
    ensures x in xs && FirstIndex(xs, x) == FirstIndex(p, x)
  {
    var k := FirstIndex(p, x);
    assert xs[k] == x;
  }

  /** Stable insertion: `x` goes before the first element whose key is not below its own. */
  function Insert<T>(x: T, ys: seq<T>, key: T -> string): (r: seq<T>)
    ensures multiset(r) == multiset(ys) + multiset{x}
    ensures |r| == |ys| + 1 && (r[0] == x || (|ys| > 0 && r[0] == ys[0]))
  {
    if |ys| == 0 then [x]
    else if LexLe(key(x), key(ys[0])) then [x] + ys
    else
      var rest := Insert(x, ys[1..], key);
      assert ys == [ys[0]] + ys[1..];
      [ys[0]] + rest
  }

  /** Consecutive keys never decrease. */
  predicate SortedBy<T>(xs: seq<T>, key: T -> string) {
    forall i :: 0 < i < |xs| ==> LexLe(key(xs[i - 1]), key(xs[i]))
  }

  /** Python `sorted(xs, key=key)`: a stable sort by the code-point order of the keys. */
  function SortBy<T>(xs: seq<T>, key: T -> string): (r: seq<T>)
    ensures multiset(r) == multiset(xs)
    ensures |r| == |xs|
  {
    if |xs| == 0 then []
    else
      assert xs == [xs[0]] + xs[1..];
      Insert(xs[0], SortBy(xs[1..], key), key)
  }

  lemma {:induction false} InsertSorted<T>(x: T, ys: seq<T>, key: T -> string)
    requires SortedBy(ys, key)
    ensures SortedBy(Insert(x, ys, key), key)
    decreases |ys|
  {
    if |ys| > 0 && !LexLe(key(x), key(ys[0])) {
      LexLeTotal(key(x), key(ys[0]));
      var rest := Insert(x, ys[1..], key);
      assert SortedBy(ys[1..], key) by {
        forall i | 0 < i < |ys[1..]| ensures LexLe(key(ys[1..][i - 1]), key(ys[1..][i])) {
          assert ys[1..][i - 1] == ys[i] && ys[1..][i] == ys[i + 1];
        }
      }
      InsertSorted(x, ys[1..], key);
      var r := [ys[0]] + rest;
      forall i | 0 < i < |r| ensures LexLe(key(r[i - 1]), key(r[i])) {
        if i > 1 { assert r[i - 1] == rest[i - 2] && r[i] == rest[i - 1]; }
      }
    }
  }

  /** The output of `sorted` is sorted. */
  lemma {:induction false} SortBySorted<T>(xs: seq<T>, key: T -> string)
    ensures SortedBy(SortBy(xs, key), key)
    decreases |xs|
  {
    if |xs| > 0 {
      SortBySorted(xs[1..], key);
      InsertSorted(xs[0], SortBy(xs[1..], key), key);
    }
  }

  /** Sorting an already sorted sequence leaves it unchanged (stability). */
  lemma {:induction false} SortBySortedIdentity<T>(xs: seq<T>, key: T -> string)
    requires SortedBy(xs, key)
    ensures SortBy(xs, key) == xs
    decreases |xs|
  {
    if |xs| > 0 {
      assert SortedBy(xs[1..], key) by {
        forall i | 0 < i < |xs[1..]| ensures LexLe(key(xs[1..][i - 1]), key(xs[1..][i])) {
          assert xs[1..][i - 1] == xs[i] && xs[1..][i] == xs[i + 1];
        }
      }
      SortBySortedIdentity(xs[1..], key);
      assert xs == [xs[0]] + xs[1..];
    }
  }

  /** A sequence equals its stable sort exactly when its keys never decrease. */
  lemma SortByFixpoint<T>(xs: seq<T>, key: T -> string)
    ensures SortBy(xs, key) == xs <==> SortedBy(xs, key)
  {
    SortBySorted(xs, key);
    if SortedBy(xs, key) { SortBySortedIdentity(xs, key); }
  }

  /** `[x for x in xs if p(x)]`. */
  function Filter<T(!new)>(xs: seq<T>, p: T -> bool): (r: seq<T>)
    ensures |r| <= |xs|
    ensures forall x :: x in r <==> x in xs && p(x)
  {
    if |xs| == 0 then []
    else
      var init := Filter(xs[..|xs| - 1], p);
      var x := xs[|xs| - 1];
      assert forall y :: y in xs <==> y in xs[..|xs| - 1] || y == x by {
        assert xs == xs[..|xs| - 1] + [x];
      }
      if p(x) then init + [x] else init
  }

  /** Filtering keeps a sequence free of duplicates. */
  lemma {:induction false} FilterNoDups<T(!new)>(xs: seq<T>, p: T -> bool)
    requires NoDups(xs)
    ensures NoDups(Filter(xs, p))
    decreases |xs|
  {
    if |xs| > 0 {
      var init := xs[..|xs| - 1];
      assert NoDups(init) by {
        forall i, j | 0 <= i < j < |init| ensures init[i] != init[j] {
          assert init[i] == xs[i] && init[j] == xs[j];
        }
      }
      FilterNoDups(init, p);
      var x := xs[|xs| - 1];
      assert x !in init by {
        forall k | 0 <= k < |init| ensures init[k] != x { assert init[k] == xs[k]; }
      }
    }
  }

  /**
   Removing duplicates and filtering commute: keeping the first appearance of
   each value and then dropping the unwanted ones gives what dropping first and
   de-duplicating afterwards gives.
   */
  lemma {:induction false} DedupeFilterCommute<T(!new)>(xs: seq<T>, p: T -> bool)
    ensures Filter(Dedupe(xs), p) == Dedupe(Filter(xs, p))
    decreases |xs|
  {
    if |xs| > 0 {
      var init := xs[..|xs| - 1];
      var x := xs[|xs| - 1];
      DedupeFilterCommute(init, p);
      var d := Dedupe(init);
      assert Dedupe(xs) == if x in d then d else d + [x];
      assert Filter(xs, p) == if p(x) then Filter(init, p) + [x] else Filter(init, p);
      if x !in d {
        assert (d + [x])[..|d + [x]| - 1] == d;
      }
      if p(x) {
        var f := Filter(init, p);
        assert (f + [x])[..|f + [x]| - 1] == f;
      }
    }
  }

  /** Each value occurs at most once in a duplicate-free sequence. */
  lemma {:induction false} NoDupsCount<T>(xs: seq<T>, x: T)
    requires NoDups(xs)
    ensures multiset(xs)[x] <= 1
    decreases |xs|
  {
    if |xs| > 0 {
      var tail := xs[1..];
      assert NoDups(tail) by {
        forall i, j | 0 <= i < j < |tail| ensures tail[i] != tail[j] {
          assert tail[i] == xs[i + 1] && tail[j] == xs[j + 1];
        }
      }
      NoDupsCount(tail, x);
      assert xs == [xs[0]] + tail;
      assert multiset(xs) == multiset{xs[0]} + multiset(tail);
      if x == xs[0] {
        assert x !in tail by {
          forall k | 0 <= k < |tail| ensures tail[k] != x { assert tail[k] == xs[k + 1]; }
        }
      }
    }
  }

  /** Two equal values at different positions count twice. */
  lemma TwiceCounted<T>(xs: seq<T>, i: nat, j: nat)
    requires i < j < |xs| && xs[i] == xs[j]
    ensures multiset(xs)[xs[i]] >= 2
  {
    var a, b := xs[..j], xs[j..];
    assert xs == a + b;
    assert xs[i] == a[i] && xs[j] == b[0];
    assert a[i] in multiset(a) && b[0] in multiset(b);
  }

  /** A rearrangement of a duplicate-free sequence is duplicate-free. */
  lemma NoDupsPermutation<T>(a: seq<T>, b: seq<T>)
    requires multiset(a) == multiset(b) && NoDups(b)
    ensures NoDups(a)
  {
    forall i, j | 0 <= i < j < |a| ensures a[i] != a[j] {
      if a[i] == a[j] {
        TwiceCounted(a, i, j);
        NoDupsCount(b, a[i]);
      }
    }
  }

  /** The identity key: `sorted(xs)` on strings. */
  function Ident(s: string): string {
    s
  }

  /** The head of a sorted sequence of strings is at most every element. */
  lemma {:induction false} SortedHeadLeast(xs: seq<string>, k: nat)
    requires SortedBy(xs, Ident) && k < |xs|
    ensures LexLe(xs[0], xs[k])
    decreases k
  {
    if k == 0 {
      LexLeReflexive(xs[0]);
    } else {
      SortedHeadLeast(xs, k - 1);
      LexLeTransitive(xs[0], xs[k - 1], xs[k]);
    }
  }

  /** A set of strings has exactly one sorted, duplicate-free listing. */
  lemma {:induction false} SortedListingUnique(a: seq<string>, b: seq<string>)
    requires SortedBy(a, Ident) && SortedBy(b, Ident) && NoDups(a) && NoDups(b)
    requires forall x :: x in a <==> x in b
    ensures a == b
    decreases |a|
  {
    if |a| == 0 {
      EmptyWithoutMembers(b);
    } else {
      assert a[0] in b;
      assert b[0] in a;
      var i :| 0 <= i < |a| && a[i] == b[0];
      var j :| 0 <= j < |b| && b[j] == a[0];
      SortedHeadLeast(a, i);
      SortedHeadLeast(b, j);
      LexLeAntisymmetric(a[0], b[0]);
      var ta, tb := a[1..], b[1..];
      assert SortedBy(ta, Ident) by {
        forall k | 0 < k < |ta| ensures LexLe(ta[k - 1], ta[k]) { assert ta[k - 1] == a[k] && ta[k] == a[k + 1]; }
      }
      assert SortedBy(tb, Ident) by {
        forall k | 0 < k < |tb| ensures LexLe(tb[k - 1], tb[k]) { assert tb[k - 1] == b[k] && tb[k] == b[k + 1]; }
      }
      assert NoDups(ta) by {
        forall k, l | 0 <= k < l < |ta| ensures ta[k] != ta[l] { assert ta[k] == a[k + 1] && ta[l] == a[l + 1]; }
      }
      assert NoDups(tb) by {
        forall k, l | 0 <= k < l < |tb| ensures tb[k] != tb[l] { assert tb[k] == b[k + 1] && tb[l] == b[l + 1]; }
      }
      forall x ensures x in ta <==> x in tb {
        TailMembers(a, x);
        TailMembers(b, x);
      }
      SortedListingUnique(ta, tb);
      assert a == [a[0]] + ta && b == [b[0]] + tb;
    }
  }

  /** In a duplicate-free sequence the tail holds every value but the head. */
  lemma TailMembers<T>(xs: seq<T>, x: T)
    requires NoDups(xs) && |xs| > 0
    ensures x in xs[1..] <==> x in xs && x != xs[0]
  {
    if x in xs[1..] {
      var k :| 0 <= k < |xs[1..]| && xs[1..][k] == x;
      assert xs[k + 1] == x;
    }
    if x in xs && x != xs[0] {
      var k :| 0 <= k < |xs| && xs[k] == x;
      assert xs[1..][k - 1] == x;
    }
  }

  lemma EmptyWithoutMembers<T>(xs: seq<T>)
    ensures (forall x :: x !in xs) ==> xs == []
  {
    if |xs| > 0 { assert xs[0] in xs; }
  }

  /** The images of the elements under `f`, one after the other. */
  function FlatMap<S, T(!new)>(xs: seq<S>, f: S -> seq<T>): (r: seq<T>)
    ensures forall x :: x in r <==> exists k :: 0 <= k < |xs| && x in f(xs[k])
  {
    if |xs| == 0 then []
    else
      var rest := FlatMap(xs[1..], f);
      FlatMapStep(xs, f, rest);
      f(xs[0]) + rest
  }

  lemma FlatMapStep<S, T(!new)>(xs: seq<S>, f: S -> seq<T>, rest: seq<T>)
    requires |xs| > 0
    requires forall x :: x in rest <==> exists k :: 0 <= k < |xs[1..]| && x in f(xs[1..][k])
    ensures forall x :: x in f(xs[0]) + rest <==> exists k :: 0 <= k < |xs| && x in f(xs[k])
  {
    forall x | x in f(xs[0]) + rest && x !in f(xs[0])
      ensures exists k :: 0 <= k < |xs| && x in f(xs[k])
    {
      var k :| 0 <= k < |xs[1..]| && x in f(xs[1..][k]);
      assert xs[1..][k] == xs[k + 1];
    }
    forall x | exists k :: 0 <= k < |xs| && x in f(xs[k])
      ensures x in f(xs[0]) + rest
    {
      var k :| 0 <= k < |xs| && x in f(xs[k]);
      if k > 0 {
        assert xs[1..][k - 1] == xs[k];
      }
    }
  }

  /** The values of `xs` as a set. */
  function Elements<T(!new)>(xs: seq<T>): (r: set<T>)
    ensures forall x :: x in r <==> x in xs
  {
    set x | x in xs
  }

  /** `len(set(xs)) == len(xs)` holds exactly when no value of `xs` repeats. */
  lemma {:induction false} DistinctCount<T(!new)>(xs: seq<T>)
    ensures |Elements(xs)| <= |xs|
    ensures |Elements(xs)| == |xs| <==> NoDups(xs)
    decreases |xs|
  {
    if |xs| > 0 {
      var tail := xs[1..];
      DistinctCount(tail);
      assert xs == [xs[0]] + tail;
      assert Elements(xs) == {xs[0]} + Elements(tail);
      if xs[0] in tail {
        RepeatedHead(xs);
        assert Elements(xs) == Elements(tail);
      } else {
        NoDupsCons(xs);
      }
    } else {
      assert Elements(xs) == {};
    }
  }

  lemma RepeatedHead<T>(xs: seq<T>)
    requires |xs| > 0 && xs[0] in xs[1..]
    ensures !NoDups(xs)
  {
    var k :| 0 <= k < |xs[1..]| && xs[1..][k] == xs[0];
    assert xs[k + 1] == xs[0];
  }

  lemma NoDupsCons<T>(xs: seq<T>)
    requires |xs| > 0 && xs[0] !in xs[1..]
    ensures NoDups(xs) <==> NoDups(xs[1..])
  {
    var tail := xs[1..];
    if NoDups(tail) {
      forall i, j | 0 <= i < j < |xs| ensures xs[i] != xs[j] {
        if i == 0 { assert xs[j] == tail[j - 1]; } else { assert xs[i] == tail[i - 1] && xs[j] == tail[j - 1]; }
      }
    }
    if NoDups(xs) {
      forall i, j | 0 <= i < j < |tail| ensures tail[i] != tail[j] {
        assert tail[i] == xs[i + 1] && tail[j] == xs[j + 1];
      }
    }
  }
}

=== FILE: supporting.dfy ===
/**
 `csv_2_supporting`: turns a contributors' CSV, one ORCID per row, into one
 supporting-material Markdown page per target–conjugate pair and contributor,
 stored as `root/target_conjugate/orcid.md`.

 Before anything is written the CSV is checked: every row names exactly one
 ORCID across its Agree and Disagree cells, and no cell carries leading or
 trailing whitespace. Each page lists the rows the contributor agreed or
 disagreed with, numbers the distinct non-blank notes and the publications
 whose Markdown description exists, and replaces cells by links to those
 numbers.

 The file system is an oracle: `contents` maps each publication whose
 `publication.md` file exists to that file's text. The empty name, left by a
 superfluous `;`, is discarded before any file is looked up, so it is never a
 publication whatever `contents` holds. Rendering the rows as a
 Markdown table (`to_markdown`) and filling the page template are left out.
 */
module Supporting {
  import opened Text
  import opened Seqs
  import opened Tables
  import opened Paths
  import opened Links
  import opened Validation
  import Reagents

  const AgreeColumn := Reagents.AgreeColumn
  const DisagreeColumn := Reagents.DisagreeColumn
  const ContributorColumn := Reagents.ContributorColumn
  const PublicationsColumn := "Publications"
  const NotesColumn := "Notes"

  // ---------------------------------------------------------------- input checks

  /** A cell `single_orcid` counts: not blank and not the literal `NA`. */
  predicate Counted(v: string) {
    !IsBlank(v) && v != "NA"
  }

  /** The number of `;`-separated entries over the counted cells. */
  function OrcidEntries(cells: seq<string>): nat {
    if |cells| == 0 then 0
    else (if Counted(cells[0]) then |Split(cells[0], ';')| else 0) + OrcidEntries(cells[1..])
  }

  /** `single_orcid` applied to a row's Agree and Disagree cells. */
  predicate SingleOrcid(agree: string, disagree: string) {
    OrcidEntries([agree, disagree]) == 1
  }

  /**
   A row names a single ORCID exactly when one of its two cells is counted,
   the other is not, and the counted one holds no `;`.
   */
  lemma SingleOrcidCases(agree: string, disagree: string)
    ensures SingleOrcid(agree, disagree) <==>
      (Counted(agree) && !Counted(disagree) && ';' !in agree)
      || (!Counted(agree) && Counted(disagree) && ';' !in disagree)
  {
    SplitCount(agree, ';');
    SplitCount(disagree, ';');
    var na := if Counted(agree) then |Split(agree, ';')| else 0;
    var nd := if Counted(disagree) then |Split(disagree, ';')| else 0;
    assert [agree, disagree][1..] == [disagree];
    assert [disagree][1..] == [];
    assert OrcidEntries([disagree]) == nd + OrcidEntries([]);
    assert OrcidEntries([agree, disagree]) == na + nd;
  }

  predicate OneOrcidPerRow(t: Table) {
    forall i :: 0 <= i < |t.rows| ==> SingleOrcid(Cell(t.rows[i], AgreeColumn), Cell(t.rows[i], DisagreeColumn))
  }

  /** The columns a run reads; Notes and Contributor are only read once some page is produced. */
  predicate ReadColumnsPresent(t: Table) {
    && PublicationsColumn in t.columns
    && Reagents.TargetColumn in t.columns && Reagents.ConjugateColumn in t.columns
    && (|t.rows| > 0 ==> NotesColumn in t.columns && ContributorColumn in t.columns)
  }

  /**
   The checks `csv_2_supporting` makes before writing: a missing ORCID column
   raises `KeyError`, a row with other than one ORCID and then a padded cell
   raise `ValueError`, and a missing column read later raises `KeyError`.
   */
  function InputStep(t: Table): (r: Step)
    requires WellFormed(t)
    ensures !r.Fail?
    ensures r == Pass <==>
      AgreeColumn in t.columns && DisagreeColumn in t.columns && OneOrcidPerRow(t) && NoPadding(t) && ReadColumnsPresent(t)
    ensures r == Crash("ValueError") <==>
      AgreeColumn in t.columns && DisagreeColumn in t.columns && (!OneOrcidPerRow(t) || !NoPadding(t))
    ensures r.Crash? ==> r.error == "KeyError" || r.error == "ValueError"
  {
    if !(AgreeColumn in t.columns && DisagreeColumn in t.columns) then Crash("KeyError")
    else if !OneOrcidPerRow(t) then Crash("ValueError")
    else if WhitespaceStep(t) != Pass then Crash("ValueError")
    else if !ReadColumnsPresent(t) then Crash("KeyError")
    else Pass
  }

  // ---------------------------------------------------------------- numbering

  const NotesAnchor := "notes"
  const PublicationsAnchor := "publications"

  /** `[i](#anchor)`: a link to entry `i` of a numbered section. */
  function Label(i: nat, anchor: string): (r: string)
    ensures '-' !in anchor ==> '-' !in r
  {
    var r := MdLink(NatToString(i), "#" + anchor);
    assert r == "[" + NatToString(i) + "](#" + anchor + ")";
    r
  }

  /**
   `dict(zip(items, labels))` with the labels counting from 1: every item is a
   key and every value is one of the labels.
   */
  function Numbering(items: seq<string>, anchor: string): (m: map<string, string>)
    ensures m.Keys == set x | x in items
    ensures forall x :: x in m ==> exists k :: 1 <= k <= |items| && m[x] == Label(k, anchor)
  {
    if |items| == 0 then map[]
    else
      var init := items[..|items| - 1];
      var last := items[|items| - 1];
      assert items == init + [last];
      Numbering(init, anchor)[last := Label(|items|, anchor)]
  }

  /** For distinct items, the item at position `k` is labelled `k + 1`. */
  lemma {:induction false} NumberingPositions(items: seq<string>, anchor: string, k: nat)
    requires NoDups(items) && k < |items|
    ensures Numbering(items, anchor)[items[k]] == Label(k + 1, anchor)
    decreases |items|
  {
    var init := items[..|items| - 1];
    var last := items[|items| - 1];
    if k < |init| {
      assert NoDups(init) by {
        forall i, j | 0 <= i < j < |init| ensures init[i] != init[j] { assert init[i] == items[i] && init[j] == items[j]; }
      }
      assert init[k] == items[k] && items[k] != last;
      NumberingPositions(init, anchor, k);
    }
  }

  /** Labels of a hyphen-free anchor hold no hyphen. */
  lemma NumberingHyphenFree(items: seq<string>, anchor: string)
    requires '-' !in anchor
    ensures forall x :: x in Numbering(items, anchor) ==> '-' !in Numbering(items, anchor)[x]
  {
  }

  /** `[f"{i}. " + x for i, x in enumerate(xs, start=from)]`. */
  function Enumerated(xs: seq<string>, from: nat): (r: seq<string>)
    ensures |r| == |xs|
    ensures forall k :: 0 <= k < |r| ==> r[k] == NatToString(from + k) + ". " + xs[k]
  {
    seq(|xs|, k requires 0 <= k < |xs| => NatToString(from + k) + ". " + xs[k])
  }

  /** A join of lines whose first line is not empty is not empty. */
  lemma JoinNotEmpty(sep: string, parts: seq<string>)
    ensures |parts| > 0 && parts[0] != "" ==> Join(sep, parts) != ""
  {
    if |parts| > 1 {
      assert Join(sep, parts) == parts[0] + sep + Join(sep, parts[1..]);
    }
  }

  // ---------------------------------------------------------------- notes

  predicate NonBlank(s: string) {
    !IsBlank(s)
  }

  /** `[x for x in notes.unique() if x.strip()]`. */
  function NotesList(notes: seq<string>): (r: seq<string>)
    ensures NoDups(r)
    ensures forall x :: x in r <==> x in notes && !IsBlank(x)
  {
    var d := Dedupe(notes);
    FilterNoDups(d, NonBlank);
    Filter(d, NonBlank)
  }

  /**
   The notes keep the order in which they first appear among the non-blank
   notes: de-duplicating first and dropping blanks afterwards is the same as
   the other way round.
   */
  lemma NotesListFirstAppearance(notes: seq<string>, i: nat, j: nat)
    requires i < j < |NotesList(notes)|
    ensures NotesList(notes) == Dedupe(Filter(notes, NonBlank))
    ensures FirstIndex(Filter(notes, NonBlank), NotesList(notes)[i]) < FirstIndex(Filter(notes, NonBlank), NotesList(notes)[j])
  {
    DedupeFilterCommute(notes, NonBlank);
    DedupeKeepsFirstAppearanceOrder(Filter(notes, NonBlank), i, j);
  }

  const NotesHeader := "<a name=\"notes\"></a>\n"

  /** The notes section: its anchor, then one numbered line per note. */
  function NotesSection(notes: seq<string>): (r: string)
    ensures |NotesHeader| <= |r| && r[..|NotesHeader|] == NotesHeader
    ensures r == NotesHeader <==> notes == []
  {
    var lines := Enumerated(notes, 1);
    JoinNotEmpty("\n", lines);
    NotesHeader + Join("\n", lines)
  }

  // ---------------------------------------------------------------- publications

  /** The stripped `;`-pieces of one cell. */
  function Pieces(cell: string): (r: seq<string>)
    ensures forall x :: x in r <==> StripsTo(Split(cell, ';'), x)
  {
    var ps := Split(cell, ';');
    var r := seq(|ps|, k requires 0 <= k < |ps| => Strip(ps[k]));
    assert forall k :: 0 <= k < |ps| ==> r[k] == Strip(ps[k]);
    r
  }

  /** `[r.strip() for p in cells for r in p.split(";")]`. */
  function CellPieces(cells: seq<string>): (r: seq<string>)
    ensures forall x :: x in r <==> exists k :: 0 <= k < |cells| && x in Pieces(cells[k])
  {
    FlatMap(cells, Pieces)
  }

  /** A piece names a publication with a description: it is not the discarded empty name, and its file exists. */
  predicate InContents(contents: map<string, string>, p: string) {
    p != "" && p in contents
  }

  /**
   `sorted(set(pieces) & publications_dict.keys())`: the non-empty
   publications of the cells that have a description, each once, in
   code-point order.
   */
  function PublicationsList(cells: seq<string>, contents: map<string, string>): (r: seq<string>)
    ensures SortedBy(r, Ident) && NoDups(r)
    ensures forall x :: x in r <==> x != "" && x in contents && x in CellPieces(cells)
  {
    var d := Dedupe(Filter(CellPieces(cells), p => InContents(contents, p)));
    var r := SortBy(d, Ident);
    SortBySorted(d, Ident);
    NoDupsPermutation(r, d);
    assert forall x :: x in r <==> x in multiset(r);
    assert forall x :: x in d <==> x in multiset(d);
    r
  }

  /** A superfluous `;` never makes the empty name a publication, even when a file `.md` exists. */
  lemma SuperfluousSemicolonIgnored(contents: map<string, string>)
    requires "" in contents
    ensures "" !in PublicationsList(["a;"], contents)
    ensures "a" in PublicationsList(["a;"], contents) <==> "a" in contents
  {
    assert Split("", ';') == [""];
    assert ";"[0] == ';' && ";"[1..] == "";
    assert Split(";", ';') == ["", ""];
    assert "a;"[0] == 'a' && "a;"[1..] == ";";
    assert Split("a;", ';') == [['a'] + ""] + [""];
    assert ['a'] + "" == "a";
    var ps := Split("a;", ';');
    assert ps[0] == "a";
    assert Strip(ps[0]) == "a";
    assert StripsTo(ps, "a");
    assert "a" in Pieces("a;");
    assert "a" in CellPieces(["a;"]);
  }

  /** The listing of the publications is the only sorted, duplicate-free listing of that set. */
  lemma PublicationsListIsSortedSet(cells: seq<string>, contents: map<string, string>, xs: seq<string>)
    requires SortedBy(xs, Ident) && NoDups(xs)
    requires forall x :: x in xs <==> x != "" && x in contents && x in CellPieces(cells)
    ensures xs == PublicationsList(cells, contents)
  {
    SortedListingUnique(xs, PublicationsList(cells, contents));
  }

  const PublicationsHeader := "<a name=\"publications\"></a>\n"

  /** The publications section: empty without publications, else the anchor and one numbered description per line. */
  function PublicationsSection(pubs: seq<string>, contents: map<string, string>): (r: string)
    requires forall k :: 0 <= k < |pubs| ==> pubs[k] in contents
    ensures r == "" <==> pubs == []
    ensures r != "" ==> |PublicationsHeader| <= |r| && r[..|PublicationsHeader|] == PublicationsHeader
  {
    var texts := seq(|pubs|, k requires 0 <= k < |pubs| => contents[pubs[k]]);
    var lines := Enumerated(texts, 1);
    var body := Join("\n", lines);
    JoinNotEmpty("\n", lines);
    if body != "" then PublicationsHeader + body else ""
  }

  // ---------------------------------------------------------------- the Agree cell

  /** `pub2number[r.strip()]` for each `;`-piece, `""` for a piece without a number. */
  function PieceNumbers(pieces: seq<string>, numbering: map<string, string>): (r: seq<string>)
    ensures |r| == |pieces|
    ensures forall k :: 0 <= k < |r| ==> r[k] == (if Strip(pieces[k]) in numbering then numbering[Strip(pieces[k])] else "")
  {
    seq(|pieces|, k requires 0 <= k < |pieces| =>
      if Strip(pieces[k]) in numbering then numbering[Strip(pieces[k])] else "")
  }

  function PubNumbers(pubs: string, numbering: map<string, string>): string {
    Join(", ", PieceNumbers(Split(pubs, ';'), numbering))
  }

  /**
   With non-empty numbers, the numbers string is empty exactly when the cell
   is a single publication that has no number.
   */
  lemma PubNumbersEmpty(pubs: string, numbering: map<string, string>)
    ensures (forall p :: p in numbering ==> numbering[p] != "") ==>
      (PubNumbers(pubs, numbering) == "" <==> ';' !in pubs && Strip(pubs) !in numbering)
  {
    var ps := Split(pubs, ';');
    var ns := PieceNumbers(ps, numbering);
    SplitCount(pubs, ';');
    if ';' !in pubs {
      SplitNoSep(pubs, ';');
      assert ns == [ns[0]];
    } else {
      assert Join(", ", ns) == ns[0] + ", " + Join(", ", ns[1..]);
    }
  }

  /**
   `pubs2orcid_and_number`: the ORCID link, followed by ` [numbers]` when the
   joined numbers string is not empty.
   */
  function AgreeWithNumbers(pubs: string, orcid: string, numbering: map<string, string>): (r: string)
    ensures |OrcidLink(orcid)| <= |r| && r[..|OrcidLink(orcid)|] == OrcidLink(orcid)
    ensures (forall p :: p in numbering ==> numbering[p] != "") ==>
      (r == OrcidLink(orcid) <==> ';' !in pubs && Strip(pubs) !in numbering)
  {
    var numbers := PubNumbers(pubs, numbering);
    PubNumbersEmpty(pubs, numbering);
    if numbers != "" then OrcidLink(orcid) + (" [" + numbers + "]") else OrcidLink(orcid)
  }

  /** Two publications without a number still leave a separator in brackets behind. */
  lemma UnnumberedPublicationsLeaveBrackets(a: string, b: string, orcid: string, numbering: map<string, string>)
    requires ';' !in a && ';' !in b
    requires Strip(a) !in numbering && Strip(b) !in numbering
    ensures AgreeWithNumbers(a + ";" + b, orcid, numbering) == OrcidLink(orcid) + " [, ]"
  {
    TwoUnnumbered(a, b, numbering);
    AgreeWithNumbersIs(a + ";" + b, orcid, numbering);
    assert " [" + ", " + "]" == " [, ]";
  }

  lemma TwoUnnumbered(a: string, b: string, numbering: map<string, string>)
    requires ';' !in a && ';' !in b
    requires Strip(a) !in numbering && Strip(b) !in numbering
    ensures PubNumbers(a + ";" + b, numbering) == ", "
  {
    assert Join([';'], [a, b]) == a + ";" + b;
    SplitJoin([a, b], ';');
    var ns := PieceNumbers([a, b], numbering);
    assert ns == ["", ""];
    assert Join(", ", ns) == "" + ", " + "";
  }

  lemma {:induction false} JoinAvoids(sep: string, parts: seq<string>, c: char)
    requires c !in sep && forall k :: 0 <= k < |parts| ==> c !in parts[k]
    ensures c !in Join(sep, parts)
    decreases |parts|
  {
    if |parts| > 1 {
      JoinAvoids(sep, parts[1..], c);
    }
  }

  /**
   The ORCID read back out of a rewritten Agree cell is the contributor's,
   whatever the publication numbers, as long as the labels hold no hyphen.
   */
  lemma AgreeCellReadBack(pubs: string, orcid: string, numbering: map<string, string>)
    requires IsOrcid(orcid)
    requires forall p :: p in numbering ==> '-' !in numbering[p]
    ensures FindOrcids(AgreeWithNumbers(pubs, orcid, numbering)) == [orcid]
  {
    var numbers := PubNumbers(pubs, numbering);
    PubNumbersHyphenFree(pubs, numbering);
    AgreeWithNumbersIs(pubs, orcid, numbering);
    LinkWithNumbersReadBack(orcid, numbers);
  }

  lemma PubNumbersHyphenFree(pubs: string, numbering: map<string, string>)
    requires forall p :: p in numbering ==> '-' !in numbering[p]
    ensures '-' !in PubNumbers(pubs, numbering)
  {
    JoinAvoids(", ", PieceNumbers(Split(pubs, ';'), numbering), '-');
  }

  /** The rewritten Agree cell is the ORCID link followed by the bracketed numbers, if there are any. */
  lemma AgreeWithNumbersIs(pubs: string, orcid: string, numbering: map<string, string>)
    ensures AgreeWithNumbers(pubs, orcid, numbering) ==
      OrcidLink(orcid) + (if PubNumbers(pubs, numbering) != "" then " [" + PubNumbers(pubs, numbering) + "]" else "")
  {
  }

  /** An ORCID link followed by hyphen-free numbers in brackets reads back as that ORCID alone. */
  lemma LinkWithNumbersReadBack(orcid: string, numbers: string)
    requires IsOrcid(orcid) && '-' !in numbers
    ensures FindOrcids(OrcidLink(orcid) + (if numbers != "" then " [" + numbers + "]" else "")) == [orcid]
  {
    var rest := if numbers != "" then " [" + numbers + "]" else "";
    assert '-' !in rest;
    FindOrcidsInLink(orcid, rest);
    FindOrcidsNoHyphen(rest);
  }

  // ---------------------------------------------------------------- pairs, contributors, files

  /** The row names `x` in its Agree or its Disagree cell. */
  predicate Names(r: Row, x: string) {
    Cell(r, AgreeColumn) == x || Cell(r, DisagreeColumn) == x
  }

  predicate Listed(x: string) {
    x != "" && x != "NA"
  }

  predicate InPair(pair: (string, string), r: Row) {
    Reagents.PairOf(r) == pair
  }

  /** The rows of one target–conjugate pair, in table order. */
  function PairRows(t: Table, pair: (string, string)): (rows: seq<Row>)
    ensures forall r :: r in rows <==> r in t.rows && Reagents.PairOf(r) == pair
  {
    Filter(t.rows, r => InPair(pair, r))
  }

  /** Some row of the pair names `x`, and `x` is neither `""` nor `"NA"`. */
  predicate NamedInPair(t: Table, pair: (string, string), x: string) {
    Listed(x) && exists i :: 0 <= i < |t.rows| && Reagents.PairOf(t.rows[i]) == pair && Names(t.rows[i], x)
  }

  /**
   The contributors of a pair: its rows' Agree cells, then their Disagree
   cells, each value once, leaving out `""` and `"NA"`.
   */
  function PairContributors(t: Table, pair: (string, string)): (r: seq<string>)
    ensures NoDups(r)
    ensures forall x :: x in r <==> NamedInPair(t, pair, x)
  {
    var rows := PairRows(t, pair);
    var agree := seq(|rows|, k requires 0 <= k < |rows| => Cell(rows[k], AgreeColumn));
    var disagree := seq(|rows|, k requires 0 <= k < |rows| => Cell(rows[k], DisagreeColumn));
    var d := Dedupe(agree + disagree);
    FilterNoDups(d, Listed);
    var r := Filter(d, Listed);
    forall x ensures x in r <==> Listed(x) && exists i :: 0 <= i < |t.rows| && Reagents.PairOf(t.rows[i]) == pair && Names(t.rows[i], x) {
      PairContributorsMembers(t, pair, rows, agree, disagree, x);
    }
    r
  }

  lemma PairContributorsMembers(t: Table, pair: (string, string), rows: seq<Row>, agree: seq<string>, disagree: seq<string>, x: string)
    requires forall r :: r in rows <==> r in t.rows && Reagents.PairOf(r) == pair
    requires |agree| == |rows| && forall k :: 0 <= k < |rows| ==> agree[k] == Cell(rows[k], AgreeColumn)
    requires |disagree| == |rows| && forall k :: 0 <= k < |rows| ==> disagree[k] == Cell(rows[k], DisagreeColumn)
    ensures x in agree + disagree <==> exists i :: 0 <= i < |t.rows| && Reagents.PairOf(t.rows[i]) == pair && Names(t.rows[i], x)
  {
    if x in agree + disagree {
      var k :| 0 <= k < |agree + disagree| && (agree + disagree)[k] == x;
      var row := if k < |rows| then rows[k] else rows[k - |rows|];
      assert Names(row, x);
      assert row in rows;
      var i :| 0 <= i < |t.rows| && t.rows[i] == row;
    }
    if exists i :: 0 <= i < |t.rows| && Reagents.PairOf(t.rows[i]) == pair && Names(t.rows[i], x) {
      var i :| 0 <= i < |t.rows| && Reagents.PairOf(t.rows[i]) == pair && Names(t.rows[i], x);
      assert t.rows[i] in rows;
      var k :| 0 <= k < |rows| && rows[k] == t.rows[i];
      if Cell(t.rows[i], AgreeColumn) == x {
        assert (agree + disagree)[k] == x;
      } else {
        assert (agree + disagree)[|rows| + k] == x;
      }
    }
  }

  /** The files a run writes: one per pair and contributor of that pair. */
  function CreatedFiles(t: Table, root: Path): set<Path> {
    var pairs := Reagents.Pairs(t);
    set k, x | 0 <= k < |pairs| && x in PairContributors(t, pairs[k]) :: SupportingFile(root, pairs[k].0, pairs[k].1, x)
  }

  /** A file is written exactly for each row and each listed value of its Agree or Disagree cell. */
  lemma CreatedFilesMembers(t: Table, root: Path, p: Path)
    ensures p in CreatedFiles(t, root) <==>
      exists i, x :: 0 <= i < |t.rows| && Listed(x) && Names(t.rows[i], x) && p == Reagents.FileOf(root, t.rows[i], x)
  {
    if p in CreatedFiles(t, root) {
      var i, x := CreatedFilesSound(t, root, p);
    } else {
      forall i, x | 0 <= i < |t.rows| && Listed(x) && Names(t.rows[i], x)
        ensures p != Reagents.FileOf(root, t.rows[i], x)
      {
        CreatedFilesComplete(t, root, i, x);
      }
    }
  }

  lemma CreatedFilesSound(t: Table, root: Path, p: Path) returns (i: nat, x: string)
    requires p in CreatedFiles(t, root)
    ensures i < |t.rows| && Listed(x) && Names(t.rows[i], x) && p == Reagents.FileOf(root, t.rows[i], x)
  {
    var pairs := Reagents.Pairs(t);
    var k, y :| 0 <= k < |pairs| && y in PairContributors(t, pairs[k]) && p == SupportingFile(root, pairs[k].0, pairs[k].1, y);
    assert NamedInPair(t, pairs[k], y);
    var j :| 0 <= j < |t.rows| && Reagents.PairOf(t.rows[j]) == pairs[k] && Names(t.rows[j], y);
    i, x := j, y;
  }

  lemma CreatedFilesComplete(t: Table, root: Path, i: nat, x: string)
    requires i < |t.rows| && Listed(x) && Names(t.rows[i], x)
    ensures Reagents.FileOf(root, t.rows[i], x) in CreatedFiles(t, root)
  {
    var pairs := Reagents.Pairs(t);
    var pair := Reagents.PairOf(t.rows[i]);
    assert pair in pairs;
    var k :| 0 <= k < |pairs| && pairs[k] == pair;
    assert NamedInPair(t, pairs[k], x);
    assert x in PairContributors(t, pairs[k]);
  }

  /** A trimmed cell without `;` parses to itself, or to nothing when it is empty or `NA`. */
  lemma CellParse(c: string)
    requires ';' !in c && Strip(c) == c
    ensures ParseOrcidList(c) == if c == "" || c == "NA" then [] else [c]
  {
    SplitNoSep(c, ';');
    var ps: seq<string> := [c];
    assert ps[1..] == [];
    assert NonEmptyStripped(ps[1..], ';') == [];
    var pieces := StrippedPieces(c, ';');
    assert pieces == NonEmptyStripped(ps, ';');
    assert pieces == if c == "" then [] else [c];
    if pieces != [] {
      assert pieces[1..] == [];
      assert DropNA(pieces[1..]) == [];
    }
  }

  /** A trimmed cell is counted exactly when it is neither empty nor `NA`, and then a checked row's cell holds no `;`. */
  lemma TrimmedCell(c: string, other: string)
    requires Strip(c) == c
    requires SingleOrcid(c, other) || SingleOrcid(other, c)
    ensures Counted(c) <==> Listed(c)
    ensures ';' !in c
  {
    SingleOrcidCases(c, other);
    SingleOrcidCases(other, c);
  }

  /** In a row of trimmed cells without `;`, the parsed ORCIDs are exactly the listed Agree or Disagree cell. */
  lemma CheckedRowOrcids(r: Row, x: string)
    requires ';' !in Cell(r, AgreeColumn) && ';' !in Cell(r, DisagreeColumn)
    requires Strip(Cell(r, AgreeColumn)) == Cell(r, AgreeColumn) && Strip(Cell(r, DisagreeColumn)) == Cell(r, DisagreeColumn)
    ensures x in Reagents.RowOrcids(r) <==> Listed(x) && Names(r, x)
  {
    Reagents.RowOrcidsMembers(r, x);
    TrimmedPairOrcids(Cell(r, AgreeColumn), Cell(r, DisagreeColumn), x);
  }

  lemma TrimmedPairOrcids(a: string, d: string, x: string)
    requires ';' !in a && ';' !in d && Strip(a) == a && Strip(d) == d
    ensures x in ParseOrcidList(a) || x in ParseOrcidList(d) <==> Listed(x) && (a == x || d == x)
  {
    CellParseMember(a, x);
    CellParseMember(d, x);
  }

  lemma CellParseMember(c: string, x: string)
    requires ';' !in c && Strip(c) == c
    ensures x in ParseOrcidList(c) <==> Listed(x) && c == x
  {
    CellParse(c);
    if c != "" && c != "NA" {
      assert ParseOrcidList(c) == [c];
    }
  }

  /**
   For a CSV that passes the checks, the files written are exactly the files
   the reagent-resource validation expects for the same rows.
   */
  lemma CreatedFilesAreExpected(t: Table, root: Path, p: Path)
    requires WellFormed(t) && InputStep(t) == Pass
    ensures p in CreatedFiles(t, root) <==> p in Reagents.ExpectedFiles(t, root)
  {
    assert AgreeColumn in t.columns && DisagreeColumn in t.columns && OneOrcidPerRow(t) && NoPadding(t);
    if p in CreatedFiles(t, root) {
      var i, x := CreatedFilesSound(t, root, p);
      CheckedRow(t, i, x);
      Reagents.ExpectedFilesComplete(t, root, i, x);
    }
    if p in Reagents.ExpectedFiles(t, root) {
      var i, x := Reagents.ExpectedFilesSound(t, root, p);
      CheckedRow(t, i, x);
      CreatedFilesComplete(t, root, i, x);
    }
  }

  lemma CheckedRow(t: Table, i: nat, x: string)
    requires WellFormed(t) && AgreeColumn in t.columns && DisagreeColumn in t.columns
    requires OneOrcidPerRow(t) && NoPadding(t) && i < |t.rows|
    ensures x in Reagents.RowOrcids(t.rows[i]) <==> Listed(x) && Names(t.rows[i], x)
  {
    var r := t.rows[i];
    var a, d := Cell(r, AgreeColumn), Cell(r, DisagreeColumn);
    assert Strip(a) == a && Strip(d) == d;
    TrimmedCell(a, d);
    TrimmedCell(d, a);
    CheckedRowOrcids(r, x);
  }

  // ---------------------------------------------------------------- pages

  /** A contributor's page: its table rows and its notes and publications sections. */
  datatype Page = Page(rows: seq<Row>, notes: string, publications: string)

  /** One table row of a page: numbered note, numbered publications after the Agree ORCID, linked contributor, no Publications column. */
  function PageRow(r: Row, noteNumbers: map<string, string>, pubNumbers: map<string, string>): (p: Row)
    ensures PublicationsColumn !in p && NotesColumn in p && AgreeColumn in p && ContributorColumn in p
    ensures p[ContributorColumn] == OrcidLink(Cell(r, ContributorColumn))
    ensures p[AgreeColumn] == AgreeWithNumbers(Cell(r, PublicationsColumn), Cell(r, AgreeColumn), pubNumbers)
    ensures Cell(r, NotesColumn) in noteNumbers ==> p[NotesColumn] == noteNumbers[Cell(r, NotesColumn)]
  {
    var note := Cell(r, NotesColumn);
    Rewritten(r, if note in noteNumbers then noteNumbers[note] else note,
      AgreeWithNumbers(Cell(r, PublicationsColumn), Cell(r, AgreeColumn), pubNumbers),
      OrcidLink(Cell(r, ContributorColumn)))
  }

  /** The row without its Publications column and with new Notes, Agree and Contributor cells. */
  function Rewritten(r: Row, note: string, agree: string, contributor: string): (p: Row)
    ensures PublicationsColumn !in p
    ensures NotesColumn in p && p[NotesColumn] == note
    ensures AgreeColumn in p && p[AgreeColumn] == agree
    ensures ContributorColumn in p && p[ContributorColumn] == contributor
    ensures forall c :: c in r && c !in {PublicationsColumn, NotesColumn, AgreeColumn, ContributorColumn} ==> c in p && p[c] == r[c]
  {
    ColumnsDistinct();
    (r - {PublicationsColumn})[NotesColumn := note][AgreeColumn := agree][ContributorColumn := contributor]
  }

  lemma ColumnsDistinct()
    ensures PublicationsColumn != NotesColumn && PublicationsColumn != AgreeColumn && PublicationsColumn != ContributorColumn
    ensures NotesColumn != AgreeColumn && NotesColumn != ContributorColumn && AgreeColumn != ContributorColumn
  {
    assert PublicationsColumn[0] == 'P' && NotesColumn[0] == 'N' && AgreeColumn[0] == 'A' && ContributorColumn[0] == 'C';
  }

  predicate NamesContributor(orcid: string, r: Row) {
    Names(r, orcid)
  }

  /** The rows of a pair that name the contributor, in table order. */
  function ContributorRows(t: Table, pair: (string, string), orcid: string): (rows: seq<Row>)
    ensures forall r :: r in rows <==> r in t.rows && Reagents.PairOf(r) == pair && Names(r, orcid)
  {
    Filter(PairRows(t, pair), r => NamesContributor(orcid, r))
  }

  function NotesOf(rows: seq<Row>): (r: seq<string>)
    ensures |r| == |rows| && forall k :: 0 <= k < |rows| ==> r[k] == Cell(rows[k], NotesColumn)
  {
    seq(|rows|, k requires 0 <= k < |rows| => Cell(rows[k], NotesColumn))
  }

  function PublicationsOf(rows: seq<Row>): (r: seq<string>)
    ensures |r| == |rows| && forall k :: 0 <= k < |rows| ==> r[k] == Cell(rows[k], PublicationsColumn)
  {
    seq(|rows|, k requires 0 <= k < |rows| => Cell(rows[k], PublicationsColumn))
  }

  /** The page built from a contributor's rows (`create_md_files`, inside its loop over ORCIDs). */
  function PageOf(rows: seq<Row>, contents: map<string, string>): (pg: Page)
    ensures |pg.rows| == |rows|
  {
    var notes := NotesList(NotesOf(rows));
    var pubs := PublicationsList(PublicationsOf(rows), contents);
    Page(PageRows(rows, NoteLabels(rows), PublicationLabels(rows, contents)), NotesSection(notes), PublicationsSection(pubs, contents))
  }

  function PageRows(rows: seq<Row>, noteNumbers: map<string, string>, pubNumbers: map<string, string>): (r: seq<Row>)
    ensures |r| == |rows|
    ensures forall k :: 0 <= k < |rows| ==> r[k] == PageRow(rows[k], noteNumbers, pubNumbers)
  {
    seq(|rows|, k requires 0 <= k < |rows| => PageRow(rows[k], noteNumbers, pubNumbers))
  }

  function NoteLabels(rows: seq<Row>): map<string, string> {
    Numbering(NotesList(NotesOf(rows)), NotesAnchor)
  }

  function PublicationLabels(rows: seq<Row>, contents: map<string, string>): map<string, string> {
    Numbering(PublicationsList(PublicationsOf(rows), contents), PublicationsAnchor)
  }

  lemma PageRowAt(rows: seq<Row>, contents: map<string, string>, k: nat)
    requires k < |rows|
    ensures PageOf(rows, contents).rows[k] == PageRow(rows[k], NoteLabels(rows), PublicationLabels(rows, contents))
  {
  }

  /** The page of one contributor of one pair. */
  function ContributorPage(t: Table, pair: (string, string), orcid: string, contents: map<string, string>): (pg: Page)
    ensures |pg.rows| == |ContributorRows(t, pair, orcid)|
  {
    PageOf(ContributorRows(t, pair, orcid), contents)
  }

  /** The notes section holds nothing but its anchor exactly when every note of the rows is blank. */
  lemma PageNotesEmpty(rows: seq<Row>, contents: map<string, string>)
    ensures PageOf(rows, contents).notes == NotesHeader <==> forall k :: 0 <= k < |rows| ==> IsBlank(Cell(rows[k], NotesColumn))
  {
    PageSections(rows, contents);
    HeaderOnlyIffBlank(rows);
  }

  /** The notes section of some rows is only its anchor exactly when every note is blank. */
  lemma HeaderOnlyIffBlank(rows: seq<Row>)
    ensures NotesSection(NotesList(NotesOf(rows))) == NotesHeader <==> forall k :: 0 <= k < |rows| ==> IsBlank(Cell(rows[k], NotesColumn))
  {
    var ns := NotesOf(rows);
    NotesListEmpty(ns);
    NotesSectionEmpty(NotesList(ns));
    assert forall k :: 0 <= k < |rows| ==> ns[k] == Cell(rows[k], NotesColumn);
  }

  lemma NotesSectionEmpty(notes: seq<string>)
    ensures NotesSection(notes) == NotesHeader <==> notes == []
  {
  }

  /** The two sections of a page are built from the rows' notes and publications. */
  lemma PageSections(rows: seq<Row>, contents: map<string, string>)
    ensures PageOf(rows, contents).notes == NotesSection(NotesList(NotesOf(rows)))
    ensures PageOf(rows, contents).publications == PublicationsSection(PublicationsList(PublicationsOf(rows), contents), contents)
  {
  }

  lemma NotesListEmpty(ns: seq<string>)
    ensures NotesList(ns) == [] <==> forall k :: 0 <= k < |ns| ==> IsBlank(ns[k])
  {
    var notes := NotesList(ns);
    if notes != [] {
      assert notes[0] in notes;
    }
    forall k | 0 <= k < |ns| && !IsBlank(ns[k]) ensures notes != [] {
      assert ns[k] in ns;
      assert ns[k] in notes;
    }
  }

  /** The publications section is empty exactly when no non-empty publication of the rows has a description. */
  lemma PagePublicationsEmpty(rows: seq<Row>, contents: map<string, string>)
    ensures PageOf(rows, contents).publications == "" <==>
      forall x :: x in CellPieces(PublicationsOf(rows)) && x != "" ==> x !in contents
  {
    var pubs := PublicationsList(PublicationsOf(rows), contents);
    PageSections(rows, contents);
    if pubs != [] { assert pubs[0] in pubs; }
  }

  /**
   Every row of a page still yields that row's Agree ORCID to the identifier
   search, with or without publication numbers after it.
   */
  lemma PageAgreeReadBack(rows: seq<Row>, contents: map<string, string>, k: nat)
    requires k < |rows| && IsOrcid(Cell(rows[k], AgreeColumn))
    ensures FindOrcids(PageOf(rows, contents).rows[k][AgreeColumn]) == [Cell(rows[k], AgreeColumn)]
  {
    var pubs := PublicationsList(PublicationsOf(rows), contents);
    var pubNumbers := PublicationLabels(rows, contents);
    NumberingHyphenFree(pubs, PublicationsAnchor);
    PageRowAt(rows, contents, k);
    AgreeCellReadBack(Cell(rows[k], PublicationsColumn), Cell(rows[k], AgreeColumn), pubNumbers);
  }

  /** A row's non-blank note is replaced by the link to that note's number in the notes section. */
  lemma PageNoteNumbered(rows: seq<Row>, contents: map<string, string>, k: nat)
    requires k < |rows| && !IsBlank(Cell(rows[k], NotesColumn))
    ensures exists j :: (0 <= j < |NotesList(NotesOf(rows))|
      && NotesList(NotesOf(rows))[j] == Cell(rows[k], NotesColumn)
      && PageOf(rows, contents).rows[k][NotesColumn] == Label(j + 1, NotesAnchor))
  {
    var notes := NotesList(NotesOf(rows));
    var note := Cell(rows[k], NotesColumn);
    assert NotesOf(rows)[k] == note;
    assert note in notes;
    var j :| 0 <= j < |notes| && notes[j] == note;
    NumberingPositions(notes, NotesAnchor, j);
    PageRowAt(rows, contents, k);
  }
}

=== FILE: tables.dfy ===
/**
 The in-memory shape of a CSV file read with `dtype=str, keep_default_na=False`:
 a set of column headings and a sequence of rows, each row mapping every
 heading to its cell text. Row numbers reported to users are spreadsheet
 numbers: the 0-based row index plus 2 (one for the header, one for 1-based
 counting).
 */
module Tables {
  import opened Text

  type Row = map<string, string>

  /** How a script ends: it returns an exit code, or a Python exception escapes it. */
  datatype Outcome = Returned(code: int) | Raised(error: string)

  datatype Table = Table(columns: set<string>, rows: seq<Row>)

  /** Every row has exactly the table's columns. */
  predicate WellFormed(t: Table) {
    forall i :: 0 <= i < |t.rows| ==> t.rows[i].Keys == t.columns
  }

  /** Offset from a 0-based row index to the row number a spreadsheet shows. */
  const ShiftIndex: nat := 2

  /** The cell of column `c`, or `""` for a row without that column. */
  function Cell(r: Row, c: string): string {
    if c in r then r[c] else ""
  }

  /** The cells of column `c`, top to bottom. */
  function Column(t: Table, c: string): (vals: seq<string>)
    requires WellFormed(t) && c in t.columns
    ensures |vals| == |t.rows|
    ensures forall i :: 0 <= i < |vals| ==> vals[i] == t.rows[i][c]
  {
    seq(|t.rows|, i requires 0 <= i < |t.rows| => t.rows[i][c])
  }

  /** The cells of column `c`, top to bottom, with `""` for rows without it. */
  function CellsOf(rows: seq<Row>, c: string): (r: seq<string>)
    ensures |r| == |rows| && forall k :: 0 <= k < |rows| ==> r[k] == Cell(rows[k], c)
  {
    seq(|rows|, k requires 0 <= k < |rows| => Cell(rows[k], c))
  }

  /** Spreadsheet numbers of the rows (from index `from` on) that satisfy `p`, in order. */
  function RowNumbersFrom(rows: seq<Row>, p: Row -> bool, from: nat): (r: seq<nat>)
    requires from <= |rows|
    ensures forall n :: n in r <==> exists i :: from <= i < |rows| && n == i + ShiftIndex && p(rows[i])
    decreases |rows| - from
  {
    if from == |rows| then []
    else
      var rest := RowNumbersFrom(rows, p, from + 1);
      if p(rows[from]) then [from + ShiftIndex] + rest else rest
  }

  /** Spreadsheet numbers of all rows that satisfy `p`, top to bottom. */
  function RowNumbers(rows: seq<Row>, p: Row -> bool): (r: seq<nat>)
    ensures forall n :: n in r <==> exists i :: 0 <= i < |rows| && n == i + ShiftIndex && p(rows[i])
  {
    RowNumbersFrom(rows, p, 0)
  }

  /** No row number is reported exactly when no row satisfies `p`. */
  lemma RowNumbersEmpty(rows: seq<Row>, p: Row -> bool)
    ensures RowNumbers(rows, p) == [] <==> forall i :: 0 <= i < |rows| ==> !p(rows[i])
  {
    var r := RowNumbers(rows, p);
    if r != [] {
      assert r[0] in r;
    } else {
      assert forall i :: 0 <= i < |rows| && p(rows[i]) ==> i + ShiftIndex in r;
    }
  }

  /**
   A reagent multi-value cell as a list: split on `;`, strip each piece,
   and drop the pieces that are empty or `"NA"`.
   */
  function ParseOrcidList(cell: string): (r: seq<string>)
    ensures forall k :: 0 <= k < |r| ==> r[k] != "" && r[k] != "NA" && ';' !in r[k]
  {
    DropNA(StrippedPieces(cell, ';'))
  }

  function DropNA(ps: seq<string>): (r: seq<string>)
    ensures forall x :: x in r <==> x in ps && x != "NA"
    ensures forall k :: 0 <= k < |r| ==> r[k] in ps && r[k] != "NA"
  {
    if |ps| == 0 then []
    else if ps[0] == "NA" then DropNA(ps[1..])
    else [ps[0]] + DropNA(ps[1..])
  }

  /** A value belongs to the parsed list exactly when it is a stripped piece of the cell other than `""` and `"NA"`. */
  lemma ParseOrcidListMembers(cell: string, x: string)
    ensures x in ParseOrcidList(cell) <==>
      x != "" && x != "NA" && StripsTo(Split(cell, ';'), x)
  {
    var ps := Split(cell, ';');
    NonEmptyStrippedMembers(ps, ';', x);
    var sp := StrippedPieces(cell, ';');
    assert sp == NonEmptyStripped(ps, ';');
    assert x in DropNA(sp) <==> x in sp && x != "NA";
    assert ParseOrcidList(cell) == DropNA(sp);
  }

  /** Joining separator-free values with `;` and parsing gives them back. */
  lemma ParseOrcidListRoundTrip(xs: seq<string>)
    requires |xs| >= 1
    requires forall k :: 0 <= k < |xs| ==> xs[k] != "" && xs[k] != "NA" && ';' !in xs[k]
    requires forall k :: 0 <= k < |xs| ==> Strip(xs[k]) == xs[k]
    ensures ParseOrcidList(Join(";", xs)) == xs
  {
    SplitJoin(xs, ';');
    assert [';'] == ";";
    NonEmptyStrippedIdentity(xs);
  }

  lemma {:induction false} NonEmptyStrippedIdentity(xs: seq<string>)
    requires forall k :: 0 <= k < |xs| ==> xs[k] != "" && xs[k] != "NA" && ';' !in xs[k]
    requires forall k :: 0 <= k < |xs| ==> Strip(xs[k]) == xs[k]
    ensures NonEmptyStripped(xs, ';') == xs
    ensures DropNA(xs) == xs
    decreases |xs|
  {
    if |xs| > 0 {
      NonEmptyStrippedIdentity(xs[1..]);
      assert xs == [xs[0]] + xs[1..];
    }
  }
}

=== FILE: text.dfy ===
/**
 Python string primitives used by every script of the knowledge-base
 utilities: whitespace stripping, `str.split(sep)`, `str.split()`,
 `sep.join(parts)`, `str.replace`, `str(n)` for naturals and the code-point
 ordering of strings. Whitespace is the ASCII part of Python's `str.isspace`.
 */
module Text {

  /** ASCII characters for which Python's `str.isspace` holds. */
  predicate IsSpace(c: char) {
    c == ' ' || c == '\t' || c == '\n' || c == '\r' || c == '\U{0B}' || c == '\U{0C}'
    || c == '\U{1C}' || c == '\U{1D}' || c == '\U{1E}' || c == '\U{1F}'
  }

  predicate AllSpace(s: string) {
    forall i :: 0 <= i < |s| ==> IsSpace(s[i])
  }

  function TrimLeft(s: string): (r: string)
    ensures |r| <= |s| && r == s[|s| - |r|..]
    ensures AllSpace(s[..|s| - |r|])
    ensures |r| > 0 ==> !IsSpace(r[0])
  {
    if |s| > 0 && IsSpace(s[0]) then TrimLeft(s[1..]) else s
  }

  function TrimRight(s: string): (r: string)
    ensures |r| <= |s| && r == s[..|r|]
    ensures AllSpace(s[|r|..])
    ensures |r| > 0 ==> !IsSpace(r[|r| - 1])
  {
    if |s| > 0 && IsSpace(s[|s| - 1]) then TrimRight(s[..|s| - 1]) else s
  }

  /** Python `s.strip()`: `s` without the whitespace at either end. */
  function Strip(s: string): (r: string)
    ensures |r| <= |s|
    ensures |r| > 0 ==> !IsSpace(r[0]) && !IsSpace(r[|r| - 1])
    ensures forall c :: c in r ==> c in s
  {
    var l := TrimLeft(s);
    var r := TrimRight(l);
    assert forall c :: c in r ==> c in l;
    r
  }

  /** A cell is blank when `s.strip() == ""`. */
  predicate IsBlank(s: string) {
    Strip(s) == ""
  }

  lemma AllSpaceSplit(s: string, k: nat)
    requires k <= |s|
    ensures AllSpace(s) <==> AllSpace(s[..k]) && AllSpace(s[k..])
  {
    if AllSpace(s[..k]) && AllSpace(s[k..]) {
      forall i | 0 <= i < |s| ensures IsSpace(s[i]) {
        if i < k { assert s[..k][i] == s[i]; } else { assert s[k..][i - k] == s[i]; }
      }
    }
  }

  /** `strip` leaves nothing exactly when every character is whitespace. */
  lemma BlankIffAllSpace(s: string)
    ensures IsBlank(s) <==> AllSpace(s)
  {
    var l := TrimLeft(s);
    var r := TrimRight(l);
    AllSpaceSplit(s, |s| - |l|);
    AllSpaceSplit(l, |r|);
  }

  /** A string with no whitespace at either end is its own strip. */
  lemma StripOfTrimmed(s: string)
    requires |s| > 0 ==> !IsSpace(s[0]) && !IsSpace(s[|s| - 1])
    ensures Strip(s) == s
  {
  }

  /** Python `s.split(sep)` for a one-character separator: never empty, no piece holds `sep`. */
  function Split(s: string, sep: char): (r: seq<string>)
    ensures |r| >= 1
    ensures forall k :: 0 <= k < |r| ==> sep !in r[k]
  {
    if |s| == 0 then [""]
    else
      var rest := Split(s[1..], sep);
      if s[0] == sep then [""] + rest else [[s[0]] + rest[0]] + rest[1..]
  }

  /** Python `sep.join(parts)`. */
  function Join(sep: string, parts: seq<string>): string {
    if |parts| == 0 then ""
    else if |parts| == 1 then parts[0]
    else parts[0] + sep + Join(sep, parts[1..])
  }

  lemma JoinCons(sep: string, p: string, ps: seq<string>)
    requires |ps| >= 1
    ensures Join(sep, [p] + ps) == p + sep + Join(sep, ps)
  {
    assert ([p] + ps)[1..] == ps;
  }

  /** The first part, then the separator and the rest joined. */
  lemma JoinFirst(sep: string, ps: seq<string>)
    requires |ps| >= 2
    ensures Join(sep, ps) == ps[0] + (sep + Join(sep, ps[1..]))
  {
    assert ps[0] + sep + Join(sep, ps[1..]) == ps[0] + (sep + Join(sep, ps[1..]));
  }

  /** What a loop that appends `p + sep` for every piece `p` builds. */
  function Accumulated(sep: string, ps: seq<string>): string
    decreases |ps|
  {
    if |ps| == 0 then "" else Accumulated(sep, ps[..|ps| - 1]) + ps[|ps| - 1] + sep
  }

  /**
   The scripts' loop idiom: `for p in ps[0:-1]: s += p + sep`, then
   `s += ps[-1]`. Whatever follows the accumulated pieces is joined on as one
   more piece, so the idiom computes `sep.join(ps)`.
   */
  lemma {:induction false} AccumulatedJoin(sep: string, ps: seq<string>, x: string)
    ensures Accumulated(sep, ps) + x == Join(sep, ps + [x])
    decreases |ps|
  {
    if |ps| > 0 {
      var init, last := ps[..|ps| - 1], ps[|ps| - 1];
      AccumulatedJoin(sep, init, last);
      assert init + [last] == ps;
      JoinSnoc(sep, ps, x);
    } else {
      assert ps + [x] == [x];
    }
  }

  /** The loop idiom over a non-empty list of pieces. */
  function JoinedByLoop(sep: string, ps: seq<string>): (r: string)
    requires |ps| >= 1
    ensures r == Join(sep, ps)
  {
    AccumulatedJoin(sep, ps[..|ps| - 1], ps[|ps| - 1]);
    assert ps[..|ps| - 1] + [ps[|ps| - 1]] == ps;
    Accumulated(sep, ps[..|ps| - 1]) + ps[|ps| - 1]
  }

  lemma {:induction false} JoinSnoc(sep: string, ps: seq<string>, x: string)
    requires |ps| >= 1
    ensures Join(sep, ps + [x]) == Join(sep, ps) + sep + x
    decreases |ps|
  {
    if |ps| == 1 {
      assert ps + [x] == [ps[0]] + [x];
      JoinCons(sep, ps[0], [x]);
    } else {
      assert ps + [x] == [ps[0]] + (ps[1..] + [x]);
      JoinCons(sep, ps[0], ps[1..] + [x]);
      JoinSnoc(sep, ps[1..], x);
      JoinCons(sep, ps[0], ps[1..]);
      assert ps == [ps[0]] + ps[1..];
    }
  }

  /** Joining the pieces of a split with the separator gives the original string back. */
  lemma {:induction false} JoinSplit(s: string, sep: char)
    ensures Join([sep], Split(s, sep)) == s
    decreases |s|
  {
    if |s| > 0 {
      var rest := Split(s[1..], sep);
      JoinSplit(s[1..], sep);
      if s[0] == sep {
        JoinCons([sep], "", rest);
        assert s == [s[0]] + s[1..];
      } else if |rest| == 1 {
        assert s == [s[0]] + s[1..];
      } else {
        JoinCons([sep], [s[0]] + rest[0], rest[1..]);
        assert rest == [rest[0]] + rest[1..];
        JoinCons([sep], rest[0], rest[1..]);
        assert s == [s[0]] + s[1..];
      }
    }
  }

  /** Splitting a join of separator-free pieces gives the pieces back. */
  lemma {:induction false} SplitJoin(ps: seq<string>, sep: char)
    requires |ps| >= 1
    requires forall k :: 0 <= k < |ps| ==> sep !in ps[k]
    ensures Split(Join([sep], ps), sep) == ps
    decreases |ps|, |ps[0]|
  {
    if |ps| == 1 {
      SplitNoSep(ps[0], sep);
    } else if |ps[0]| == 0 {
      var rest := ps[1..];
      SplitJoin(rest, sep);
      assert Join([sep], ps) == [sep] + Join([sep], rest);
      assert (([sep] + Join([sep], rest))[1..]) == Join([sep], rest);
    } else {
      var p' := ps[0][1..];
      var ps' := [p'] + ps[1..];
      assert ps'[1..] == ps[1..];
      assert sep !in p' by { assert forall c :: c in p' ==> c in ps[0]; }
      SplitJoin(ps', sep);
      assert Join([sep], ps) == [ps[0][0]] + Join([sep], ps');
      assert ([ps[0][0]] + Join([sep], ps'))[1..] == Join([sep], ps');
      assert ps[0] == [ps[0][0]] + p';
      assert ps == [[ps[0][0]] + p'] + ps[1..];
    }
  }

  lemma {:induction false} SplitNoSep(s: string, sep: char)
    requires sep !in s
    ensures Split(s, sep) == [s]
    decreases |s|
  {
    if |s| > 0 {
      assert sep !in s[1..] by { assert forall c :: c in s[1..] ==> c in s; }
      SplitNoSep(s[1..], sep);
      assert s == [s[0]] + s[1..];
    }
  }

  /** Number of occurrences of `c` in `s`. */
  function Occurrences(s: string, c: char): (n: nat)
    ensures n == 0 <==> c !in s
  {
    if |s| == 0 then 0
    else
      assert c in s <==> s[0] == c || c in s[1..] by { assert s == [s[0]] + s[1..]; }
      (if s[0] == c then 1 else 0) + Occurrences(s[1..], c)
  }

  /** `s.split(sep)` has one piece more than `s` has separators. */
  lemma {:induction false} SplitCount(s: string, sep: char)
    ensures |Split(s, sep)| == Occurrences(s, sep) + 1
    decreases |s|
  {
    if |s| > 0 { SplitCount(s[1..], sep); }
  }

  /** The stripped, non-blank pieces of `s.split(sep)`, in order. */
  function StrippedPieces(s: string, sep: char): (r: seq<string>)
    ensures forall k :: 0 <= k < |r| ==> r[k] != "" && sep !in r[k]
  {
    NonEmptyStripped(Split(s, sep), sep)
  }

  function NonEmptyStripped(ps: seq<string>, sep: char): (r: seq<string>)
    requires forall k :: 0 <= k < |ps| ==> sep !in ps[k]
    ensures forall k :: 0 <= k < |r| ==> r[k] != "" && sep !in r[k]
  {
    if |ps| == 0 then []
    else
      var t := Strip(ps[0]);
      var rest := NonEmptyStripped(ps[1..], sep);
      if t == "" then rest else [t] + rest
  }

  /** The kept pieces are exactly the non-empty strips of the input pieces. */
  lemma {:induction false} NonEmptyStrippedMembers(ps: seq<string>, sep: char, x: string)
    requires forall k :: 0 <= k < |ps| ==> sep !in ps[k]
    ensures x in NonEmptyStripped(ps, sep) <==> x != "" && StripsTo(ps, x)
    decreases |ps|
  {
    if |ps| > 0 {
      NonEmptyStrippedMembers(ps[1..], sep, x);
      StripsToCons(ps, x);
    }
  }

  lemma StripsToCons(ps: seq<string>, x: string)
    requires |ps| > 0
    ensures StripsTo(ps, x) <==> Strip(ps[0]) == x || StripsTo(ps[1..], x)
  {
    if StripsTo(ps, x) {
      var k :| 0 <= k < |ps| && Strip(ps[k]) == x;
      if k > 0 { assert ps[1..][k - 1] == ps[k]; }
    }
    if StripsTo(ps[1..], x) {
      var k :| 0 <= k < |ps[1..]| && Strip(ps[1..][k]) == x;
      assert ps[k + 1] == ps[1..][k];
    }
  }

  /** Pieces that are already stripped and non-empty are kept as they are. */
  lemma {:induction false} NonEmptyStrippedOfTrimmed(ps: seq<string>, sep: char)
    requires forall k :: 0 <= k < |ps| ==> sep !in ps[k] && ps[k] != "" && Strip(ps[k]) == ps[k]
    ensures NonEmptyStripped(ps, sep) == ps
    decreases |ps|
  {
    if |ps| > 0 {
      NonEmptyStrippedOfTrimmed(ps[1..], sep);
      assert ps == [ps[0]] + ps[1..];
    }
  }

  /** Some piece of `ps` strips to `x`. */
  predicate StripsTo(ps: seq<string>, x: string) {
    exists k :: 0 <= k < |ps| && Strip(ps[k]) == x
  }

  /** The stripped pieces of `c.split(sep)` over all cells `c`, blank pieces included. */
  function StrippedPieceSet(cells: seq<string>, sep: char): set<string> {
    if |cells| == 0 then {}
    else (set p | p in Split(cells[0], sep) :: Strip(p)) + StrippedPieceSet(cells[1..], sep)
  }

  /** A string is in the piece set exactly when some piece of some cell strips to it. */
  lemma {:induction false} StrippedPieceSetMembers(cells: seq<string>, sep: char, x: string)
    ensures x in StrippedPieceSet(cells, sep) <==> exists k :: 0 <= k < |cells| && StripsTo(Split(cells[k], sep), x)
    decreases |cells|
  {
    if |cells| > 0 {
      var ps := Split(cells[0], sep);
      if StripsTo(ps, x) {
        var k :| 0 <= k < |ps| && Strip(ps[k]) == x;
        assert ps[k] in ps;
      }
      StrippedPieceSetMembers(cells[1..], sep, x);
      if exists k :: 1 <= k < |cells| && StripsTo(Split(cells[k], sep), x) {
        var k :| 1 <= k < |cells| && StripsTo(Split(cells[k], sep), x);
        assert cells[1..][k - 1] == cells[k];
      }
      if exists k :: 0 <= k < |cells[1..]| && StripsTo(Split(cells[1..][k], sep), x) {
        var k :| 0 <= k < |cells[1..]| && StripsTo(Split(cells[1..][k], sep), x);
        assert cells[1..][k] == cells[k + 1];
      }
    }
  }

  /** Index of the first whitespace character of `s`, or `|s|`. */
  function WordEnd(s: string): (k: nat)
    ensures k <= |s|
    ensures forall i :: 0 <= i < k ==> !IsSpace(s[i])
    ensures k < |s| ==> IsSpace(s[k])
  {
    if |s| == 0 || IsSpace(s[0]) then 0 else 1 + WordEnd(s[1..])
  }

  predicate IsWord(w: string) {
    |w| > 0 && forall i :: 0 <= i < |w| ==> !IsSpace(w[i])
  }

  /** Python `s.split()`: the maximal runs of non-whitespace characters. */
  function Words(s: string): (r: seq<string>)
    ensures forall k :: 0 <= k < |r| ==> IsWord(r[k])
    decreases |s|
  {
    var t := TrimLeft(s);
    if t == "" then []
    else
      var k := WordEnd(t);
      assert k > 0;
      PrefixIsWord(t, k);
      var rest := Words(t[k..]);
      ConsWords(t[..k], rest);
      [t[..k]] + rest
  }

  lemma PrefixIsWord(t: string, k: nat)
    requires 0 < k <= |t|
    requires forall i :: 0 <= i < k ==> !IsSpace(t[i])
    ensures IsWord(t[..k])
  {
    forall i | 0 <= i < k ensures !IsSpace(t[..k][i]) { assert t[..k][i] == t[i]; }
  }

  lemma ConsWords(w: string, rest: seq<string>)
    requires IsWord(w)
    requires forall k :: 0 <= k < |rest| ==> IsWord(rest[k])
    ensures forall k :: 0 <= k < |[w] + rest| ==> IsWord(([w] + rest)[k])
  {
    assert forall i :: 0 <= i < |rest| ==> ([w] + rest)[i + 1] == rest[i];
  }

  lemma {:induction false} WordEndOfWord(w: string, rest: string)
    requires IsWord(w)
    requires |rest| == 0 || IsSpace(rest[0])
    ensures WordEnd(w + rest) == |w|
    decreases |w|
  {
    if |w| > 1 {
      assert (w + rest)[1..] == w[1..] + rest;
      WordEndOfWord(w[1..], rest);
    } else {
      assert (w + rest)[1..] == rest;
    }
  }

  /** A word followed by nothing or by whitespace is the first word. */
  lemma WordsCons(w: string, rest: string)
    requires IsWord(w)
    requires |rest| == 0 || IsSpace(rest[0])
    ensures Words(w + rest) == [w] + Words(rest)
  {
    var s := w + rest;
    assert TrimLeft(s) == s;
    WordEndOfWord(w, rest);
    assert s[..|w|] == w;
    assert s[|w|..] == rest;
  }

  /** Words joined by single spaces split back into the same words. */
  lemma {:induction false} WordsJoin(ws: seq<string>)
    requires forall k :: 0 <= k < |ws| ==> IsWord(ws[k])
    ensures Words(Join(" ", ws)) == ws
    decreases |ws|
  {
    if |ws| == 1 {
      WordsOfWord(ws[0]);
    } else if |ws| > 1 {
      WordsJoin(ws[1..]);
      WordsJoinCons(ws[0], ws[1..]);
      assert ws == [ws[0]] + ws[1..];
    }
  }

  lemma WordsOfWord(w: string)
    requires IsWord(w)
    ensures Words(w) == [w]
  {
    WordsCons(w, "");
    assert w + "" == w;
  }

  lemma WordsJoinCons(w: string, rest: seq<string>)
    requires IsWord(w) && |rest| >= 1
    requires forall k :: 0 <= k < |rest| ==> IsWord(rest[k])
    ensures Words(Join(" ", [w] + rest)) == [w] + Words(Join(" ", rest))
  {
    JoinCons(" ", w, rest);
    JoinStartsWithWord(rest);
    WordsAfterWord(w, Join(" ", rest));
  }

  /** A word, a space and a text that starts with a word split into that word and the text's words. */
  lemma WordsAfterWord(w: string, tail: string)
    requires IsWord(w) && |tail| > 0 && !IsSpace(tail[0])
    ensures Words(w + " " + tail) == [w] + Words(tail)
  {
    assert w + " " + tail == w + (" " + tail);
    WordsCons(w, " " + tail);
    WordsSpacePrefix(tail);
  }

  lemma WordsSpacePrefix(t: string)
    requires |t| > 0 && !IsSpace(t[0])
    ensures Words(" " + t) == Words(t)
  {
    assert (" " + t)[1..] == t;
    assert TrimLeft(" " + t) == TrimLeft(t);
  }

  lemma JoinStartsWithWord(ws: seq<string>)
    requires |ws| >= 1
    requires forall k :: 0 <= k < |ws| ==> IsWord(ws[k])
    ensures |Join(" ", ws)| > 0 && !IsSpace(Join(" ", ws)[0])
  {
  }

  /** Python `s.split(pat)` for a non-empty separator string: leftmost, non-overlapping. */
  function SplitOn(s: string, pat: string): (r: seq<string>)
    requires |pat| > 0
    ensures |r| >= 1
    decreases |s|
  {
    if |s| < |pat| then [s]
    else if s[..|pat|] == pat then [""] + SplitOn(s[|pat|..], pat)
    else
      var rest := SplitOn(s[1..], pat);
      [[s[0]] + rest[0]] + rest[1..]
  }

  /** Python `s.replace(pat, rep)` for a non-empty pattern: left-to-right, non-overlapping. */
  function ReplaceAll(s: string, pat: string, rep: string): string
    requires |pat| > 0
    decreases |s|
  {
    if |s| < |pat| then s
    else if s[..|pat|] == pat then rep + ReplaceAll(s[|pat|..], pat, rep)
    else [s[0]] + ReplaceAll(s[1..], pat, rep)
  }

  /** Rejoining the pieces of `s.split(pat)` with `pat` gives `s` back. */
  lemma {:induction false} JoinSplitOn(s: string, pat: string)
    requires |pat| > 0
    ensures Join(pat, SplitOn(s, pat)) == s
    decreases |s|
  {
    if |s| >= |pat| {
      if s[..|pat|] == pat {
        JoinSplitOn(s[|pat|..], pat);
        JoinCons(pat, "", SplitOn(s[|pat|..], pat));
        assert s == s[..|pat|] + s[|pat|..];
      } else {
        var rest := SplitOn(s[1..], pat);
        JoinSplitOn(s[1..], pat);
        JoinHead(pat, [s[0]], rest);
        assert s == [s[0]] + s[1..];
      }
    }
  }

  /** Prepending text to the first piece prepends it to the join. */
  lemma JoinHead(sep: string, pre: string, ps: seq<string>)
    requires |ps| >= 1
    ensures Join(sep, [pre + ps[0]] + ps[1..]) == pre + Join(sep, ps)
  {
    if |ps| > 1 {
      JoinCons(sep, pre + ps[0], ps[1..]);
      assert ps == [ps[0]] + ps[1..];
      JoinCons(sep, ps[0], ps[1..]);
    }
  }

  /** `s.replace(pat, rep)` rejoins the pieces of `s.split(pat)` with `rep`: only the occurrences of `pat` change. */
  lemma {:induction false} ReplaceAllIsSplitJoin(s: string, pat: string, rep: string)
    requires |pat| > 0
    ensures ReplaceAll(s, pat, rep) == Join(rep, SplitOn(s, pat))
    decreases |s|
  {
    if |s| >= |pat| {
      if s[..|pat|] == pat {
        ReplaceAllIsSplitJoin(s[|pat|..], pat, rep);
        JoinCons(rep, "", SplitOn(s[|pat|..], pat));
      } else {
        ReplaceAllIsSplitJoin(s[1..], pat, rep);
        JoinHead(rep, [s[0]], SplitOn(s[1..], pat));
      }
    }
  }

  /** A string without any occurrence of `pat` is left unchanged by `replace`. */
  lemma {:induction false} ReplaceAllAbsent(s: string, pat: string, rep: string)
    requires |pat| > 0
    requires !Contains(s, pat)
    ensures ReplaceAll(s, pat, rep) == s
    decreases |s|
  {
    if |s| >= |pat| {
      assert !OccursAt(s, pat, 0);
      assert !Contains(s[1..], pat) by {
        forall i: nat | i <= |s[1..]| && OccursAt(s[1..], pat, i) ensures OccursAt(s, pat, i + 1) {
          assert s[1..][i..i + |pat|] == s[i + 1..i + 1 + |pat|];
        }
      }
      ReplaceAllAbsent(s[1..], pat, rep);
      assert s == [s[0]] + s[1..];
    }
  }

  /** `s` contains `pat` as a contiguous substring. */
  predicate Contains(s: string, pat: string) {
    exists i: nat | i <= |s| :: OccursAt(s, pat, i)
  }

  predicate OccursAt(s: string, pat: string, i: nat) {
    i + |pat| <= |s| && s[i..i + |pat|] == pat
  }

  /** Python `str(n)` for a natural number. */
  function NatToString(n: nat): (r: string)
    ensures Numeral(r)
  {
    if n < 10 then [Digit(n)] else NatToString(n / 10) + [Digit(n % 10)]
  }

  function Digit(d: nat): (c: char)
    requires d < 10
    ensures '0' <= c <= '9'
    ensures DigitValue(c) == d
  {
    ['0', '1', '2', '3', '4', '5', '6', '7', '8', '9'][d]
  }

  /** The value of a decimal digit character. */
  function DigitValue(c: char): int {
    c as int - '0' as int
  }

  /** The number a string of decimal digits denotes, most significant digit first. */
  function DigitsValue(s: string): int
    decreases |s|
  {
    if |s| == 0 then 0 else 10 * DigitsValue(s[..|s| - 1]) + DigitValue(s[|s| - 1])
  }

  /** A canonical decimal numeral: digits only, and no leading zero unless it is `"0"`. */
  predicate Numeral(s: string) {
    |s| >= 1 && (forall i :: 0 <= i < |s| ==> '0' <= s[i] <= '9') && (|s| > 1 ==> s[0] != '0')
  }

  /** `str(n)` reads back as `n`. */
  lemma {:induction false} NatToStringValue(n: nat)
    ensures DigitsValue(NatToString(n)) == n
    decreases n
  {
    var r := NatToString(n);
    if n >= 10 {
      NatToStringValue(n / 10);
      assert r[..|r| - 1] == NatToString(n / 10);
    }
  }

  /** Distinct numbers have distinct decimal texts. */
  lemma NatToStringInjective(m: nat, n: nat)
    ensures NatToString(m) == NatToString(n) <==> m == n
  {
    NatToStringValue(m);
    NatToStringValue(n);
  }

  /** Every canonical numeral is `str` of its value. */
  lemma {:induction false} NumeralIsNatToString(s: string)
    requires Numeral(s)
    ensures DigitsValue(s) >= 0 && NatToString(DigitsValue(s)) == s
    decreases |s|
  {
    if |s| > 1 {
      var init := s[..|s| - 1];
      assert Numeral(init) by { assert init[0] == s[0]; }
      NumeralIsNatToString(init);
      DigitsValuePositive(init);
      var n := DigitsValue(s);
      assert n / 10 == DigitsValue(init) && n % 10 == DigitValue(s[|s| - 1]);
      assert Digit(n % 10) == s[|s| - 1];
      assert s == init + [s[|s| - 1]];
    }
  }

  /** A numeral of two or more digits (so with a non-zero lead) denotes at least 1. */
  lemma {:induction false} DigitsValuePositive(s: string)
    requires Numeral(s) && |s| >= 1 && s[0] != '0'
    ensures DigitsValue(s) >= 1
    decreases |s|
  {
    if |s| > 1 {
      var init := s[..|s| - 1];
      assert Numeral(init) && init[0] == s[0];
      DigitsValuePositive(init);
    }
  }

  /** Python's `<=` on strings: code-point lexicographic order. */
  predicate LexLe(a: string, b: string) {
    |a| == 0 || (|b| > 0 && (a[0] < b[0] || (a[0] == b[0] && LexLe(a[1..], b[1..]))))
  }

  lemma {:induction false} LexLeTotal(a: string, b: string)
    ensures LexLe(a, b) || LexLe(b, a)
    decreases |a|
  {
    if |a| > 0 && |b| > 0 && a[0] == b[0] { LexLeTotal(a[1..], b[1..]); }
  }

  lemma {:induction false} LexLeAntisymmetric(a: string, b: string)
    requires LexLe(a, b) && LexLe(b, a)
    ensures a == b
    decreases |a|
  {
    if |a| > 0 {
      LexLeAntisymmetric(a[1..], b[1..]);
      assert a == [a[0]] + a[1..] && b == [b[0]] + b[1..];
    }
  }

  lemma {:induction false} LexLeTransitive(a: string, b: string, c: string)
    requires LexLe(a, b) && LexLe(b, c)
    ensures LexLe(a, c)
    decreases |a|
  {
    if |a| > 0 && a[0] == b[0] && b[0] == c[0] {
      LexLeTransitive(a[1..], b[1..], c[1..]);
    }
  }

  lemma {:induction false} LexLeReflexive(a: string)
    ensures LexLe(a, a)
    decreases |a|
  {
    if |a| > 0 { LexLeReflexive(a[1..]); }
  }
}

=== FILE: validation.dfy ===
/**
 The generic CSV validation shared by the data validation scripts
 (`validate_df` and its helpers): heading checks, whitespace and empty-cell
 checks, duplicate detection in single- and multi-value columns, URL and DOI
 liveness, and allowed-value checks.

 The network is an oracle: `probe(url, allowRedirects)` is what one HEAD
 request to `url` yields.
 */
module Validation {
  import opened Text
  import opened Seqs
  import opened Tables

  // ---------------------------------------------------------------- URLs

  /** What one HTTP request can yield. */
  datatype HttpOutcome = Response(status: int) | TimedOut | RequestFailed

  /** `url_exists`: status 200 or 403 counts as existing, and so does a timeout. */
  predicate UrlExists(o: HttpOutcome) {
    match o
    case Response(status) => status == 200 || status == 403
    case TimedOut => true
    case RequestFailed => false
  }

  /**
   `url_exists_with_retries`: one request plus up to `retries` more, stopping
   at the first that succeeds. `attempt(k)` is what the k-th request yields;
   `made` is the number of requests sent.
   */
  method UrlExistsWithRetries(attempt: nat -> HttpOutcome, retries: nat) returns (ok: bool, made: nat)
    ensures 1 <= made <= retries + 1
    ensures ok <==> exists k :: 0 <= k <= retries && UrlExists(attempt(k))
    ensures ok ==> UrlExists(attempt(made - 1))
    ensures forall k :: 0 <= k < made - 1 ==> !UrlExists(attempt(k))
    ensures !ok ==> made == retries + 1
  {
    made := 1;
    if UrlExists(attempt(0)) {
      return true, made;
    }
    var i := 0;
    while i < retries
      invariant 0 <= i <= retries
      invariant made == i + 1
      invariant forall k :: 0 <= k < made ==> !UrlExists(attempt(k))
    {
      made := made + 1;
      if UrlExists(attempt(i + 1)) {
        return true, made;
      }
      i := i + 1;
    }
    return false, made;
  }

  // ---------------------------------------------------------------- configuration

  /** The keyword arguments of `validate_df`; an absent argument is an empty list or map. */
  datatype Config = Config(
    required: seq<string>,
    optional: seq<string>,
    uniqueSingle: seq<string>,
    uniqueMulti: seq<string>,
    urlColumns: seq<string>,
    multiUrlColumns: seq<string>,
    doiColumns: seq<string>,
    multiDoiColumns: seq<string>,
    allowRedirects: bool,
    columnIsIn: map<string, seq<string>>,
    multiValueColumnIsIn: map<string, seq<string>>)

  const DoiResolver := "https://doi.org/"

  /** Every listed column is a heading of the table. */
  predicate Within(cols: seq<string>, headings: set<string>) {
    forall c :: c in cols ==> c in headings
  }

  /** Every column the configuration names, except the optional ones, is a heading of the table. */
  ghost predicate ColumnsPresent(t: Table, cfg: Config) {
    Within(cfg.required, t.columns) && Within(cfg.uniqueSingle, t.columns) && Within(cfg.uniqueMulti, t.columns)
    && Within(cfg.urlColumns, t.columns) && Within(cfg.multiUrlColumns, t.columns)
    && Within(cfg.doiColumns, t.columns) && Within(cfg.multiDoiColumns, t.columns)
    && cfg.columnIsIn.Keys <= t.columns && cfg.multiValueColumnIsIn.Keys <= t.columns
  }

  // ---------------------------------------------------------------- declarative requirements

  /** No column is both required and optional, and the headings are exactly the configured ones. */
  ghost predicate HeadingsOk(t: Table, cfg: Config) {
    (forall c :: c in cfg.required ==> c !in cfg.optional)
    && (forall c :: c in t.columns ==> c in cfg.required || c in cfg.optional)
    && (forall c :: c in cfg.required || c in cfg.optional ==> c in t.columns)
  }

  ghost predicate NoPadding(t: Table) {
    forall i, c :: 0 <= i < |t.rows| && c in t.rows[i] ==> Strip(t.rows[i][c]) == t.rows[i][c]
  }

  ghost predicate RequiredFilled(t: Table, required: seq<string>) {
    forall i, c :: 0 <= i < |t.rows| && c in required && c in t.rows[i] ==> t.rows[i][c] != ""
  }

  ghost predicate SingleUnique(t: Table, cols: seq<string>) {
    forall c, i, j :: c in cols && 0 <= i < j < |t.rows| && c in t.rows[i] && c in t.rows[j] ==> t.rows[i][c] != t.rows[j][c]
  }

  ghost predicate MultiUnique(t: Table, cols: seq<string>) {
    forall c, i :: c in cols && 0 <= i < |t.rows| && c in t.rows[i] ==> NoDups(StrippedPieces(t.rows[i][c], ';'))
  }

  /** Every value gathered from the columns is a live URL once `prefix` is put in front of it. */
  ghost predicate AllLive(t: Table, single: seq<string>, multi: seq<string>, prefix: string,
                    probe: (string, bool) -> HttpOutcome, allowRedirects: bool)
    requires WellFormed(t) && Within(single, t.columns) && Within(multi, t.columns)
  {
    forall x :: x in MultiColumnData(t, single, multi) ==> UrlExists(probe(prefix + x, allowRedirects))
  }

  ghost predicate ValuesIn(t: Table, m: map<string, seq<string>>) {
    forall c, i :: c in m && 0 <= i < |t.rows| && c in t.rows[i] ==> t.rows[i][c] in m[c]
  }

  ghost predicate PiecesIn(t: Table, m: map<string, seq<string>>) {
    forall c, i, p :: c in m && 0 <= i < |t.rows| && c in t.rows[i] && p in Split(t.rows[i][c], ';') && p != "" ==> p in m[c]
  }

  /** Everything `validate_df` requires of a table whose configured columns are all present. */
  ghost predicate Valid(t: Table, cfg: Config, probe: (string, bool) -> HttpOutcome)
    requires WellFormed(t) && ColumnsPresent(t, cfg)
  {
    HeadingsOk(t, cfg) && NoPadding(t) && RequiredFilled(t, cfg.required)
    && SingleUnique(t, cfg.uniqueSingle) && MultiUnique(t, cfg.uniqueMulti)
    && AllLive(t, cfg.urlColumns, cfg.multiUrlColumns, "", probe, cfg.allowRedirects)
    && AllLive(t, cfg.doiColumns, cfg.multiDoiColumns, DoiResolver, probe, cfg.allowRedirects)
    && ValuesIn(t, cfg.columnIsIn) && PiecesIn(t, cfg.multiValueColumnIsIn)
  }

  // ---------------------------------------------------------------- computations

  /** A cell with leading or trailing whitespace. */
  predicate HasPadding(r: Row) {
    exists c | c in r :: r[c] != Strip(r[c])
  }

  /** pandas `Series.duplicated()`: each value at a position where it already occurred earlier. */
  function Repeats(vals: seq<string>): (r: seq<string>)
  {
    if |vals| == 0 then []
    else
      var init := vals[..|vals| - 1];
      var last := vals[|vals| - 1];
      Repeats(init) + (if last in init then [last] else [])
  }

  lemma {:induction false} RepeatsMembers(vals: seq<string>, v: string)
    ensures v in Repeats(vals) <==> exists i, j :: 0 <= i < j < |vals| && vals[i] == v && vals[j] == v
    decreases |vals|
  {
    if |vals| > 0 {
      var init := vals[..|vals| - 1];
      var last := vals[|vals| - 1];
      RepeatsMembers(init, v);
      if exists i, j :: 0 <= i < j < |vals| && vals[i] == v && vals[j] == v {
        var i, j :| 0 <= i < j < |vals| && vals[i] == v && vals[j] == v;
        if j < |vals| - 1 {
          assert init[i] == v && init[j] == v;
        } else {
          assert init[i] == v;
        }
      }
      if exists i, j :: 0 <= i < j < |init| && init[i] == v && init[j] == v {
        var i, j :| 0 <= i < j < |init| && init[i] == v && init[j] == v;
        assert vals[i] == v && vals[j] == v;
      }
      if last in init && last == v {
        var i :| 0 <= i < |init| && init[i] == last;
        assert vals[i] == v && vals[|vals| - 1] == v;
      }
    }
  }

  /** Nothing is flagged exactly when no value occurs twice. */
  lemma RepeatsEmpty(vals: seq<string>)
    ensures Repeats(vals) == [] <==> NoDups(vals)
  {
    if Repeats(vals) != [] {
      RepeatsMembers(vals, Repeats(vals)[0]);
    }
    if !NoDups(vals) {
      var i, j :| 0 <= i < j < |vals| && vals[i] == vals[j];
      RepeatsMembers(vals, vals[i]);
    }
  }

  /** The set of values `duplicated()` flags, each once, in order of first repetition. */
  function DuplicatedValues(vals: seq<string>): (r: seq<string>)
    ensures NoDups(r)
    ensures forall v :: v in r <==> exists i, j :: 0 <= i < j < |vals| && vals[i] == v && vals[j] == v
  {
    var r := Dedupe(Repeats(vals));
    forall v ensures v in r <==> exists i, j :: 0 <= i < j < |vals| && vals[i] == v && vals[j] == v {
      RepeatsMembers(vals, v);
    }
    r
  }

  /** No value is flagged exactly when no value occurs twice. */
  lemma DuplicatedValuesEmpty(vals: seq<string>)
    ensures DuplicatedValues(vals) == [] <==> NoDups(vals)
  {
    var dups := DuplicatedValues(vals);
    if dups != [] {
      assert dups[0] in dups;
    }
    if !NoDups(vals) {
      var i, j :| 0 <= i < j < |vals| && vals[i] == vals[j];
      assert vals[i] in dups;
    }
  }

  /** One entry of a duplicate report: a value and the spreadsheet rows holding it. */
  datatype DuplicateReport = DuplicateReport(value: string, rows: seq<nat>)

  function ReportsFor(t: Table, c: string, dups: seq<string>): (r: seq<DuplicateReport>)
    ensures |r| == |dups|
    ensures forall k :: 0 <= k < |r| ==> r[k].value == dups[k] && r[k].rows == RowNumbers(t.rows, row => c in row && row[c] == dups[k])
  {
    seq(|dups|, k requires 0 <= k < |dups| => DuplicateReport(dups[k], RowNumbers(t.rows, row => c in row && row[c] == dups[k])))
  }

  /**
   `duplicated_entries_single_value_columns`: for each listed column holding a
   repeated value, the repeated values with the rows that hold them.
   */
  function DuplicateInformation(t: Table, cols: seq<string>): (r: map<string, seq<DuplicateReport>>)
    requires WellFormed(t) && Within(cols, t.columns)
    ensures forall c :: c in r ==> c in cols && |r[c]| > 0
  {
    map c | c in cols && DuplicatedValues(Column(t, c)) != [] :: ReportsFor(t, c, DuplicatedValues(Column(t, c)))
  }

  /** A column is reported exactly when two of its cells are equal. */
  lemma DuplicateInformationKeys(t: Table, cols: seq<string>, c: string)
    requires WellFormed(t) && Within(cols, t.columns)
    ensures c in DuplicateInformation(t, cols) <==>
      c in cols && exists i, j :: 0 <= i < j < |t.rows| && t.rows[i][c] == t.rows[j][c]
  {
    if c in cols {
      var vals := Column(t, c);
      if exists i, j :: 0 <= i < j < |t.rows| && t.rows[i][c] == t.rows[j][c] {
        var i, j :| 0 <= i < j < |t.rows| && t.rows[i][c] == t.rows[j][c];
        assert vals[i] == vals[j];
        assert vals[i] in DuplicatedValues(vals);
      }
      if DuplicatedValues(vals) != [] {
        assert DuplicatedValues(vals)[0] in DuplicatedValues(vals);
      }
    }
  }

  /** A column's reports name exactly its repeated values. */
  lemma DuplicateReportValues(t: Table, cols: seq<string>, c: string, v: string)
    requires WellFormed(t) && Within(cols, t.columns)
    requires c in DuplicateInformation(t, cols)
    ensures (exists k :: 0 <= k < |DuplicateInformation(t, cols)[c]| && DuplicateInformation(t, cols)[c][k].value == v)
      <==> exists i, j :: 0 <= i < j < |t.rows| && t.rows[i][c] == v && t.rows[j][c] == v
  {
    var dups := DuplicatedValues(Column(t, c));
    var reps := DuplicateInformation(t, cols)[c];
    assert reps == ReportsFor(t, c, dups);
    ColumnRepeats(t, c, v);
    if v in dups {
      var k :| 0 <= k < |dups| && dups[k] == v;
      assert reps[k].value == v;
    }
    if exists k :: 0 <= k < |reps| && reps[k].value == v {
      var k :| 0 <= k < |reps| && reps[k].value == v;
      assert dups[k] in dups;
    }
  }

  lemma ColumnRepeats(t: Table, c: string, v: string)
    requires WellFormed(t) && c in t.columns
    ensures v in DuplicatedValues(Column(t, c)) <==> exists i, j :: 0 <= i < j < |t.rows| && t.rows[i][c] == v && t.rows[j][c] == v
  {
    var vals := Column(t, c);
    if exists i, j :: 0 <= i < j < |t.rows| && t.rows[i][c] == v && t.rows[j][c] == v {
      var i, j :| 0 <= i < j < |t.rows| && t.rows[i][c] == v && t.rows[j][c] == v;
      assert vals[i] == v && vals[j] == v;
    }
  }

  /** A report lists exactly the spreadsheet rows holding its value. */
  lemma DuplicateReportRows(t: Table, cols: seq<string>, c: string, k: nat, n: nat)
    requires WellFormed(t) && Within(cols, t.columns)
    requires c in DuplicateInformation(t, cols) && k < |DuplicateInformation(t, cols)[c]|
    ensures n in DuplicateInformation(t, cols)[c][k].rows <==>
      exists i :: 0 <= i < |t.rows| && n == i + ShiftIndex && t.rows[i][c] == DuplicateInformation(t, cols)[c][k].value
  {
    var reps := DuplicateInformation(t, cols)[c];
    assert reps == ReportsFor(t, c, DuplicatedValues(Column(t, c)));
  }

  /** A multi-value cell that names the same stripped value twice. */
  predicate CellRepeats(cell: string) {
    !NoDups(StrippedPieces(cell, ';'))
  }

  /**
   `duplicated_entries_multi_value_columns` as evidently intended: for each
   listed column, the spreadsheet rows whose cell repeats a value.
   */
  function MultiDuplicateInformation(t: Table, cols: seq<string>): (r: map<string, seq<nat>>)
    requires WellFormed(t) && Within(cols, t.columns)
    ensures forall c :: c in r ==> c in cols && |r[c]| > 0
    ensures forall c :: c in r ==> forall n :: n in r[c] <==> exists i :: 0 <= i < |t.rows| && n == i + ShiftIndex && CellRepeats(t.rows[i][c])
  {
    map c | c in cols && RowNumbers(t.rows, row => c in row && CellRepeats(row[c])) != []
      :: RowNumbers(t.rows, row => c in row && CellRepeats(row[c]))
  }

  /** A column is reported exactly when one of its cells repeats a value. */
  lemma MultiDuplicateInformationKeys(t: Table, cols: seq<string>, c: string)
    requires WellFormed(t) && Within(cols, t.columns)
    ensures c in MultiDuplicateInformation(t, cols) <==>
      c in cols && exists i :: 0 <= i < |t.rows| && CellRepeats(t.rows[i][c])
  {
    RowNumbersEmpty(t.rows, row => c in row && CellRepeats(row[c]));
  }

  /**
   `duplicated_entries_multi_value_columns` as written: it scans the columns
   in order and the cells top to bottom, and at the first cell that repeats a
   value it joins a list of integers with `", ".join`, which raises
   `TypeError`. A missing column raises `KeyError`.
   */
  function MultiDuplicateScanAsWritten(t: Table, cols: seq<string>): (r: Step)
    requires WellFormed(t)
    ensures r != Fail
    ensures r == Pass <==> Within(cols, t.columns) && MultiUnique(t, cols)
  {
    if |cols| == 0 then Pass
    else if cols[0] !in t.columns then Crash("KeyError")
    else if exists i :: 0 <= i < |t.rows| && CellRepeats(t.rows[i][cols[0]]) then
      var i :| 0 <= i < |t.rows| && CellRepeats(t.rows[i][cols[0]]);
      assert cols[0] in cols && cols[0] in t.rows[i];
      assert !MultiUnique(t, cols);
      Crash("TypeError")
    else
      var r := MultiDuplicateScanAsWritten(t, cols[1..]);
      assert Within(cols, t.columns) <==> Within(cols[1..], t.columns) by {
        assert forall c :: c in cols <==> c == cols[0] || c in cols[1..];
      }
      assert Within(cols, t.columns) ==> (MultiUnique(t, cols) <==> MultiUnique(t, cols[1..])) by {
        assert forall c :: c in cols <==> c == cols[0] || c in cols[1..];
      }
      r
  }

  /**
   Whenever a multi-value cell repeats a value and every listed column exists,
   the scan as written raises `TypeError` where the intended check makes the
   script return 1.
   */
  lemma {:induction false} MultiDuplicateAsWrittenRaises(t: Table, cols: seq<string>)
    requires WellFormed(t) && Within(cols, t.columns) && !MultiUnique(t, cols)
    ensures MultiDuplicateScanAsWritten(t, cols) == Crash("TypeError")
    ensures UniqueMultiStep(t, cols) == Fail
    decreases |cols|
  {
    if !exists i :: 0 <= i < |t.rows| && CellRepeats(t.rows[i][cols[0]]) {
      assert Within(cols[1..], t.columns);
      assert !MultiUnique(t, cols[1..]) by {
        var c, i :| c in cols && 0 <= i < |t.rows| && c in t.rows[i] && !NoDups(StrippedPieces(t.rows[i][c], ';'));
        assert c != cols[0];
        assert c in cols[1..] by { assert forall d :: d in cols <==> d == cols[0] || d in cols[1..]; }
      }
      MultiDuplicateAsWrittenRaises(t, cols[1..]);
    }
  }

  /** The cell `x;x` repeats a value. */
  lemma RepeatingCell()
    ensures CellRepeats("x;x")
  {
    assert "x;x"[1..] == ";x" && ";x"[1..] == "x" && "x"[1..] == "";
    SplitNoSep("x", ';');
    assert Split(";x", ';') == ["", "x"];
    assert Split("x;x", ';') == ["x", "x"];
    assert Strip("x") == "x";
    assert StrippedPieces("x;x", ';') == ["x", "x"];
  }

  /** The values gathered by `get_multi_column_data`. */
  ghost predicate Gathered(t: Table, single: seq<string>, multi: seq<string>, x: string) {
    (exists i, c :: 0 <= i < |t.rows| && c in single && c in t.rows[i] && t.rows[i][c] == x && !IsBlank(x))
    || (x != "" && exists i, c :: 0 <= i < |t.rows| && c in multi && c in t.rows[i] && StripsTo(Split(t.rows[i][c], ';'), x))
  }

  /**
   `get_multi_column_data`: the non-blank cells of the single-value columns as
   they are, and the stripped non-empty pieces of the multi-value columns.
   */
  function MultiColumnData(t: Table, single: seq<string>, multi: seq<string>): (r: set<string>)
    requires WellFormed(t) && Within(single, t.columns) && Within(multi, t.columns)
    ensures forall x :: x in r <==> Gathered(t, single, multi, x)
  {
    var singles := set i, c | 0 <= i < |t.rows| && c in single && !IsBlank(t.rows[i][c]) :: t.rows[i][c];
    var pieces := set i, c, p | 0 <= i < |t.rows| && c in multi && p in StrippedPieces(t.rows[i][c], ';') :: p;
    var r := singles + pieces;
    forall x ensures x in r <==> Gathered(t, single, multi, x) {
      MultiColumnDataMember(t, multi, x);
    }
    r
  }

  lemma MultiColumnDataMember(t: Table, multi: seq<string>, x: string)
    requires WellFormed(t) && Within(multi, t.columns)
    ensures (exists i, c :: 0 <= i < |t.rows| && c in multi && x in StrippedPieces(t.rows[i][c], ';'))
      <==> x != "" && exists i, c :: 0 <= i < |t.rows| && c in multi && c in t.rows[i] && StripsTo(Split(t.rows[i][c], ';'), x)
  {
    if exists i, c :: 0 <= i < |t.rows| && c in multi && x in StrippedPieces(t.rows[i][c], ';') {
      var i, c :| 0 <= i < |t.rows| && c in multi && x in StrippedPieces(t.rows[i][c], ';');
      NonEmptyStrippedMembers(Split(t.rows[i][c], ';'), ';', x);
    }
    if x != "" && exists i, c :: 0 <= i < |t.rows| && c in multi && c in t.rows[i] && StripsTo(Split(t.rows[i][c], ';'), x) {
      var i, c :| 0 <= i < |t.rows| && c in multi && c in t.rows[i] && StripsTo(Split(t.rows[i][c], ';'), x);
      NonEmptyStrippedMembers(Split(t.rows[i][c], ';'), ';', x);
    }
  }

  // ---------------------------------------------------------------- the steps of validate_df

  /** The result of one check: it passes, makes the script return 1, or raises. */
  datatype Step = Pass | Fail | Crash(error: string)

  /** The first check over `xs` that does not pass, in order; `Pass` when all pass. */
  function Scan<T>(xs: seq<T>, check: T -> Step): (r: Step)
    ensures r == Pass <==> forall k :: 0 <= k < |xs| ==> check(xs[k]) == Pass
    ensures r != Pass ==> exists k :: 0 <= k < |xs| && r == check(xs[k]) && forall j :: 0 <= j < k ==> check(xs[j]) == Pass
  {
    if |xs| == 0 then Pass
    else if check(xs[0]) != Pass then check(xs[0])
    else
      var r := Scan(xs[1..], check);
      assert forall k :: 0 < k < |xs| ==> xs[k] == xs[1..][k - 1];
      r
  }

  /** The scan stops at the first element that does not pass, with that element's result. */
  lemma {:induction false} ScanFirstFailure<T>(xs: seq<T>, check: T -> Step, k: nat)
    requires k < |xs| && check(xs[k]) != Pass
    requires forall j :: 0 <= j < k ==> check(xs[j]) == Pass
    ensures Scan(xs, check) == check(xs[k])
  {
    if k > 0 {
      assert check(xs[0]) == Pass;
      assert forall j :: 0 <= j < k - 1 ==> xs[1..][j] == xs[j + 1];
      ScanFirstFailure(xs[1..], check, k - 1);
    }
  }

  /** Duplicates in the style of the script: the values already seen earlier in the list. */
  function DuplicateStep(vals: seq<string>): (r: Step)
    ensures !r.Crash?
    ensures r == Pass <==> NoDups(vals)
  {
    RepeatsEmpty(vals);
    if Repeats(vals) != [] then Fail else Pass
  }

  function HeadingsStep(t: Table, cfg: Config): (r: Step)
    ensures !r.Crash?
    ensures r == Pass <==> HeadingsOk(t, cfg)
  {
    var required := set c | c in cfg.required;
    var optional := set c | c in cfg.optional;
    if required * optional != {} then Fail
    else if t.columns - (required + optional) != {} then Fail
    else if (required + optional) - t.columns != {} then Fail
    else
      assert forall c :: c in cfg.required || c in cfg.optional ==> c in required + optional;
      Pass
  }

  function WhitespaceStep(t: Table): (r: Step)
    ensures !r.Crash?
    ensures r == Pass <==> NoPadding(t)
  {
    var rows := RowNumbers(t.rows, HasPadding);
    RowNumbersEmpty(t.rows, HasPadding);
    if rows != [] then Fail else Pass
  }

  function RequiredStep(t: Table, required: seq<string>): (r: Step)
    requires WellFormed(t)
    ensures r.Crash? <==> !Within(required, t.columns)
    ensures r == Pass <==> Within(required, t.columns) && RequiredFilled(t, required)
  {
    if !Within(required, t.columns) then Crash("KeyError")
    else
      var rows := RowNumbers(t.rows, row => exists c | c in required :: c in row && row[c] == "");
      RowNumbersEmpty(t.rows, row => exists c | c in required :: c in row && row[c] == "");
      if rows != [] then Fail else Pass
  }

  function UniqueSingleStep(t: Table, cols: seq<string>): (r: Step)
    requires WellFormed(t)
    ensures r.Crash? <==> !Within(cols, t.columns)
    ensures r == Pass <==> Within(cols, t.columns) && SingleUnique(t, cols)
  {
    if !Within(cols, t.columns) then Crash("KeyError")
    else if DuplicateInformation(t, cols) != map[] then
      var c :| c in DuplicateInformation(t, cols);
      DuplicateInformationKeys(t, cols, c);
      Fail
    else
      assert SingleUnique(t, cols) by {
        forall c, i, j | c in cols && 0 <= i < j < |t.rows| && c in t.rows[i] && c in t.rows[j]
          ensures t.rows[i][c] != t.rows[j][c]
        {
          DuplicateInformationKeys(t, cols, c);
        }
      }
      Pass
  }

  /** The multi-value duplicate check as evidently intended: a repeat makes the script return 1. */
  function UniqueMultiStep(t: Table, cols: seq<string>): (r: Step)
    requires WellFormed(t)
    ensures r.Crash? <==> !Within(cols, t.columns)
    ensures r == Pass <==> Within(cols, t.columns) && MultiUnique(t, cols)
  {
    if !Within(cols, t.columns) then Crash("KeyError")
    else if MultiDuplicateInformation(t, cols) != map[] then
      var c :| c in MultiDuplicateInformation(t, cols);
      MultiDuplicateInformationKeys(t, cols, c);
      Fail
    else
      assert MultiUnique(t, cols) by {
        forall c, i | c in cols && 0 <= i < |t.rows| && c in t.rows[i]
          ensures NoDups(StrippedPieces(t.rows[i][c], ';'))
        {
          MultiDuplicateInformationKeys(t, cols, c);
        }
      }
      Pass
  }

  /** Gather the values of the columns and probe each, with `prefix` in front. */
  function LivenessStep(t: Table, single: seq<string>, multi: seq<string>, prefix: string,
                        probe: (string, bool) -> HttpOutcome, allowRedirects: bool): (r: Step)
    requires WellFormed(t)
    ensures r.Crash? <==> !Within(single, t.columns) || !Within(multi, t.columns)
    ensures r == Pass <==>
      (Within(single, t.columns) && Within(multi, t.columns) && AllLive(t, single, multi, prefix, probe, allowRedirects))
  {
    if !Within(single, t.columns) || !Within(multi, t.columns) then Crash("KeyError")
    else
      var values := MultiColumnData(t, single, multi);
      var invalid := set x | x in values && !UrlExists(probe(prefix + x, allowRedirects));
      if invalid != {} then
        var x :| x in invalid;
        Fail
      else
        assert forall x :: x in values ==> x in invalid || UrlExists(probe(prefix + x, allowRedirects));
        Pass
  }

  function ColumnIsInStep(t: Table, m: map<string, seq<string>>): (r: Step)
    requires WellFormed(t)
    ensures r.Crash? <==> !(m.Keys <= t.columns)
    ensures r == Pass <==> m.Keys <= t.columns && ValuesIn(t, m)
  {
    if !(m.Keys <= t.columns) then Crash("KeyError")
    else
      var unexpected := set c, i | c in m && 0 <= i < |t.rows| && t.rows[i][c] !in m[c] :: (c, t.rows[i][c]);
      if unexpected != {} then
        var u :| u in unexpected;
        Fail
      else
        assert ValuesIn(t, m) by {
          forall c, i | c in m && 0 <= i < |t.rows| && c in t.rows[i] ensures t.rows[i][c] in m[c] {
            assert (c, t.rows[i][c]) !in unexpected;
          }
        }
        Pass
  }

  function MultiColumnIsInStep(t: Table, m: map<string, seq<string>>): (r: Step)
    requires WellFormed(t)
    ensures r.Crash? <==> !(m.Keys <= t.columns)
    ensures r == Pass <==> m.Keys <= t.columns && PiecesIn(t, m)
  {
    if !(m.Keys <= t.columns) then Crash("KeyError")
    else
      var unexpected := set c, i, p | c in m && 0 <= i < |t.rows| && p in Split(t.rows[i][c], ';') && p != "" && p !in m[c] :: (c, p);
      if unexpected != {} then
        var u :| u in unexpected;
        Fail
      else
        assert PiecesIn(t, m) by {
          forall c, i, p | c in m && 0 <= i < |t.rows| && c in t.rows[i] && p in Split(t.rows[i][c], ';') && p != ""
            ensures p in m[c]
          {
            assert (c, p) !in unexpected;
          }
        }
        Pass
  }

  /** The outcome of a check that did not pass: 1 for a failure, the exception for a crash. */
  function Stop(s: Step): (r: Outcome)
    requires s != Pass
    ensures r == Returned(1) <==> s == Fail
    ensures r.Raised? <==> s.Crash?
  {
    if s == Fail then Returned(1) else Raised(s.error)
  }

  /**
   `validate_df`: 0 when the table passes every check, 1 at the first failing
   check, and an escaping `KeyError` when a check reaches a configured column
   the table lacks.
   */
  function ValidateDf(t: Table, cfg: Config, probe: (string, bool) -> HttpOutcome): (r: Outcome)
    requires WellFormed(t)
    ensures r.Returned? ==> r.code == 0 || r.code == 1
    ensures r == Returned(0) <==> ColumnsPresent(t, cfg) && Valid(t, cfg, probe)
    ensures r.Raised? ==> !ColumnsPresent(t, cfg)
    ensures ColumnsPresent(t, cfg) ==> r.Returned?
    ensures !HeadingsOk(t, cfg) ==> r == Returned(1)
    ensures HeadingsOk(t, cfg) && !NoPadding(t) ==> r == Returned(1)
  {
    var headings := HeadingsStep(t, cfg);
    if headings != Pass then Stop(headings) else
    var whitespace := WhitespaceStep(t);
    if whitespace != Pass then Stop(whitespace) else
    HeadingsRequired(t, cfg);
    var required := RequiredStep(t, cfg.required);
    if required != Pass then Stop(required) else
    var single := UniqueSingleStep(t, cfg.uniqueSingle);
    if single != Pass then Stop(single) else
    var multi := UniqueMultiStep(t, cfg.uniqueMulti);
    if multi != Pass then Stop(multi) else
    var urls := LivenessStep(t, cfg.urlColumns, cfg.multiUrlColumns, "", probe, cfg.allowRedirects);
    if urls != Pass then Stop(urls) else
    var dois := LivenessStep(t, cfg.doiColumns, cfg.multiDoiColumns, DoiResolver, probe, cfg.allowRedirects);
    if dois != Pass then Stop(dois) else
    var values := ColumnIsInStep(t, cfg.columnIsIn);
    if values != Pass then Stop(values) else
    var pieces := MultiColumnIsInStep(t, cfg.multiValueColumnIsIn);
    if pieces != Pass then Stop(pieces) else
    Returned(0)
  }

  /** Correct headings put every required column in the table. */
  lemma HeadingsRequired(t: Table, cfg: Config)
    ensures HeadingsOk(t, cfg) ==> Within(cfg.required, t.columns)
  {
  }
}

=== FILE: zenodo.dfy ===
/**
 `validate_zenodo_json`: the checks on the `.zenodo.json` metadata file. The
 parsed document is a JSON value; each check either passes, makes the script
 return 1, or fails on a Python exception. Whether an ORCID page exists is an
 oracle over its URL (`check_urls` without redirects).
 */
module Zenodo {
  import opened Text
  import opened Seqs
  import opened Tables
  import opened Links
  import opened Validation

  /** A value as `json.load` returns it (floats are not distinguished from integers). */
  datatype Json =
    | JNull
    | JBool(b: bool)
    | JNum(n: int)
    | JStr(s: string)
    | JArr(items: seq<Json>)
    | JObj(fields: map<string, Json>)

  /** The Python type of a JSON value, as far as the checks distinguish types. */
  datatype PyType = StrType | ListType | DictType | OtherType

  function TypeOf(j: Json): PyType {
    match j
    case JStr(_) => StrType
    case JArr(_) => ListType
    case JObj(_) => DictType
    case _ => OtherType
  }

  /** The top-level keys the file must have, each with the type of its value. */
  const KeyTypes: map<string, PyType> := map[
    "title" := StrType, "upload_type" := StrType, "description" := StrType,
    "creators" := ListType, "grants" := ListType, "keywords" := ListType,
    "license" := DictType]

  /** The fixed positions of the creator list. */
  const FirstOrcid := "0000-0003-0315-7727"
  const SecondToLastOrcid := "0000-0003-1495-9143"
  const LastOrcid := "0000-0003-4379-8967"

  /** The text of field `f` of an object, `""` when there is no such text. */
  function FieldText(j: Json, f: string): string {
    if j.JObj? && f in j.fields && j.fields[f].JStr? then j.fields[f].s else ""
  }

  function Name(c: Json): string {
    FieldText(c, "name")
  }

  function Orcid(c: Json): string {
    FieldText(c, "orcid")
  }

  // ---------------------------------------------------------------- declarative requirements

  /** Exactly the expected keys, each with a value of the expected type. */
  ghost predicate Shaped(fields: map<string, Json>) {
    fields.Keys == KeyTypes.Keys && forall k :: k in KeyTypes ==> TypeOf(fields[k]) == KeyTypes[k]
  }

  /** Field `name` holds text that is not blank. */
  predicate Filled(f: map<string, Json>, name: string) {
    name in f && f[name].JStr? && !IsBlank(f[name].s)
  }

  /** Field `name` holds something other than text. */
  predicate NotText(f: map<string, Json>, name: string) {
    name in f && !f[name].JStr?
  }

  /** A creator object with a non-blank text for each of the three fields. */
  ghost predicate CreatorComplete(c: Json) {
    c.JObj? && Filled(c.fields, "affiliation") && Filled(c.fields, "name") && Filled(c.fields, "orcid")
  }

  /**
   The creator check raises: the entry is not an object, or it has the three
   fields and, checking affiliation, name and orcid in that order, the first
   one that is not non-blank text is not text at all.
   */
  ghost predicate CreatorRaises(c: Json) {
    !c.JObj? ||
    ("affiliation" in c.fields && "name" in c.fields && "orcid" in c.fields &&
     (NotText(c.fields, "affiliation") ||
      (Filled(c.fields, "affiliation") &&
       (NotText(c.fields, "name") || (Filled(c.fields, "name") && NotText(c.fields, "orcid"))))))
  }

  /** The creators' ORCIDs as written. */
  function Orcids(cs: seq<Json>): (os: seq<string>)
    ensures |os| == |cs| && forall k :: 0 <= k < |cs| ==> os[k] == Orcid(cs[k])
  {
    seq(|cs|, k requires 0 <= k < |cs| => Orcid(cs[k]))
  }

  /** The creators between the first and the last two: Python's `creators[1:-2]`. */
  function Middle(cs: seq<Json>): (m: seq<Json>)
    ensures |cs| >= 3 ==> m == cs[1..|cs| - 2]
    ensures |cs| < 3 ==> m == []
  {
    if |cs| >= 3 then cs[1..|cs| - 2] else []
  }

  /** The first creator and the last two are fixed; those in between are in name order. */
  ghost predicate CreatorOrder(cs: seq<Json>) {
    |cs| >= 3 && Orcid(cs[0]) == FirstOrcid && Orcid(cs[|cs| - 2]) == SecondToLastOrcid
    && Orcid(cs[|cs| - 1]) == LastOrcid && SortedBy(Middle(cs), Name)
  }

  /** A grant object whose `id` is non-blank text. */
  ghost predicate GrantComplete(g: Json) {
    g.JObj? && "id" in g.fields && g.fields["id"].JStr? && !IsBlank(g.fields["id"].s)
  }

  /** The grant check raises: not an object (`TypeError`), no `id` (`KeyError`) or an `id` that is not text. */
  ghost predicate GrantRaises(g: Json) {
    !g.JObj? || "id" !in g.fields || !g.fields["id"].JStr?
  }

  function GrantIds(gs: seq<Json>): (ids: seq<string>)
    ensures |ids| == |gs| && forall k :: 0 <= k < |gs| ==> ids[k] == FieldText(gs[k], "id")
  {
    seq(|gs|, k requires 0 <= k < |gs| => FieldText(gs[k], "id"))
  }

  /** The requirements on the creator and grant lists, with `live` telling which ORCID pages exist. */
  ghost predicate ListsValid(cs: seq<Json>, gs: seq<Json>, live: string -> bool) {
    CreatorsValid(cs, live) && GrantsValid(gs)
  }

  /** Complete, distinct creators with existing ORCID pages, in the required order. */
  ghost predicate CreatorsValid(cs: seq<Json>, live: string -> bool) {
    (forall k :: 0 <= k < |cs| ==> CreatorComplete(cs[k]))
    && NoDups(Orcids(cs))
    && (forall k :: 0 <= k < |cs| ==> live(OrcidSite + Orcid(cs[k])))
    && CreatorOrder(cs)
  }

  /** Complete grants with distinct ids. */
  ghost predicate GrantsValid(gs: seq<Json>) {
    (forall k :: 0 <= k < |gs| ==> GrantComplete(gs[k])) && NoDups(GrantIds(gs))
  }

  /** Every requirement on the file. */
  ghost predicate ZenodoValid(doc: Json, live: string -> bool) {
    doc.JObj? && Shaped(doc.fields) && ListsValid(doc.fields["creators"].items, doc.fields["grants"].items, live)
  }

  // ---------------------------------------------------------------- the checks

  /** One creator field: blank text fails, anything but text raises on `.strip()`. */
  function FieldStep(f: map<string, Json>, name: string): (r: Step)
    requires name in f
    ensures r == Pass <==> f[name].JStr? && !IsBlank(f[name].s)
    ensures r.Crash? <==> !f[name].JStr?
    ensures r.Crash? ==> r.error == "AttributeError"
  {
    match f[name]
    case JStr(s) => if IsBlank(s) then Fail else Pass
    case _ => Crash("AttributeError")
  }

  function CreatorStep(c: Json): (r: Step)
    ensures r == Pass <==> CreatorComplete(c)
    ensures r.Crash? <==> CreatorRaises(c)
    ensures r.Crash? ==> r.error == "AttributeError"
  {
    if !c.JObj? then Crash("AttributeError")
    else if !("affiliation" in c.fields && "name" in c.fields && "orcid" in c.fields) then Fail
    else
      var a := FieldStep(c.fields, "affiliation");
      if a != Pass then a else
      var n := FieldStep(c.fields, "name");
      if n != Pass then n else
      FieldStep(c.fields, "orcid")
  }

  /** The position checks and the name order; `IndexError` for an empty creator list. */
  function OrderStep(cs: seq<Json>): (r: Step)
    ensures r == Pass <==> CreatorOrder(cs)
    ensures r.Crash? <==> |cs| == 0
    ensures r.Crash? ==> r.error == "IndexError"
  {
    if |cs| == 0 then Crash("IndexError")
    else if Orcid(cs[0]) != FirstOrcid then Fail
    else if Orcid(cs[|cs| - 1]) != LastOrcid then Fail
    // With one or two creators the fixed positions overlap, and the distinct fixed ORCIDs cannot all match.
    else if |cs| < 3 || Orcid(cs[|cs| - 2]) != SecondToLastOrcid then Fail
    else
      SortByFixpoint(Middle(cs), Name);
      if SortBy(Middle(cs), Name) != Middle(cs) then Fail else Pass
  }

  function GrantStep(g: Json): (r: Step)
    ensures r == Pass <==> GrantComplete(g)
    ensures r.Crash? <==> GrantRaises(g)
  {
    if !g.JObj? then Crash("TypeError")
    else if "id" !in g.fields then Crash("KeyError")
    else match g.fields["id"]
      case JStr(s) => if IsBlank(s) then Fail else Pass
      case _ => Crash("AttributeError")
  }

  /** The ORCID page of every creator must exist. */
  function OrcidStep(cs: seq<Json>, live: string -> bool): (r: Step)
    ensures !r.Crash?
    ensures r == Pass <==> forall k :: 0 <= k < |cs| ==> live(OrcidSite + Orcid(cs[k]))
  {
    if exists k :: 0 <= k < |cs| && !live(OrcidSite + Orcid(cs[k])) then Fail else Pass
  }

  /** The checks on the creator and grant lists, in the order the script makes them. */
  function ListsStep(cs: seq<Json>, gs: seq<Json>, live: string -> bool): (r: Outcome)
    ensures r.Returned? ==> r.code == 0 || r.code == 1
    ensures r == Returned(0) <==> ListsValid(cs, gs, live)
  {
    var creators := CreatorsStep(cs, live);
    if creators != Pass then Stop(creators) else
    var grants := GrantsStep(gs);
    if grants != Pass then Stop(grants) else
    Returned(0)
  }

  /** Field completeness, uniqueness, ORCID pages and order of the creators, in that order. */
  function CreatorsStep(cs: seq<Json>, live: string -> bool): (r: Step)
    ensures r == Pass <==> CreatorsValid(cs, live)
    ensures r == Crash("IndexError") <==> cs == []
  {
    var complete := Scan(cs, CreatorStep);
    CreatorScanRaises(cs);
    if complete != Pass then complete else
    var unique := DuplicateStep(Orcids(cs));
    if unique != Pass then unique else
    var found := OrcidStep(cs, live);
    if found != Pass then found else
    OrderStep(cs)
  }

  /** Checking the creators one by one raises nothing but `AttributeError`. */
  lemma CreatorScanRaises(cs: seq<Json>)
    ensures Scan(cs, CreatorStep) == Pass <==> forall k :: 0 <= k < |cs| ==> CreatorComplete(cs[k])
    ensures Scan(cs, CreatorStep).Crash? ==> Scan(cs, CreatorStep).error == "AttributeError"
  {
    if Scan(cs, CreatorStep) != Pass {
      var k :| 0 <= k < |cs| && Scan(cs, CreatorStep) == CreatorStep(cs[k]) && forall j :: 0 <= j < k ==> CreatorStep(cs[j]) == Pass;
    }
  }

  /** Field completeness, then uniqueness, of the grant ids. */
  function GrantsStep(gs: seq<Json>): (r: Step)
    ensures r == Pass <==> GrantsValid(gs)
    ensures r.Crash? ==> exists k :: 0 <= k < |gs| && GrantRaises(gs[k])
  {
    var complete := Scan(gs, GrantStep);
    if complete != Pass then complete else
    DuplicateStep(GrantIds(gs))
  }

  /** The checks on the top-level shape of the file. */
  function ShapeStep(doc: Json): (r: Step)
    ensures r == Pass <==> doc.JObj? && Shaped(doc.fields)
    ensures r.Crash? <==> !doc.JObj?
    ensures r.Crash? ==> r.error == "AttributeError"
  {
    if !doc.JObj? then Crash("AttributeError")
    else if doc.fields.Keys != KeyTypes.Keys then Fail
    else if exists k | k in KeyTypes :: TypeOf(doc.fields[k]) != KeyTypes[k] then Fail
    else Pass
  }

  /**
   `validate_zenodo_json`: returns 0 exactly when every requirement holds, 1
   when a requirement fails, and raises when a value has a type the next
   check cannot handle or the creator list is empty.
   */
  function ValidateZenodoJson(doc: Json, live: string -> bool): (r: Outcome)
    ensures r.Returned? ==> r.code == 0 || r.code == 1
    ensures r == Returned(0) <==> ZenodoValid(doc, live)
    ensures !doc.JObj? ==> r == Raised("AttributeError")
    ensures doc.JObj? && !Shaped(doc.fields) ==> r == Returned(1)
  {
    var shape := ShapeStep(doc);
    if shape != Pass then Stop(shape)
    else ListsStep(doc.fields["creators"].items, doc.fields["grants"].items, live)
  }

  // ---------------------------------------------------------------- properties

  /** A well-shaped file with an empty creator list raises `IndexError`. */
  lemma EmptyCreatorsRaise(doc: Json, live: string -> bool)
    requires doc.JObj? && Shaped(doc.fields) && doc.fields["creators"].items == []
    ensures ValidateZenodoJson(doc, live) == Raised("IndexError")
  {
    assert Orcids([]) == [];
  }

  /** Putting the middle creators in name order is all it takes to satisfy the order check. */
  lemma {:induction false} SortingMiddleRepairsOrder(first: Json, middle: seq<Json>, secondToLast: Json, last: Json)
    requires Orcid(first) == FirstOrcid && Orcid(secondToLast) == SecondToLastOrcid && Orcid(last) == LastOrcid
    ensures CreatorOrder([first] + SortBy(middle, Name) + [secondToLast, last])
    ensures OrderStep([first] + SortBy(middle, Name) + [secondToLast, last]) == Pass
  {
    var cs := [first] + SortBy(middle, Name) + [secondToLast, last];
    assert Middle(cs) == SortBy(middle, Name);
    SortBySorted(middle, Name);
  }

  /** Swapping two middle creators whose names are strictly out of order breaks the order check. */
  lemma OutOfOrderRejected(cs: seq<Json>, i: nat)
    requires |cs| >= 3 && 1 <= i && i + 1 < |cs| - 2
    requires !LexLe(Name(cs[i]), Name(cs[i + 1]))
    ensures OrderStep(cs) != Pass
  {
    assert Middle(cs)[i] == cs[i + 1] && Middle(cs)[i - 1] == cs[i];
  }
}
